=== FILE: README.md ===
# Job marketplace backend: the request logic, modelled and proved in Dafny

This project models the request handlers of a job-marketplace API:
- job posts and job opportunities (`/api/jobs`);
- user profiles and their reviews (`/api/users`);
- small businesses, or *emprendimientos* (`/api/emprendimientos`);
- a company's employees with their memorandums and recognitions (`/api/employees`);
- a company directory (`/api/companies`);
- registration, login and password change (`/api/auth`);
- the classifier that maps failures of external calls to HTTP answers (`utils/errorHandler.js`).

Each route's effect on the database is modelled, not the SQL text it builds.

## How the model is organised

- `Db` (store.dfy) is the SQL Server database: one table per entity, each a map from key to row.
  - Rows are maps from column to `Cell` (NULL, text, number, bit, time or a password digest).
  - `Columns` lists each table's columns as the schema script creates them. `Consistent` states every constraint of the schema: NOT NULL, CHECK, UNIQUE on `Users.email`, and the FOREIGN KEYs, including the ON DELETE CASCADE from memorandums and recognitions to employees.
  - The class `Db.Store` holds the tables. Its `Insert`, `Update` and `Delete` methods change them only when the resulting state keeps every constraint, and otherwise fail without change, as the database does.
- `Json` (json.dfy) writes values as `JSON.stringify` does and reads them with the grammar `JSON.parse` accepts, lone surrogate escapes aside. The round trip `Parse(Stringify(j)) == Some(j)` is proved.
  - `Parse` keeps an object's members as written, repeated keys included, where `JSON.parse` keeps one member per key. Only the property read of the review ratings (`UserRoutes.Property`) looks a key up, and it takes the last value, as `JSON.parse` does.
  - `FieldCodec` is the routes' `parseJsonField` and `stringifyJsonField`.
  - `JsValues` holds the JavaScript values a request body carries: `undefined`, truthiness, `x || y`, `String(v)` and `parseFloat`.
- `Http` holds responses, the express-validator rules and the views a route sends. A rule checks each element of an array value, and the value itself otherwise.
  - `Binding` holds how the driver binds a value as `NVarChar`, `Float`, `Bit` or `DateTime`.
  - `Listing` holds the list queries: optional equality and LIKE filters, and an ORDER BY.
- `DynamicUpdate` is the partial-update loop every PUT route runs: a whitelist of fields, one assignment per field the body defines, then `updatedAt`.
- `Handlers` holds the shapes shared by the routes: 404, then 403, then the update; delete; create.
  - Each is a function from the tables before and the request to a `Step`: the response and the tables after.
  - The handler methods, which change a `Store`, are proved to produce exactly that step.
- `Jobs`, `UserRoutes`, `EmprendimientoRoutes`, `EmployeeRoutes`, `CompanyRoutes` and `AuthRoutes` hold one route per method.
  - Each route method is specified by a step function or a predicate.
  - The lemmas beside each route state what the route promises.
- `ErrorHandler` is `classifyError`, `safeExternalCall` and `sendErrorResponse`.

Inputs from outside the handlers are parameters of the model:
- the current time (`now`, standing for `GETDATE()` and `new Date()`);
- the generated key (`generateId`);
- the caller's token claims;
- the `Runtime`, which holds the `isEmail` and `isISO8601` validators and `new Date(v)`.

## Model

| member | source | states |
|---|---|---|
| ErrorHandler.ClassifyError | utils/errorHandler.js:11-65 | each of the five outcomes is chosen exactly when its rule matches and no earlier rule does (network, timeout, authentication, rate limit, then generic), and carries that outcome's fixed status |
| ErrorHandler.ClassifyTotal | utils/errorHandler.js:11-65 | every error gets exactly one of the five fixed answers, with status 503, 504, 502 or 429 |
| ErrorHandler.NetworkFirst | utils/errorHandler.js:16-56 | a network code such as `ENOTFOUND` wins over any message or status, 429 included |
| ErrorHandler.CaseInsensitive | utils/errorHandler.js:12 | a message classifies the same as its lower-case form |
| ErrorHandler.UpperCaseTimeout | utils/errorHandler.js:12-35 | "TIMEOUT" in capitals still gives the timeout outcome |
| ErrorHandler.MissingMessage | utils/errorHandler.js:12-13 | a missing message decides like an empty one, so only code and status matter |
| ErrorHandler.TimeoutRule | utils/errorHandler.js:28-35 | `ETIMEDOUT`, or a message mentioning a timeout, without a network sign gives the timeout outcome |
| ErrorHandler.StatusAlone | utils/errorHandler.js:38-56 | a bare 401 gives the authentication outcome; a bare 429 gives the rate-limit outcome |
| ErrorHandler.CodeName | utils/errorHandler.js:16-64 | every outcome is sent under a non-empty code |
| ErrorHandler.CodeNamesDistinct | utils/errorHandler.js:16-64 | different outcomes are sent under different codes |
| ErrorHandler.SafeExternalCall | utils/errorHandler.js:72-99 | success returns the call's data; failure returns the code, title, message and status of the error's classification; details appear only in development, and then are the raw message |
| ErrorHandler.SendErrorResponse | utils/errorHandler.js:106-112 | the body always has `ok: false` and the given error; the status is the given one, or 500 when it is absent or 0 |
| ErrorHandler.FailedCallStatus | utils/errorHandler.js:77-107 | a failed call passed on is answered with exactly the status of its classification |
| Strings.Lower | utils/errorHandler.js:12 | lower-casing keeps the length and lower-cases each character |
| Strings.LowerIdempotent | utils/errorHandler.js:12 | lower-casing twice is lower-casing once |
| Strings.ContainsOccurs | utils/errorHandler.js:16-56 | `includes` finds the needle exactly when it occurs at some position |
| Strings.LongerNeedle | utils/errorHandler.js:16-56 | a needle longer than the text is never found |
| Strings.LexTotal | routes/companies.js:40 | any two names are ordered one way or the other |
| Strings.LexTrans | routes/companies.js:40 | the name order is transitive |
| Strings.LexAntisymmetric | routes/companies.js:40 | names that sort no later than each other are equal |
| Json.ParseStringify | routes/jobs.js:10-22 | what `JSON.stringify` writes, `JSON.parse` reads back as the same value, for every JSON value |
| Json.ValueRoundTrip | routes/jobs.js:10-22 | a written value is read back, and reading stops exactly where the writing ended |
| Json.NumberRoundTrip | routes/jobs.js:10-22 | a written number reads back as the same decimal |
| Json.StrRoundTrip | routes/jobs.js:10-22 | a written string, escapes included, reads back as the same string |
| Json.NatTextValue | routes/jobs.js:10-22 | the decimal digits written for a natural number denote it and have no leading zero |
| Json.PairRoundTrip | routes/jobs.js:10-14 | a `\uHHHH\uLLLL` escape of a UTF-16 surrogate pair reads back as the one character beyond the 16-bit range that it encodes |
| Json.EmojiEscape | routes/jobs.js:10-14 | the escape `\ud83d\ude00`, as other JSON encoders write it, reads as U+1F600 |
| FieldCodec.ParseJsonField | routes/jobs.js:10-17 | falsy gives `null`; non-text passes through unchanged; text gives its parse, or `null` when it does not parse, never an exception |
| FieldCodec.StringifyJsonField | routes/jobs.js:19-22 | falsy gives `null`; arrays and objects give their JSON text; anything else passes through |
| FieldCodec.ParseStringifyField | routes/jobs.js:10-22 | every array or object comes back unchanged from stringify then parse |
| FieldCodec.ScalarsPassThrough | routes/jobs.js:10-22 | a number or `true` passes both helpers untouched |
| FieldCodec.Decoded | routes/jobs.js:58-59 | `parseJsonField(column) \|\| fallback` is never falsy; it is the stored value when that parses to a truthy value, and the fallback for NULL, for unparseable text, for text that parses to a falsy value (`"null"`, `"0"`, `"false"`) and for a cell that is not text |
| FieldCodec.DecodedOrNull | routes/users.js:9-16 | as the user routes decode their JSON columns: a NULL column is sent as `null`, not `[]`; so is empty text and text that does not parse; parseable text is sent decoded |
| FieldCodec.StoredRoundTrip | routes/jobs.js:19-59 | an array or object stored through `stringifyJsonField` reads back as itself, with or without a fallback |
| JsValues.Lookup | routes/jobs.js:109 | `req.body[key]` is `undefined` exactly when the key is absent, and otherwise the sent value |
| JsValues.Or | routes/jobs.js:123 | `x \|\| fallback` keeps a truthy `x` and replaces a falsy one |
| JsValues.ValidatorText | routes/auth.js:17-20 | a validator reads `undefined` and `null` as empty text, and a string as itself |
| JsValues.NumberTextFloat | routes/users.js:243-248 | the text `String(n)` gives a number matches the `isFloat` pattern, and `parseFloat` reads it back as that number |
| JsValues.FloatSyntaxAppend | routes/users.js:243-248 | after a text of the `isFloat` pattern, a comma and anything after it do not change what `parseFloat` reads |
| JsValues.FirstElementFloat | routes/users.js:243-248 | `parseFloat(String(array))` reads the first element when that element's text matches the `isFloat` pattern |
| JsValues.LeadingZeros | routes/employees.js:90 | `parseFloat` reads "0500" as 500, and `isFloat` accepts it |
| JsValues.TrailingPoint | routes/employees.js:90 | `parseFloat` reads "5." as 5, and `isFloat` accepts it |
| JsValues.LeadingPoint | routes/users.js:210 | `parseFloat` reads ".5" as 0.5, and `isFloat` accepts it |
| JsValues.PlusSign | routes/users.js:210 | `parseFloat` reads "+3" as 3, and `isFloat` accepts it |
| JsValues.CommaStops | routes/users.js:243-248 | `parseFloat` reads "4,5" as 4, and `isFloat` refuses it |
| Binding.AsText | routes/companies.js:91-103 | an `NVarChar` parameter is NULL exactly for `null` and `undefined`, and a string is stored as itself |
| Binding.AsFloat | routes/employees.js:114 | a `Float` parameter is NULL for `null` and `undefined`; otherwise it is an error exactly when `parseFloat(String(v))` is NaN, and else that number |
| Binding.PaddedFloat | routes/employees.js:158-166 | a salary sent as the text "0500" is stored as 500 |
| Binding.AsBit | routes/users.js:177 | a `Bit` parameter is NULL for `null` and `undefined`, and otherwise the value's truth |
| Binding.AsDate | routes/employees.js:112 | a `DateTime` parameter holding `new Date(v)` is an error exactly when the date is invalid |
| Binding.FloatOfNumber | routes/employees.js:114 | a number sent in the body is stored as exactly that number |
| Binding.JsonFieldStored | routes/users.js:155-158 | an array or object sent for a JSON column is stored as its JSON text and reads back as itself |
| Binding.DefaultedJsonReadsBack | routes/emprendimientos.js:103 | `stringifyJsonField(value \|\| fallback)` reads back as the array or object sent, or as the fallback for a falsy value |
| Http.Checked | routes/users.js:210 | a validator runs on each element of an array, and on any other value once |
| Http.CheckErrors | routes/users.js:210-216 | one check reports one error per checked value whose text fails, carrying that value; none exactly when every checked value passes |
| Http.Validate | routes/auth.js:23-26 | the errors of each check in declaration order, each naming its check's field and message and a failing value; no errors exactly when every check passes |
| Http.ValidateEach | routes/auth.js:17-26 | a list of checks reports no errors exactly when each of its checks passes |
| Http.PassesText | routes/auth.js:17-20 | `notEmpty` asks every checked text to be non-empty, and `isEmail` and `isISO8601` ask the validator about every checked text, `undefined` and `null` reading as empty |
| Http.PassesLength | routes/auth.js:19 | `isLength({min: n})` asks every checked text for at least `n` characters |
| Http.PassesIn | routes/auth.js:20 | `isIn(options)` asks every checked text to be one of the options |
| Http.EveryScalar | routes/auth.js:17-20 | a value that is not an array is checked once, through its own text |
| Http.EmptyArrayPasses | routes/users.js:210 | an empty array passes every rule, `notEmpty` included, while the empty string fails `notEmpty` |
| Http.AtLeast | routes/employees.js:90 | `isFloat({min})` accepts exactly when every checked text matches the float pattern and `parseFloat` reads it as a number of at least `min` |
| Http.FloatCheck | routes/users.js:210 | a value accepted by `isFloat({min, max})` was sent, and `parseFloat(String(v))` reads it as a number within the bounds, unless it is the empty array |
| Http.RowView | routes/companies.js:44 | a row read by `SELECT *` is sent column by column as stored |
| Http.WithoutPassword | routes/auth.js:117 | `delete user.password` removes the password and keeps every other property |
| Http.Sent | routes/auth.js:69 | an `undefined` request value is left out of the answer; any other value is sent as given |
| Listing.Matching | routes/companies.js:16-38 | the WHERE clause keeps exactly the rows satisfying every given filter |
| Listing.EqualsIfGiven | routes/companies.js:19-34 | an equality filter is added exactly when its query parameter is a non-empty string |
| Listing.SearchIfGiven | routes/companies.js:35-38 | a LIKE filter over the searched columns is added exactly when `search` is non-empty |
| Listing.PrecedesTotal | routes/companies.js:40 | under any ORDER BY, one of any two rows may come first |
| Listing.PrecedesTrans | routes/companies.js:40 | the ORDER BY is transitive |
| Listing.HasFirst | routes/companies.js:40 | every non-empty set of rows has one that may come first |
| Listing.Select | routes/companies.js:40-44 | the query lists each matching row exactly once, in an order the ORDER BY allows |
| Handlers.List | routes/companies.js:11-44 | a list route answers with the matching rows in the query's order, each shaped by the route's `map` |
| Handlers.ViewsOf | routes/jobs.js:56-60 | the list sent has one entry per listed row, that row as the route's `map` shapes it |
| Handlers.RowsOf | routes/employees.js:72-73 | the rows attached are the listed rows, in the listed order |
| Handlers.OrNull | routes/companies.js:91-103 | `value \|\| null` stores a falsy value as NULL and anything else as text |
| Handlers.Refuse | routes/jobs.js:148-154 | an error answer carries its status and message and leaves the data as it was |
| Handlers.Run | routes/companies.js:157-163 | a statement either applies and the route answers success, or fails, and the route answers its 500 with no change; constraints are kept either way |
| Handlers.UpdateStep | routes/companies.js:151-159 | 400 exactly when the body defines none of the listed fields; 200 exactly when the fields bind and the UPDATE keeps every constraint, and then the row takes the patch; any other answer changes nothing |
| Handlers.OwnedUpdate | routes/jobs.js:144-198 | 404 exactly for a missing row, then 403 exactly for a caller who is not the owner, then 400 for no fields, then the update; every refusal changes nothing |
| Handlers.ExistingUpdate | routes/companies.js:128-159 | 404 exactly for a missing row, then 400 for no fields, then the update; every refusal changes nothing |
| Handlers.UpdateStepKeeps | routes/companies.js:139-157 | a successful update changes the one row named, and in it only listed columns and `updatedAt`; every other row and table stays |
| Handlers.OwnerKept | routes/jobs.js:156-196 | a successful owned update leaves every row's owner as it was |
| Handlers.NullIntoRequired | routes/companies.js:144-162 | sending `null` for a NOT NULL column makes the UPDATE fail: the route answers 500 and nothing changes |
| Handlers.RequiredNullBreaks | scripts/initDatabase.js:47 | NULL written into a NOT NULL column breaks the schema |
| Handlers.PutRow | routes/users.js:128-200 | the PUT handler's new state and answer are exactly those of `UpdateStep` |
| Handlers.PutOwned | routes/jobs.js:138-203 | the owner-checked PUT handler's new state and answer are exactly those of `OwnedUpdate` |
| Handlers.PutExisting | routes/companies.js:123-164 | the existence-checked PUT handler's new state and answer are exactly those of `ExistingUpdate` |
| Handlers.DeleteStep | routes/companies.js:167-181 | 200 exactly when the delete keeps every constraint, and then the row (and any cascade) is gone; otherwise 500 and no change |
| Handlers.OwnedDelete | routes/emprendimientos.js:188-215 | 404 exactly for a missing row, 403 exactly for a non-owner, then the delete; refusals change nothing |
| Handlers.DeleteSucceeds | routes/companies.js:172-176 | deleting from a table no foreign key points at always answers 200 and removes exactly that row |
| Handlers.Remove | routes/companies.js:167-181 | the delete handler's new state and answer are exactly those of `DeleteStep` |
| Handlers.RemoveOwned | routes/emprendimientos.js:188-215 | the owner-checked delete handler's new state and answer are exactly those of `OwnedDelete` |
| Handlers.InsertStep | routes/companies.js:88-118 | 201 with the new key exactly when the row binds, the key is free and the INSERT keeps every constraint; otherwise 500 and no change |
| Handlers.CreateStep | routes/companies.js:76-118 | 400 with the validation errors exactly when a check fails, with no insert; otherwise the INSERT |
| Handlers.InsertRow | routes/companies.js:88-115 | the INSERT handler's new state and answer are exactly those of `InsertStep` |
| Handlers.Create | routes/companies.js:73-120 | the create handler's new state and answer are exactly those of `CreateStep` |
| DynamicUpdate.Whitelist | routes/companies.js:139-142 | the route's field list names exactly its columns, in order, each with its encoding, and no column twice |
| DynamicUpdate.CollectAssignments | routes/companies.js:144-149 | the loop pushes one assignment per listed field the body defines, in list order |
| DynamicUpdate.AssignmentsExact | routes/companies.js:144-153 | the assignments set exactly the listed columns the body defines, each to the sent value; there are none exactly when the body defines none |
| DynamicUpdate.AssignmentsDistinct | routes/companies.js:144-149 | distinct listed columns give assignments to distinct columns |
| DynamicUpdate.BindAll | routes/employees.js:164-169 | binding succeeds exactly when every assigned value binds, and binds exactly the assigned columns |
| DynamicUpdate.BindAllValues | routes/employees.js:164-169 | each column receives the value bound for it |
| DynamicUpdate.PatchExact | routes/companies.js:144-157 | the UPDATE writes exactly the listed fields the body defines, each with its bound value, plus `updatedAt`, and nothing else |
| DynamicUpdate.PresentListed | routes/companies.js:139-149 | only listed columns can change |
| DynamicUpdate.UpdatedWritesExactly | routes/companies.js:144-157 | the UPDATE changes one row of one table: the listed fields sent, and `updatedAt`; every other column, row and table keeps its value |
| DynamicUpdate.PartialUpdate | routes/jobs.js:156-198 | no fields is "no fields" with no change; otherwise the fields are bound and the UPDATE with `updatedAt` runs, applied exactly when it keeps every constraint |
| Db.Store.constructor | scripts/initDatabase.js:13-37 | a new database has every table empty |
| Db.Store.Insert | scripts/initDatabase.js:13-37 | an INSERT succeeds exactly when the key is free and the new state keeps every constraint, with unnamed columns taking their defaults; on failure nothing changes; a consistent database stays consistent |
| Db.Store.Update | scripts/initDatabase.js:13-37 | an UPDATE by key succeeds exactly when the new state keeps every constraint; a missing key is no change and no error; a consistent database stays consistent |
| Db.Store.Delete | scripts/initDatabase.js:147 | a DELETE succeeds exactly when no foreign key still points at the row once the cascade has run; on failure nothing changes; a consistent database stays consistent |
| Db.Store.Commit | scripts/initDatabase.js:13-184 | a statement's result is kept exactly when it satisfies the schema; a consistent database stays consistent |
| Db.DefaultRow | scripts/initDatabase.js:29-37 | an INSERT naming no column starts from a row of exactly the table's columns |
| Db.Unlinked | scripts/initDatabase.js:147 | the cascade keeps exactly the children that do not refer to the deleted employee |
| Db.UpdateTouchesOneRow | routes/users.js:255 | an UPDATE leaves other rows and tables as they were and writes exactly the assigned columns |
| Db.InsertAddsOneRow | routes/auth.js:46-57 | an INSERT adds one row and changes nothing else |
| Db.InsertedRow | routes/emprendimientos.js:99-114 | the inserted row holds the given values over the defaults, and its own key |
| Db.DanglingInsert | scripts/initDatabase.js:147 | a row inserted with a key naming no parent breaks that FOREIGN KEY |
| Db.DeletedWithin | scripts/initDatabase.js:147 | a deletion only ever removes rows |
| Db.DeleteKeepsRowsOk | scripts/initDatabase.js:13-184 | removing rows never breaks a NOT NULL or CHECK constraint |
| Db.EmployeeDeleteSucceeds | scripts/initDatabase.js:147-164 | deleting an employee always keeps every constraint, because the cascade takes exactly its memorandums and recognitions |
| Db.UnreferencedDeleteSucceeds | scripts/initDatabase.js:45-60 | rows of a table no foreign key points at can always be deleted |
| Db.EmployeeDeleted | scripts/initDatabase.js:147-164 | an employee delete removes that employee and its own memorandums and recognitions, and touches no other table |
| Db.CascadeRefers | scripts/initDatabase.js:147 | after the cascade, the remaining children still refer to remaining employees |
| Db.DeletedIdempotent | routes/companies.js:172-176 | deleting a row twice is deleting it once |
| Db.UpdateConsistent | scripts/initDatabase.js:13-184 | an update that keeps its row well-formed and changes no key, email or reference keeps every constraint |
| Db.EmailsKept | scripts/initDatabase.js:17 | rows keeping the emails of distinct old rows keep emails unique |
| Db.ReferencesKept | scripts/initDatabase.js:80 | a FOREIGN KEY holds on while no referring value changes and no parent key goes |
| Db.RowReplacedOk | scripts/initDatabase.js:13-184 | replacing one row of a well-formed table by a well-formed row keeps the table well-formed |
| Db.UpdateKeepsTablesOk | scripts/initDatabase.js:13-184 | an update that keeps its row well-formed keeps every table well-formed |
| Db.DigestUpdateConsistent | routes/auth.js:189-192 | storing a new digest and time in an existing user keeps every constraint |
| Db.RequiredSet | scripts/initDatabase.js:16 | in a consistent state every NOT NULL text column holds a value |
| Db.SameColumn | routes/users.js:198 | an update leaves every column it does not assign as it was, in every table |
| Db.UsersRequire | scripts/initDatabase.js:14-18 | users must have an id, a name and an email |
| Jobs.PostView | routes/jobs.js:56-60 | a listed post keeps every column, and its requirements and obligations are never falsy: decoded, or `[]` |
| Jobs.ListPosts | routes/jobs.js:27-67 | exactly the posts matching every given city, type, modality and employer filter, newest first |
| Jobs.GetPost | routes/jobs.js:70-92 | 404 for an unknown post; otherwise the post with its lists decoded or `[]` |
| Jobs.PostValidation | routes/jobs.js:97-107 | a post passes exactly when every checked text of title, description and city is non-empty, of type is fullTime or partTime, and of modality is onsite, remote or hybrid |
| Jobs.PostRow | routes/jobs.js:110-128 | the inserted post's employer is the caller, whatever the body says |
| Jobs.CreatePost | routes/jobs.js:95-135 | the create's new state and answer are the `CreateStep` of the post's checks and row |
| Jobs.CreatedPostBelongsToCaller | routes/jobs.js:110-128 | a created post belongs to the caller, a stored user, and its lists read back as sent or `[]` |
| Jobs.PostListsReadBack | routes/jobs.js:123-124 | requirements and obligations read back as sent, or as `[]` when none are sent |
| Jobs.PostFieldsWellFormed | routes/jobs.js:156-188 | the seven editable fields are distinct and `employerId` is not one of them |
| Jobs.UpdatePost | routes/jobs.js:138-203 | PUT answers 404, then 403, then 400, then the update, as `OwnedUpdate` states |
| Jobs.PostEditKeepsEmployer | routes/jobs.js:156-196 | an edit never moves a post to another employer |
| Jobs.DeletePost | routes/jobs.js:206-233 | DELETE answers 404, then 403, then the delete, as `OwnedDelete` states |
| Jobs.OwnerDeletesPost | routes/jobs.js:216-228 | the employer's delete of an existing post succeeds and removes that post only |
| Jobs.OpportunityView | routes/jobs.js:267-270 | a listed opportunity keeps every column, and `additionalData` is decoded or `{}`, never falsy |
| Jobs.ListOpportunities | routes/jobs.js:238-277 | exactly the opportunities matching every given filter and the search, newest first |
| Jobs.GetOpportunity | routes/jobs.js:280-301 | 404 for an unknown opportunity; otherwise it, with `additionalData` decoded or `{}` |
| Jobs.OpportunityRow | routes/jobs.js:325-355 | the optional columns are stored as sent or NULL, and no other columns are written |
| Jobs.CreateOpportunity | routes/jobs.js:304-362 | the create's new state and answer are the `CreateStep` of the three required checks and the row |
| Jobs.OpportunityFieldsWellFormed | routes/jobs.js:381-397 | the seventeen text fields and `additionalData` are distinct |
| Jobs.UpdateOpportunity | routes/jobs.js:365-412 | PUT answers 404, then 400, then the update, with no ownership check |
| Jobs.DeleteOpportunity | routes/jobs.js:415-429 | DELETE runs with no existence check |
| Jobs.OpportunityDeleteAlwaysSucceeds | routes/jobs.js:420-424 | deleting an opportunity succeeds whether or not it exists, and a repeat changes nothing more |
| UserRoutes.UserView | routes/users.js:55-67 | a listed user has no password, keeps every other column, and has the seven JSON columns decoded, or `null` |
| UserRoutes.PublicFilter | routes/users.js:43-46 | `isProfilePublic` set to anything but `true` lists private profiles only |
| UserRoutes.ListUsers | routes/users.js:24-74 | exactly the users matching every filter given, none with a password |
| UserRoutes.GetUser | routes/users.js:77-107 | 404 for an unknown user; otherwise the user without the password |
| UserRoutes.ProfileFieldsWellFormed | routes/users.js:119-190 | the fifteen editable fields are distinct and exclude email, password, role, reviews and rating |
| UserRoutes.EditProfileStep | routes/users.js:110-205 | 403 exactly when the token's user is not the profile's, before any lookup; refusals change nothing |
| UserRoutes.EditProfile | routes/users.js:110-205 | the handler's new state and answer are exactly `EditProfileStep` |
| UserRoutes.ProfileEditKeepsCredentials | routes/users.js:119-198 | a profile edit changes only the caller's row, and never its email, password, role, reviews or rating |
| UserRoutes.DeleteUserStep | routes/users.js:265-285 | 403 exactly when the caller is not the user; a delete that succeeds removes that user |
| UserRoutes.DeleteUser | routes/users.js:265-285 | the handler's new state and answer are exactly `DeleteUserStep` |
| UserRoutes.EmployerWithPostsStays | routes/users.js:276-283 | a user who still owns a job post cannot delete the profile: the foreign key refuses it, the answer is 500 and nothing changes |
| UserRoutes.ReviewValidation | routes/users.js:209-216 | a review passes exactly when every checked text of the comment is non-empty and every checked text of the rating matches the float pattern and reads as a number from 0 to 5 |
| UserRoutes.AuthorName | routes/users.js:232-236 | the author is the caller's stored name when there is one, otherwise "Anónimo"; never a value from the body |
| UserRoutes.Property | routes/users.js:248 | reading a property finds a member with that key, or reports that none has it |
| UserRoutes.EntryRating | routes/users.js:248 | a stored review has a rating only when it is an object with a `rating` property |
| UserRoutes.Plus | routes/users.js:248 | the running sum exists exactly while every rating so far is a number, and is their sum |
| UserRoutes.TotalRating | routes/users.js:248 | the reduce computes the sum of the ratings |
| UserRoutes.TotalWithinScale | routes/users.js:248 | ratings from 0 to 5 sum to between 0 and five times their number |
| UserRoutes.Tallied | routes/users.js:239-249 | the new list is the stored list plus exactly one entry, and the average is the sum of its ratings over its length; it fails exactly when the stored value is not a list or a rating is not a number |
| UserRoutes.AddReview | routes/users.js:208-262 | 400, then 404 for an unknown user, then the append-and-average UPDATE, or 500 |
| UserRoutes.NewEntryRating | routes/users.js:240-245 | the rating of the new entry reads back as the number sent |
| UserRoutes.ReviewApplied | routes/users.js:239-257 | a successful review writes the tallied list and average, and answers with that average |
| UserRoutes.ReviewStored | routes/users.js:251-255 | the review UPDATE stores the list so that it reads back as written, and the average as the rating |
| UserRoutes.RatedAppend | routes/users.js:240-245 | appending a review rated from 0 to 5 keeps every review so rated |
| UserRoutes.MeanWithin | routes/users.js:248-249 | an average of values from 0 to 5 lies from 0 to 5 |
| UserRoutes.TallyWithinScale | routes/users.js:239-249 | a list rated from 0 to 5 plus an entry rated from 0 to 5 gives an average from 0 to 5 |
| UserRoutes.SentEntryWithinScale | routes/users.js:209-248 | a review that passes validation carries a rating from 0 to 5, except a rating sent as the empty array, whose text reads as NaN |
| UserRoutes.ReviewKeepsScale | routes/users.js:239-257 | when every stored rating lies from 0 to 5, the average a review stores lies from 0 to 5, and so does every rating in the new list |
| EmprendimientoRoutes.EmprendimientoView | routes/emprendimientos.js:46-49 | a listed business keeps every column, and its products are decoded or `[]`, never falsy |
| EmprendimientoRoutes.ListEmprendimientos | routes/emprendimientos.js:25-56 | exactly the businesses matching the owner and search filters, newest first |
| EmprendimientoRoutes.GetEmprendimiento | routes/emprendimientos.js:59-80 | 404 for an unknown business; otherwise it, with products decoded or `[]` |
| EmprendimientoRoutes.EmprendimientoValidation | routes/emprendimientos.js:85-91 | a business passes exactly when every checked text of its name is non-empty |
| EmprendimientoRoutes.EmprendimientoRow | routes/emprendimientos.js:93-114 | the owner is the caller; optional texts are stored as sent or NULL |
| EmprendimientoRoutes.CreateEmprendimiento | routes/emprendimientos.js:83-121 | the create's new state and answer are the `CreateStep` of the name check and the row |
| EmprendimientoRoutes.CreatedEmprendimientoBelongsToCaller | routes/emprendimientos.js:94-114 | a created business belongs to the caller, who is a stored user |
| EmprendimientoRoutes.ProductsReadBack | routes/emprendimientos.js:103 | the products stored read back as sent, or as `[]` when none are sent |
| EmprendimientoRoutes.EmprendimientoFieldsWellFormed | routes/emprendimientos.js:142-170 | the six editable fields are distinct and `ownerId` is not one of them |
| EmprendimientoRoutes.UpdateEmprendimiento | routes/emprendimientos.js:124-185 | PUT answers 404, then 403, then 400, then the update, as `OwnedUpdate` states |
| EmprendimientoRoutes.EditKeepsOwner | routes/emprendimientos.js:142-178 | an edit never hands a business to another owner |
| EmprendimientoRoutes.DeleteEmprendimiento | routes/emprendimientos.js:188-215 | DELETE answers 404, then 403, then the delete, as `OwnedDelete` states |
| EmprendimientoRoutes.OwnerDeletesEmprendimiento | routes/emprendimientos.js:194-210 | the owner's delete of an existing business succeeds and removes that business only |
| EmployeeRoutes.ListEmployees | routes/employees.js:13-43 | exactly the matching employees, sorted by name |
| EmployeeRoutes.EmployeeView | routes/employees.js:60-75 | the employee keeps every column, with its memorandums and recognitions attached |
| EmployeeRoutes.GetEmployee | routes/employees.js:46-80 | 404 for an unknown employee; otherwise the employee with exactly its own memorandums and recognitions, each newest first |
| EmployeeRoutes.DetailListsOwnMemorandums | routes/employees.js:63-72 | every memorandum attached belongs to that employee |
| EmployeeRoutes.EmployeeChecksEach | routes/employees.js:85-90 | the six checks pass together exactly when each passes |
| EmployeeRoutes.EmployeeValidation | routes/employees.js:85-96 | an employee passes exactly when every checked text of name, position and department is non-empty, of email and hire date is well-formed, and of salary matches the float pattern and reads as a number of at least 0 |
| EmployeeRoutes.EmployeeRow | routes/employees.js:106-117 | the row binds exactly when the hire date and the salary do; the status is the one sent, or `active` |
| EmployeeRoutes.StatusDefaultsToActive | routes/employees.js:115 | with no status sent, a new employee is active |
| EmployeeRoutes.CreateEmployee | routes/employees.js:83-133 | the create's new state and answer are the `CreateStep` of the six checks and the row |
| EmployeeRoutes.EmployeeFieldsWellFormed | routes/employees.js:152-174 | the nine mapped fields and `hireDate` are distinct |
| EmployeeRoutes.UpdateEmployee | routes/employees.js:136-189 | PUT answers 404, then 400, then the update, as `ExistingUpdate` states |
| EmployeeRoutes.EmployeeEditWrites | routes/employees.js:164-182 | an edit writes each field sent with its bound value, and `updatedAt`, and leaves every other column and row alone |
| EmployeeRoutes.DeleteEmployee | routes/employees.js:192-206 | DELETE runs with no existence check |
| EmployeeRoutes.EmployeeDeleteCascades | routes/employees.js:197-201 | deleting an employee always answers 200 and takes its memorandums and recognitions with it; every other row stays |
| EmployeeRoutes.ListMemorandums | routes/employees.js:211-225 | exactly that employee's memorandums, newest first |
| EmployeeRoutes.ListRecognitions | routes/employees.js:288-302 | exactly that employee's recognitions, newest first |
| EmployeeRoutes.NoteRow | routes/employees.js:248-259 | the row binds exactly when the date does, and names the employee in the path |
| EmployeeRoutes.CreateMemorandum | routes/employees.js:228-266 | the create's new state and answer are the `CreateStep` of the five checks, including severity in leve, grave or muy_grave |
| EmployeeRoutes.CreateRecognition | routes/employees.js:305-343 | the create's new state and answer are the `CreateStep` of the five checks |
| EmployeeRoutes.MemorandumNeedsEmployee | routes/employees.js:248-264 | a memorandum for an unknown employee is refused by the foreign key and nothing changes |
| EmployeeRoutes.RecognitionNeedsEmployee | routes/employees.js:325-341 | a recognition for an unknown employee is refused by the foreign key and nothing changes |
| EmployeeRoutes.DeleteMemorandum | routes/employees.js:269-283 | the delete is by id alone, whatever employee the path names |
| EmployeeRoutes.DeleteRecognition | routes/employees.js:346-360 | the delete is by id alone, whatever employee the path names |
| EmployeeRoutes.MemorandumDeleteSucceeds | routes/employees.js:271-278 | deleting a memorandum always succeeds and removes that row only |
| EmployeeRoutes.RecognitionDeleteSucceeds | routes/employees.js:348-355 | deleting a recognition always succeeds and removes that row only |
| CompanyRoutes.ListCompanies | routes/companies.js:11-49 | exactly the companies matching every filter given, sorted by name |
| CompanyRoutes.GetCompany | routes/companies.js:52-70 | 404 for an unknown company; otherwise the stored row |
| CompanyRoutes.CompanyValidation | routes/companies.js:75-81 | a company passes exactly when every checked text of its name is non-empty |
| CompanyRoutes.CompanyRow | routes/companies.js:91-113 | the name as sent, every optional column as sent or NULL, and nothing else |
| CompanyRoutes.CreateCompany | routes/companies.js:73-120 | the create's new state and answer are the `CreateStep` of the name check and the row |
| CompanyRoutes.CompanyFieldsWellFormed | routes/companies.js:139-142 | the twelve editable fields are distinct |
| CompanyRoutes.UpdateCompany | routes/companies.js:123-164 | PUT answers 404, then 400, then the update, as `ExistingUpdate` states |
| CompanyRoutes.CompanyEditWrites | routes/companies.js:144-157 | an edit stores each sent field as text and stamps `updatedAt`; every other column and row is kept |
| CompanyRoutes.CompanyPatchBinds | routes/companies.js:144-149 | every company field is text, so binding an edit never fails |
| CompanyRoutes.NullNameRefused | routes/companies.js:144-162 | setting the name to `null` breaks its NOT NULL: the answer is 500 and nothing changes |
| CompanyRoutes.DeleteCompany | routes/companies.js:167-181 | DELETE runs with no existence check |
| CompanyRoutes.CompanyDeleteSucceeds | routes/companies.js:172-176 | deleting a company always answers 200 and removes that row only, existing or not |
| AuthRoutes.Hash | routes/auth.js:42 | hashing succeeds exactly for a string password |
| AuthRoutes.DigestMatchesOnly | routes/auth.js:104 | a digest matches exactly the password it was made from |
| AuthRoutes.WithEmail | routes/auth.js:33-35 | the lookup finds exactly the users with that email; NULL matches no one |
| AuthRoutes.AtMostOne | scripts/initDatabase.js:17 | under the UNIQUE constraint, a lookup by email finds at most one user |
| AuthRoutes.RegisterValidation | routes/auth.js:17-26 | a registration passes exactly when every checked text of the name is non-empty, of the email is an email, of the password has six or more characters, and of the role is seeker, serviceSeeker or employer |
| AuthRoutes.RegisterRow | routes/auth.js:46-57 | the stored password is the digest, never the plaintext; the row holds the sent role, name and email, and phoneIntl and city or NULL |
| AuthRoutes.NewUserView | routes/auth.js:69 | the user in the answer has only id, name, email and role, and no password |
| AuthRoutes.RegisterStep | routes/auth.js:16-75 | every answer but 201 changes nothing; constraints are kept |
| AuthRoutes.AddUser | routes/auth.js:41-73 | the INSERT gives 201, or 500 with no change |
| AuthRoutes.Register | routes/auth.js:16-75 | the handler's new state and answer are exactly `RegisterStep` |
| AuthRoutes.TakenEmailConflicts | routes/auth.js:33-39 | 409 exactly when the request is valid and the email is already taken, and then nothing changes |
| AuthRoutes.RegisterSucceeded | routes/auth.js:23-57 | a 201 means that the checks passed, the email was free and the password was a string, and that the INSERT ran |
| AuthRoutes.NewUserStored | routes/auth.js:46-57 | the INSERT stores the sent name, email and role and the digest, and touches no other row |
| AuthRoutes.RegisteredUser | routes/auth.js:42-70 | a registration adds one user with the digest of the sent password, changes nothing else, and answers with that user's token and no password |
| AuthRoutes.RegisteredEmail | routes/auth.js:46-57 | a registered user's email is not NULL |
| AuthRoutes.LoginValidation | routes/auth.js:79-86 | a login passes exactly when every checked text of the email is an email and of the password is non-empty |
| AuthRoutes.OwnView | routes/auth.js:117 | the user sent back has every column but the password |
| AuthRoutes.LoginAnswer | routes/auth.js:101-123 | 200 exactly when the password matches the stored digest; 401 exactly when it does not; otherwise 500 |
| AuthRoutes.Login | routes/auth.js:78-128 | the answer is one `LoggedIn` allows, and nothing changes |
| AuthRoutes.LoginDetermined | routes/auth.js:93-101 | with unique emails, a login has exactly one possible answer |
| AuthRoutes.LoginSucceedsIff | routes/auth.js:93-123 | a login succeeds exactly when the request is valid and the user with the email has the digest of the sent password; the token is then that user's, and the answer holds no password |
| AuthRoutes.SameRefusal | routes/auth.js:97-107 | an unknown email and a wrong password get the same 401 and message; 401 exactly when no user with the email has that password |
| AuthRoutes.RegisteredCanLogIn | routes/auth.js:42-123 | right after registering, a login with the same email and password succeeds as the new user |
| AuthRoutes.Me | routes/auth.js:131-151 | the caller's own row without its password, or 404 once the user is gone |
| AuthRoutes.ChangeValidation | routes/auth.js:156-163 | a change passes exactly when every checked text of the current password is non-empty and of the new one has six or more characters |
| AuthRoutes.NewPassword | routes/auth.js:189-192 | the UPDATE writes the digest and the time, and nothing else |
| AuthRoutes.ChangePasswordStep | routes/auth.js:154-199 | every answer but 200 changes nothing; constraints are kept |
| AuthRoutes.ChangePassword | routes/auth.js:154-199 | the handler's new state and answer are exactly `ChangePasswordStep` |
| AuthRoutes.NewPasswordConsistent | routes/auth.js:189-192 | storing the new digest and time keeps every constraint |
| AuthRoutes.ChangeSucceedsIff | routes/auth.js:160-194 | a change succeeds exactly when the request is valid, the caller exists, the current password matches, and the new one is a string |
| AuthRoutes.ChangeSucceeded | routes/auth.js:160-194 | a 200 means that every check passed and the UPDATE ran |
| AuthRoutes.NewPasswordStored | routes/auth.js:186-192 | the caller's row holds the digest of the new password, which the new password matches and any other does not; everything else stays |
| AuthRoutes.PasswordChanged | routes/auth.js:180-194 | after a change the caller's row matches the new password and no other string; only its password and `updatedAt` change, and every other row and table stays |

## Left out

- Http.PassesLength: counts every code point, while validator.js's `isLength` also subtracts the U+FE0E and U+FE0F presentation selectors from the length, so a text padded with them can pass here and fail there; that library is not part of this model.
- HTTP wiring, the `authenticateToken` middleware, Express routing and the process handlers are left out. A route takes the token's claims as a parameter.
- JWT signing, secret and expiry are left out. The token is modelled as the claims it carries.
- bcrypt is modelled as a symbolic digest of the password. Salt, the cost of 10 and the 72-byte truncation are left out.
- AuthRoutes.Hash: a digest is modelled as a function of the password alone. Two hashes of one password are therefore equal, where bcrypt's salts make them differ.
- The OpenAI and chat routes are left out. They are network calls. Only the error classifier they use is modelled.
- Database connection failures, and the 500 that the read routes answer for them, are left out. So is all logging.
- Concurrency is left out. Two registrations racing for one email both pass the lookup, and the UNIQUE constraint makes the second INSERT the route's 500.
- `generateId` is a parameter: the clock and the random number are not modelled.
- `GETDATE()` and `new Date()` are the `now` parameter. A review's ISO date text is a parameter too.
- `isEmail`, `isISO8601` and `new Date(v)` come from the `Runtime` parameter. Their grammars are left out.
- Floating point is left out. Ratings, salaries and averages are reals, and JSON numbers are exact decimals. NaN appears only as a rating or float parameter that is not a number.
- JsValues.ParseFloat: a text starting with `Infinity` reads as NaN, where `parseFloat` gives Infinity. `isFloat` refuses such text either way.
- JsValues.JsString: `String(n)` of a number, like `JSON.stringify`, is modelled as its plain decimal text with the decimal's own number of fraction digits. JavaScript drops trailing fraction zeros and switches to exponent form from 1e21 and below 1e-6.
- The SQL text the routes build is left out. The model states its effect on rows.
- `NVARCHAR` lengths are left out. Text of any length fits.
- LIKE is modelled as case-sensitive substring search, and ORDER BY `name` as code-point order. SQL Server collation is left out: its case-insensitive equality on `email`, on the `WHERE id = @id` lookups and on the equality filters (`city`, `type`, `modality`, `employerId`, `ownerId`), its case-insensitive comparison in the `CHECK ... IN` lists that `Db.Fits` tests, its case-insensitive LIKE, its ORDER BY that interleaves upper and lower case ("alice" before "Zed"), and LIKE wildcards inside the search text.
- Query-string parameters that arrive as arrays are left out: every parameter is text.
- Lower-casing covers the ASCII letters only.
- Listing.Select: rows that tie under the ORDER BY, and the rows of an unordered query, may come in any order, as in SQL Server.
- AuthRoutes.Login: when several users share an email, the row the database returns first is modelled as any of them. Under the UNIQUE constraint there is only one (`LoginDetermined`).
- AuthRoutes.Compare: `bcrypt.compare` on a stored value that is not a digest answers `false`, where the library may throw.
- Json.Parse: an object text with a repeated key keeps every member in the order written, where `JSON.parse` keeps one member per key, with the last value at the first key's place. Integer-like keys are not moved first. Such text reaches the model only when a client stores it as a string, and `UserRoutes.Property` reads the last value, as `JSON.parse` does.
- Json.Unescape: a lone `\uD800`–`\uDFFF` escape, with no partner surrogate, is refused, so the stored text reads as unparseable. `JSON.parse` accepts it, but a Dafny character cannot hold a lone surrogate. Surrogate pairs are read.
- How the driver converts a JavaScript object bound as `NVarChar` outside the JSON helpers is modelled as `String(v)`.
- Http.ValidateEach: states the per-check equivalence for lists of up to six checks. That covers every route.
- `scripts/initDatabase.js` enters only through its constraints and defaults. Its DDL run and seed data are left out.
- `server.js` and `config/database.js` are not part of this model.

=== FILE: auth.dfy ===
/**
 * `/api/auth`: registration, login, the signed-in user's own record and the
 * password change. A password is stored only as its bcrypt digest and no
 * answer ever carries the stored digest.
 */
module AuthRoutes {
  import opened Wrappers
  import opened Json
  import opened JsValues
  import opened Db
  import opened Binding
  import opened Http
  import opened Handlers

  const Roles := ["seeker", "serviceSeeker", "employer"]

  /** `bcrypt.hash(password, 10)`: the digest of a string; any other value makes the library throw. */
  function Hash(v: JsValue): (h: Option<Cell>)
    ensures h.Some? <==> v.Js? && v.v.JStr?
  {
    if v.Js? && v.v.JStr? then Some(Hashed(Bcrypt(v.v.s))) else None
  }

  /**
   * `bcrypt.compare(password, stored)`: whether the password is the one the
   * digest was made from. A password that is not a string, or a stored value
   * that is not a string, makes the library throw; text that is not a digest
   * matches nothing.
   */
  function Compare(v: JsValue, stored: Cell): Option<bool> {
    if !(v.Js? && v.v.JStr?) then None
    else match stored
      case Hashed(d) => Some(d.of == v.v.s)
      case Text(_) => Some(false)
      case _ => None
  }

  /** A digest matches exactly the password it was made from. */
  lemma DigestMatchesOnly(v: JsValue, w: JsValue)
    requires Hash(v).Some? && w.Js? && w.v.JStr?
    ensures Compare(w, Hash(v).value) == Some(w == v)
  {
  }

  /** `SELECT ... FROM Users WHERE email = @email`: the users with that email; NULL equals nothing. */
  function WithEmail(users: Table, email: Cell): (ids: set<string>)
    ensures ids <= users.Keys
    ensures forall k :: k in ids <==> k in users && email != Null && Field(users[k], "email") == email
  {
    set k | k in users && email != Null && Field(users[k], "email") == email
  }

  /** Under the UNIQUE constraint on `email`, a lookup by email finds at most one user. */
  lemma AtMostOne(users: Table, email: Cell, a: string, b: string)
    requires UniqueEmails(users) && a in WithEmail(users, email) && b in WithEmail(users, email)
    ensures a == b
  {
  }

  // ---------------------------------------------------------------- POST /register

  const RegisterChecks := [
    Check("name", NotEmpty, "El nombre es requerido"),
    Check("email", IsEmail, "Email inválido"),
    Check("password", MinLength(6), "La contraseña debe tener al menos 6 caracteres"),
    Check("role", IsIn(Roles), "Rol inválido")]

  /** A registration passes validation exactly when it has a name, an email, a password of six or more characters and a known role. */
  lemma RegisterValidation(rt: Runtime, body: Body)
    ensures Validate(rt, RegisterChecks, body) == [] <==>
      && Every(Lookup(body, "name"), t => t != "")
      && Every(Lookup(body, "email"), rt.isEmail)
      && Every(Lookup(body, "password"), t => |t| >= 6)
      && Every(Lookup(body, "role"), t => t in Roles)
  {
    ValidateEach(rt, RegisterChecks, body);
    PassesText(rt, Lookup(body, "name"));
    PassesText(rt, Lookup(body, "email"));
    PassesLength(rt, Lookup(body, "password"), 6);
    PassesIn(rt, Lookup(body, "role"), Roles);
  }

  /** The INSERT's values; the remaining columns take their defaults. */
  function RegisterRow(body: Body, digest: Cell): (row: Row)
    ensures row.Keys == {"role", "name", "email", "password", "phoneIntl", "city"}
    ensures row["password"] == digest && row["email"] == AsText(Lookup(body, "email"))
    ensures row["role"] == AsText(Lookup(body, "role")) && row["name"] == AsText(Lookup(body, "name"))
  {
    map[
      "role" := AsText(Lookup(body, "role")),
      "name" := AsText(Lookup(body, "name")),
      "email" := AsText(Lookup(body, "email")),
      "password" := digest,
      "phoneIntl" := OrNull(body, "phoneIntl"),
      "city" := OrNull(body, "city")
    ]
  }

  /** `user: {id, name, email, role}` in the registration answer. */
  function NewUserView(userId: string, body: Body): (v: View)
    ensures v.Keys == {"id", "name", "email", "role"}
    ensures "password" !in v
  {
    map[
      "id" := Value(JStr(userId)),
      "name" := Sent(Lookup(body, "name")),
      "email" := Sent(Lookup(body, "email")),
      "role" := Sent(Lookup(body, "role"))
    ]
  }

  const Registered := "Usuario registrado exitosamente"
  const RegisterFailed := "Error al registrar usuario"

  /** POST /register: 400, then 409 for a taken email, then the INSERT. */
  function RegisterStep(before: map<TableName, Table>, rt: Runtime, body: Body, userId: string, now: int): (r: Step)
    ensures Consistent(before) ==> Consistent(r.tables)
    ensures r.res.status != 201 ==> r.tables == before
    ensures r.res.status == 201 ==> Consistent(r.tables)
  {
    var errors := Validate(rt, RegisterChecks, body);
    if errors != [] then Step(Rejection(errors), before)
    else if WithEmail(Get(before, Users), AsText(Lookup(body, "email"))) != {} then
      Refuse(before, 409, "El email ya está registrado")
    else AddUser(before, body, userId, now)
  }

  /** The route's `try` once the email is free: hash the password, then INSERT the user under the generated `userId`. */
  function AddUser(before: map<TableName, Table>, body: Body, userId: string, now: int): (r: Step)
    ensures Consistent(before) ==> Consistent(r.tables)
    ensures r.res.status != 201 ==> r.tables == before
    ensures r.res.status == 201 || r.res == Response(500, Error(RegisterFailed))
    ensures r.res.status == 201 ==> Consistent(r.tables)
  {
    match Hash(Lookup(body, "password"))
    case None => Refuse(before, 500, RegisterFailed)
    case Some(digest) =>
      if userId in Get(before, Users) then Refuse(before, 500, RegisterFailed)
      else Run(before, Inserted(before, Users, userId, RegisterRow(body, digest), now),
        Response(201, Session(Registered, Claims(userId, Sent(Lookup(body, "email")), Sent(Lookup(body, "role"))),
          NewUserView(userId, body))),
        RegisterFailed)
  }

  /** POST /api/auth/register */
  method Register(db: Store, rt: Runtime, body: Body, userId: string, now: int) returns (res: Response)
    modifies db
    ensures Step(res, db.tables) == RegisterStep(old(db.tables), rt, body, userId, now)
  {
    var errors := Validate(rt, RegisterChecks, body);
    if errors != [] {
      return Rejection(errors);
    }
    if WithEmail(db.Rows(Users), AsText(Lookup(body, "email"))) != {} {
      return Response(409, Error("El email ya está registrado"));
    }
    var digest := Hash(Lookup(body, "password"));
    if digest.None? {
      return Response(500, Error(RegisterFailed));
    }
    ghost var before := db.tables;
    var row := RegisterRow(body, digest.value);
    var ok := db.Insert(Users, userId, row, now);
    if ok {
      res := Response(201, Session(Registered, Claims(userId, Sent(Lookup(body, "email")), Sent(Lookup(body, "role"))),
        NewUserView(userId, body)));
      assert Step(res, db.tables) == Run(before, Inserted(before, Users, userId, row, now), res, RegisterFailed);
    } else {
      res := Response(500, Error(RegisterFailed));
    }
  }

  /**
   * A registration is refused with 409 exactly when the request is valid and
   * the email is already taken; it then changes nothing.
   */
  lemma TakenEmailConflicts(before: map<TableName, Table>, rt: Runtime, body: Body, userId: string, now: int)
    ensures var r := RegisterStep(before, rt, body, userId, now);
      r.res.status == 409 <==>
        Validate(rt, RegisterChecks, body) == []
        && exists k :: k in Get(before, Users) && AsText(Lookup(body, "email")) != Null
             && Field(Get(before, Users)[k], "email") == AsText(Lookup(body, "email"))
  {
    var email := AsText(Lookup(body, "email"));
    if Validate(rt, RegisterChecks, body) == [] && WithEmail(Get(before, Users), email) != {} {
      var k :| k in WithEmail(Get(before, Users), email);
    }
  }

  /** What a 201 from POST /register implies: the checks passed, the email was free, the password was a string, and the INSERT ran. */
  lemma RegisterSucceeded(before: map<TableName, Table>, rt: Runtime, body: Body, userId: string, now: int)
    requires RegisterStep(before, rt, body, userId, now).res.status == 201
    ensures Validate(rt, RegisterChecks, body) == []
    ensures WithEmail(Get(before, Users), AsText(Lookup(body, "email"))) == {}
    ensures Hash(Lookup(body, "password")).Some? && userId !in Get(before, Users)
    ensures var after := Inserted(before, Users, userId, RegisterRow(body, Hash(Lookup(body, "password")).value), now);
      RegisterStep(before, rt, body, userId, now) == Step(Response(201, Session(Registered,
           Claims(userId, Sent(Lookup(body, "email")), Sent(Lookup(body, "role"))), NewUserView(userId, body))), after)
  {
  }

  /** The INSERT of a registration stores the sent name, email and role and the digest, and touches no other row. */
  lemma NewUserStored(before: map<TableName, Table>, body: Body, digest: Cell, userId: string, now: int)
    requires userId !in Get(before, Users)
    ensures var users := Get(Inserted(before, Users, userId, RegisterRow(body, digest), now), Users);
      && users.Keys == Get(before, Users).Keys + {userId}
      && (forall k :: k in Get(before, Users) ==> users[k] == Get(before, Users)[k])
      && Field(users[userId], "password") == digest
      && Field(users[userId], "email") == AsText(Lookup(body, "email"))
      && Field(users[userId], "role") == AsText(Lookup(body, "role"))
      && Field(users[userId], "name") == AsText(Lookup(body, "name"))
  {
    var row := RegisterRow(body, digest);
    InsertAddsOneRow(before, Users, userId, row, now);
    InsertedRow(before, Users, userId, row, now);
  }

  /**
   * A successful registration adds one user under the generated key, with the
   * sent name, email and role and the digest of the sent password, leaves
   * every other row and table as it was, and answers with a token for that
   * user and a view of it that holds no password.
   */
  lemma RegisteredUser(before: map<TableName, Table>, rt: Runtime, body: Body, userId: string, now: int)
    requires RegisterStep(before, rt, body, userId, now).res.status == 201
    ensures var r := RegisterStep(before, rt, body, userId, now);
      var users := Get(r.tables, Users);
      && userId !in Get(before, Users)
      && users.Keys == Get(before, Users).Keys + {userId}
      && (forall k :: k in Get(before, Users) ==> users[k] == Get(before, Users)[k])
      && (forall u :: u != Users ==> Get(r.tables, u) == Get(before, u))
      && Lookup(body, "password").Js? && Lookup(body, "password").v.JStr?
      && Field(users[userId], "password") == Hashed(Bcrypt(Lookup(body, "password").v.s))
      && Field(users[userId], "email") == AsText(Lookup(body, "email"))
      && Field(users[userId], "role") == AsText(Lookup(body, "role"))
      && Field(users[userId], "name") == AsText(Lookup(body, "name"))
      && r.res.reply.Session? && r.res.reply.token.userId == userId && "password" !in r.res.reply.user
  {
    RegisterSucceeded(before, rt, body, userId, now);
    var digest := Hash(Lookup(body, "password")).value;
    var after := Inserted(before, Users, userId, RegisterRow(body, digest), now);
    NewUserStored(before, body, digest, userId, now);
    InsertAddsOneRow(before, Users, userId, RegisterRow(body, digest), now);
  }

  // ---------------------------------------------------------------- POST /login

  const LoginChecks := [
    Check("email", IsEmail, "Email inválido"),
    Check("password", NotEmpty, "La contraseña es requerida")]

  /** A login passes validation exactly when it has an email and a non-empty password. */
  lemma LoginValidation(rt: Runtime, body: Body)
    ensures Validate(rt, LoginChecks, body) == [] <==>
      Every(Lookup(body, "email"), rt.isEmail) && Every(Lookup(body, "password"), t => t != "")
  {
    ValidateEach(rt, LoginChecks, body);
    PassesText(rt, Lookup(body, "email"));
    PassesText(rt, Lookup(body, "password"));
  }

  const BadCredentials := "Credenciales inválidas"
  const LoginFailed := "Error al iniciar sesión"

  /** The signed-in user as sent: every column but the password. */
  function OwnView(row: Row): (v: View)
    ensures "password" !in v
    ensures v.Keys == row.Keys - {"password"}
  {
    WithoutPassword(RowView(row))
  }

  /** The answer once the user stored under `id` is the first one with the email: 401 for a wrong password, else a token and the user. */
  function LoginAnswer(id: string, row: Row, body: Body): (res: Response)
    ensures res.status == 200 <==> Compare(Lookup(body, "password"), Field(row, "password")) == Some(true)
    ensures res.status == 200 ==> res.reply.Session? && res.reply.token.userId == id && "password" !in res.reply.user
    ensures res.status != 200 ==> res == Response(401, Error(BadCredentials)) || res == Response(500, Error(LoginFailed))
    ensures res.status == 401 <==> Compare(Lookup(body, "password"), Field(row, "password")) == Some(false)
  {
    match Compare(Lookup(body, "password"), Field(row, "password"))
    case None => Response(500, Error(LoginFailed))
    case Some(false) => Response(401, Error(BadCredentials))
    case Some(true) =>
      Response(200, Session("Inicio de sesión exitoso",
        Claims(id, Stored(Field(row, "email")), Stored(Field(row, "role"))), OwnView(row)))
  }

  /**
   * What POST /login may answer: 400, 401 when no user has the email, and
   * otherwise the answer for whichever matching user the database returns
   * first (the query has no ORDER BY).
   */
  ghost predicate LoggedIn(users: Table, rt: Runtime, body: Body, res: Response) {
    var errors := Validate(rt, LoginChecks, body);
    if errors != [] then res == Rejection(errors)
    else
      var ids := WithEmail(users, AsText(Lookup(body, "email")));
      if ids == {} then res == Response(401, Error(BadCredentials))
      else exists id :: id in ids && res == LoginAnswer(id, users[id], body)
  }

  /** POST /api/auth/login, which reads the database and changes nothing. */
  method Login(db: Store, rt: Runtime, body: Body) returns (res: Response)
    ensures LoggedIn(db.Rows(Users), rt, body, res)
  {
    var errors := Validate(rt, LoginChecks, body);
    if errors != [] {
      return Rejection(errors);
    }
    var users := db.Rows(Users);
    var ids := WithEmail(users, AsText(Lookup(body, "email")));
    if ids == {} {
      return Response(401, Error(BadCredentials));
    }
    var id :| id in ids;
    res := LoginAnswer(id, users[id], body);
  }

  /** With unique emails, a login has one possible answer. */
  lemma LoginDetermined(users: Table, rt: Runtime, body: Body, a: Response, b: Response)
    requires UniqueEmails(users)
    requires LoggedIn(users, rt, body, a) && LoggedIn(users, rt, body, b)
    ensures a == b
  {
    var ids := WithEmail(users, AsText(Lookup(body, "email")));
    if Validate(rt, LoginChecks, body) == [] && ids != {} {
      var i :| i in ids && a == LoginAnswer(i, users[i], body);
      var j :| j in ids && b == LoginAnswer(j, users[j], body);
      AtMostOne(users, AsText(Lookup(body, "email")), i, j);
    }
  }

  /**
   * A login succeeds exactly when the request is valid and some user has the
   * email and the digest of the sent password; the token is then that user's
   * and the answer holds no password.
   */
  lemma LoginSucceedsIff(users: Table, rt: Runtime, body: Body, res: Response)
    requires UniqueEmails(users) && LoggedIn(users, rt, body, res)
    ensures res.status == 200 <==>
      Validate(rt, LoginChecks, body) == []
      && exists id :: id in WithEmail(users, AsText(Lookup(body, "email")))
           && Compare(Lookup(body, "password"), Field(users[id], "password")) == Some(true)
    ensures res.status == 200 ==>
      res.reply.Session? && res.reply.token.userId in WithEmail(users, AsText(Lookup(body, "email")))
      && "password" !in res.reply.user
  {
    var email := AsText(Lookup(body, "email"));
    if Validate(rt, LoginChecks, body) == [] && WithEmail(users, email) != {} {
      var i :| i in WithEmail(users, email) && res == LoginAnswer(i, users[i], body);
      forall j | j in WithEmail(users, email) ensures j == i {
        AtMostOne(users, email, i, j);
      }
    }
  }

  /**
   * An unknown email and a wrong password get the same 401 and the same
   * message, so the answer does not tell which of the two it was.
   */
  lemma SameRefusal(users: Table, rt: Runtime, body: Body, res: Response)
    requires UniqueEmails(users) && LoggedIn(users, rt, body, res)
    ensures res.status == 401 ==> res == Response(401, Error(BadCredentials))
    ensures res.status == 401 <==>
      Validate(rt, LoginChecks, body) == []
      && forall id :: id in WithEmail(users, AsText(Lookup(body, "email"))) ==>
           Compare(Lookup(body, "password"), Field(users[id], "password")) == Some(false)
  {
    var email := AsText(Lookup(body, "email"));
    if Validate(rt, LoginChecks, body) == [] && WithEmail(users, email) != {} {
      var i :| i in WithEmail(users, email) && res == LoginAnswer(i, users[i], body);
      forall j | j in WithEmail(users, email) ensures j == i {
        AtMostOne(users, email, i, j);
      }
    }
  }

  /** A registration only succeeds when the new state keeps every constraint, so the new user's email is not NULL. */
  lemma RegisteredEmail(before: map<TableName, Table>, rt: Runtime, body: Body, userId: string, now: int)
    requires RegisterStep(before, rt, body, userId, now).res.status == 201
    ensures var users := Get(RegisterStep(before, rt, body, userId, now).tables, Users);
      && UniqueEmails(users)
      && userId in WithEmail(users, AsText(Lookup(body, "email")))
  {
    RegisterSucceeded(before, rt, body, userId, now);
    var digest := Hash(Lookup(body, "password")).value;
    var after := Inserted(before, Users, userId, RegisterRow(body, digest), now);
    NewUserStored(before, body, digest, userId, now);
    UsersRequire();
    RequiredSet(after, Users, userId, "email");
  }

  /** Right after registering, logging in with the same email and password succeeds as the new user. */
  lemma RegisteredCanLogIn(before: map<TableName, Table>, rt: Runtime, body: Body, userId: string, now: int, res: Response)
    requires RegisterStep(before, rt, body, userId, now).res.status == 201
    requires LoggedIn(Get(RegisterStep(before, rt, body, userId, now).tables, Users), rt, body, res)
    ensures res.status == 200 && res.reply.Session? && res.reply.token.userId == userId
  {
    RegisterSucceeded(before, rt, body, userId, now);
    RegisteredEmail(before, rt, body, userId, now);
    var digest := Hash(Lookup(body, "password")).value;
    var users := Get(Inserted(before, Users, userId, RegisterRow(body, digest), now), Users);
    var email := AsText(Lookup(body, "email"));
    NewUserStored(before, body, digest, userId, now);
    RegisterValidation(rt, body);
    LoginValidation(rt, body);
    var id :| id in WithEmail(users, email) && res == LoginAnswer(id, users[id], body);
    AtMostOne(users, email, id, userId);
    DigestMatchesOnly(Lookup(body, "password"), Lookup(body, "password"));
  }

  // ---------------------------------------------------------------- GET /me

  /** GET /api/auth/me: the caller's own row without its password, or 404 once the user is gone. */
  method Me(db: Store, user: Claims) returns (res: Response)
    ensures user.userId !in db.Rows(Users) ==> res == Response(404, Error("Usuario no encontrado"))
    ensures user.userId in db.Rows(Users) ==> res == Response(200, Record(OwnView(db.Rows(Users)[user.userId])))
  {
    var users := db.Rows(Users);
    if user.userId !in users {
      return Response(404, Error("Usuario no encontrado"));
    }
    res := Response(200, Record(OwnView(users[user.userId])));
  }

  // ---------------------------------------------------------------- PUT /change-password

  const ChangeChecks := [
    Check("oldPassword", NotEmpty, "La contraseña actual es requerida"),
    Check("newPassword", MinLength(6), "La nueva contraseña debe tener al menos 6 caracteres")]

  /** A change passes validation exactly when it has the current password and a new one of six or more characters. */
  lemma ChangeValidation(rt: Runtime, body: Body)
    ensures Validate(rt, ChangeChecks, body) == [] <==>
      Every(Lookup(body, "oldPassword"), t => t != "") && Every(Lookup(body, "newPassword"), t => |t| >= 6)
  {
    ValidateEach(rt, ChangeChecks, body);
    PassesText(rt, Lookup(body, "oldPassword"));
    PassesLength(rt, Lookup(body, "newPassword"), 6);
  }

  const ChangeFailed := "Error al cambiar contraseña"

  /** `SET password = @password, updatedAt = GETDATE()` */
  function NewPassword(digest: Cell, now: int): (assigns: Row)
    ensures assigns.Keys == {"password", "updatedAt"}
    ensures assigns["password"] == digest && assigns["updatedAt"] == Time(now)
  {
    map["password" := digest, "updatedAt" := Time(now)]
  }

  /** PUT /change-password: 400, 404 when the caller is gone, 401 for a wrong current password, then the UPDATE. */
  function ChangePasswordStep(before: map<TableName, Table>, rt: Runtime, user: Claims, body: Body, now: int): (r: Step)
    ensures Consistent(before) ==> Consistent(r.tables)
    ensures r.res.status != 200 ==> r.tables == before
  {
    var errors := Validate(rt, ChangeChecks, body);
    if errors != [] then Step(Rejection(errors), before)
    else if user.userId !in Get(before, Users) then Refuse(before, 404, "Usuario no encontrado")
    else match Compare(Lookup(body, "oldPassword"), Field(Get(before, Users)[user.userId], "password"))
      case None => Refuse(before, 500, ChangeFailed)
      case Some(false) => Refuse(before, 401, "Contraseña actual incorrecta")
      case Some(true) =>
        match Hash(Lookup(body, "newPassword"))
        case None => Refuse(before, 500, ChangeFailed)
        case Some(digest) =>
          Run(before, Updated(before, Users, user.userId, NewPassword(digest, now)),
            Response(200, Message("Contraseña actualizada exitosamente")), ChangeFailed)
  }

  /** PUT /api/auth/change-password */
  method ChangePassword(db: Store, rt: Runtime, user: Claims, body: Body, now: int) returns (res: Response)
    modifies db
    ensures Step(res, db.tables) == ChangePasswordStep(old(db.tables), rt, user, body, now)
  {
    var errors := Validate(rt, ChangeChecks, body);
    if errors != [] {
      return Rejection(errors);
    }
    var users := db.Rows(Users);
    if user.userId !in users {
      return Response(404, Error("Usuario no encontrado"));
    }
    var valid := Compare(Lookup(body, "oldPassword"), Field(users[user.userId], "password"));
    if valid.None? {
      return Response(500, Error(ChangeFailed));
    }
    if !valid.value {
      return Response(401, Error("Contraseña actual incorrecta"));
    }
    var digest := Hash(Lookup(body, "newPassword"));
    if digest.None? {
      return Response(500, Error(ChangeFailed));
    }
    ghost var before := db.tables;
    var assigns := NewPassword(digest.value, now);
    var ok := db.Update(Users, user.userId, assigns);
    if ok {
      res := Response(200, Message("Contraseña actualizada exitosamente"));
      assert Step(res, db.tables) == Run(before, Updated(before, Users, user.userId, assigns), res, ChangeFailed);
    } else {
      res := Response(500, Error(ChangeFailed));
    }
  }

  /**
   * Storing a new digest and time in an existing user keeps every constraint:
   * both columns accept those values, and no email, key or reference changes.
   */
  lemma NewPasswordConsistent(before: map<TableName, Table>, id: string, d: Digest, now: int)
    requires Consistent(before) && id in Get(before, Users)
    ensures Consistent(Updated(before, Users, id, NewPassword(Hashed(d), now)))
  {
    DigestUpdateConsistent(before, id, NewPassword(Hashed(d), now));
  }

  /**
   * With the constraints holding, a password change succeeds exactly when the
   * request is valid, the caller exists, the current password matches the
   * stored digest and the new password is a string.
   */
  lemma ChangeSucceedsIff(before: map<TableName, Table>, rt: Runtime, user: Claims, body: Body, now: int)
    requires Consistent(before)
    ensures ChangePasswordStep(before, rt, user, body, now).res.status == 200 <==>
      && Validate(rt, ChangeChecks, body) == []
      && user.userId in Get(before, Users)
      && Compare(Lookup(body, "oldPassword"), Field(Get(before, Users)[user.userId], "password")) == Some(true)
      && Hash(Lookup(body, "newPassword")).Some?
  {
    if && Validate(rt, ChangeChecks, body) == []
       && user.userId in Get(before, Users)
       && Compare(Lookup(body, "oldPassword"), Field(Get(before, Users)[user.userId], "password")) == Some(true)
       && Hash(Lookup(body, "newPassword")).Some?
    {
      NewPasswordConsistent(before, user.userId, Bcrypt(Lookup(body, "newPassword").v.s), now);
    }
  }

  /** What a 200 from PUT /change-password implies: every check passed and the UPDATE ran. */
  lemma ChangeSucceeded(before: map<TableName, Table>, rt: Runtime, user: Claims, body: Body, now: int)
    requires ChangePasswordStep(before, rt, user, body, now).res.status == 200
    ensures Validate(rt, ChangeChecks, body) == [] && user.userId in Get(before, Users)
    ensures Compare(Lookup(body, "oldPassword"), Field(Get(before, Users)[user.userId], "password")) == Some(true)
    ensures Hash(Lookup(body, "newPassword")).Some?
    ensures ChangePasswordStep(before, rt, user, body, now).tables
      == Updated(before, Users, user.userId, NewPassword(Hash(Lookup(body, "newPassword")).value, now))
  {
  }

  /**
   * The UPDATE of a password change writes the digest of the new password and
   * the time into the one row, which the new password matches and any other
   * password does not; every other column, row and table is as it was.
   */
  lemma NewPasswordStored(before: map<TableName, Table>, id: string, v: JsValue, now: int)
    requires id in Get(before, Users) && Hash(v).Some?
    ensures var after := Updated(before, Users, id, NewPassword(Hash(v).value, now));
      var users := Get(after, Users);
      && users.Keys == Get(before, Users).Keys
      && (forall k :: k in users && k != id ==> users[k] == Get(before, Users)[k])
      && (forall u :: u != Users ==> Get(after, u) == Get(before, u))
      && (forall c :: c != "password" && c != "updatedAt" ==> Field(users[id], c) == Field(Get(before, Users)[id], c))
      && Field(users[id], "updatedAt") == Time(now)
      && (forall w: JsValue :: w.Js? && w.v.JStr? ==> Compare(w, Field(users[id], "password")) == Some(w == v))
  {
    var digest := Hash(v).value;
    UpdateTouchesOneRow(before, Users, id, NewPassword(digest, now));
    forall w: JsValue | w.Js? && w.v.JStr?
      ensures Compare(w, digest) == Some(w == v)
    {
      DigestMatchesOnly(v, w);
    }
  }

  /**
   * After a successful change the caller's row holds the digest of the new
   * password and the time of the change, which the new password matches and
   * any other password does not; every other column, row and table is as it was.
   */
  lemma PasswordChanged(before: map<TableName, Table>, rt: Runtime, user: Claims, body: Body, now: int)
    requires ChangePasswordStep(before, rt, user, body, now).res.status == 200
    ensures var after := ChangePasswordStep(before, rt, user, body, now).tables;
      var users := Get(after, Users);
      && user.userId in Get(before, Users)
      && users.Keys == Get(before, Users).Keys
      && (forall k :: k in users && k != user.userId ==> users[k] == Get(before, Users)[k])
      && (forall u :: u != Users ==> Get(after, u) == Get(before, u))
      && (forall c :: c != "password" && c != "updatedAt" ==>
            Field(users[user.userId], c) == Field(Get(before, Users)[user.userId], c))
      && Field(users[user.userId], "updatedAt") == Time(now)
      && (forall w: JsValue :: w.Js? && w.v.JStr? ==>
            Compare(w, Field(users[user.userId], "password")) == Some(w == Lookup(body, "newPassword")))
  {
    ChangeSucceeded(before, rt, user, body, now);
    NewPasswordStored(before, user.userId, Lookup(body, "newPassword"), now);
  }
}

=== FILE: binding.dfy ===
/**
 * How a request value becomes a column value when the routes pass it as a
 * typed SQL parameter (`request.input(name, sql.NVarChar | sql.Float |
 * sql.Bit | sql.DateTime, value)`), and the library behaviour the routes
 * rely on without defining it.
 */
module Binding {
  import opened Wrappers
  import opened Json
  import opened JsValues
  import opened Db
  import opened FieldCodec

  /**
   * What the model takes from libraries as given: the validator library's
   * `isEmail` and `isISO8601` checks on a value's text, and `new Date(v)`,
   * which yields a time or an invalid date.
   */
  datatype Runtime = Runtime(isEmail: string -> bool, isIso8601: string -> bool, dateOf: JsValue -> Option<int>)

  /** An `sql.NVarChar` parameter: `null` and `undefined` are NULL, anything else is stored as `String(v)`. */
  function AsText(v: JsValue): (c: Cell)
    ensures c.Null? || c.Text?
    ensures c.Null? <==> v == Undefined || v == Js(JNull)
    ensures v.Js? && v.v.JStr? ==> c == Text(v.v.s)
  {
    match v
    case Undefined => Null
    case Js(JNull) => Null
    case Js(j) => Text(JsString(j))
  }

  /** An `sql.Float` parameter: `null` and `undefined` are NULL; otherwise `parseFloat(String(v))`, which must be a number. */
  function AsFloat(v: JsValue): (c: Option<Cell>)
    ensures v == Undefined || v == Js(JNull) ==> c == Some(Null)
    ensures v.Js? && v.v != JNull ==> (c.None? <==> ParseFloat(JsString(v.v)).None?)
    ensures c.Some? && c.value != Null ==> c.value.Num? && v.Js? && Some(c.value.r) == ParseFloat(JsString(v.v))
  {
    match v
    case Undefined => Some(Null)
    case Js(JNull) => Some(Null)
    case Js(j) =>
      match ParseFloat(JsString(j))
      case Some(x) => Some(Num(x))
      case None => None
  }

  /** An `sql.Bit` parameter: `null` and `undefined` are NULL, anything else its truth value. */
  function AsBit(v: JsValue): (c: Cell)
    ensures v == Undefined || v == Js(JNull) ==> c == Null
    ensures v != Undefined && v != Js(JNull) ==> c == Bit(!Falsy(v))
  {
    if v == Undefined || v == Js(JNull) then Null else Bit(!Falsy(v))
  }

  /** An `sql.DateTime` parameter holding `new Date(v)`: an invalid date is an error. */
  function AsDate(rt: Runtime, v: JsValue): (c: Option<Cell>)
    ensures c.Some? <==> rt.dateOf(v).Some?
    ensures c.Some? ==> c.value == Time(rt.dateOf(v).value)
  {
    match rt.dateOf(v)
    case Some(t) => Some(Time(t))
    case None => None
  }

  /** How a route passes a field on: as text, as `stringifyJsonField(v)` text, as a float, a bit or a date. */
  datatype Encoding = TextField | JsonField | FloatField | BitField | DateField

  /** The column value a field becomes, or `None` when the driver rejects it. */
  function Bind(rt: Runtime, e: Encoding, v: JsValue): Option<Cell> {
    match e
    case TextField => Some(AsText(v))
    case JsonField => Some(AsText(StringifyJsonField(v)))
    case FloatField => AsFloat(v)
    case BitField => Some(AsBit(v))
    case DateField => AsDate(rt, v)
  }

  /** A number sent in the body is stored as exactly that number. */
  lemma FloatOfNumber(d: Decimal)
    ensures AsFloat(Js(JNum(d))) == Some(Num(ValueOf(d)))
  {
    NumberTextFloat(d);
  }

  /** A text salary with leading zeros binds as `parseFloat` reads it: "0500" is 500. */
  lemma PaddedFloat()
    ensures AsFloat(Js(JStr("0500"))) == Some(Num(500.0))
  {
    LeadingZeros();
  }

  /** An array or object sent for a JSON column is stored as its JSON text, which reads back as the same value. */
  lemma JsonFieldStored(rt: Runtime, x: Json)
    requires x.JArr? || x.JObj?
    ensures Bind(rt, JsonField, Js(x)) == Some(Text(Stringify(x)))
    ensures DecodedOrNull(Text(Stringify(x))) == x
  {
    StoredRoundTrip(x, JArr([]));
  }

  /**
   * `stringifyJsonField(value || fallback)` as a create stores a JSON column:
   * an array or object sent reads back as itself, and a falsy value as the
   * fallback.
   */
  lemma DefaultedJsonReadsBack(v: JsValue, fallback: Json)
    requires fallback.JArr? || fallback.JObj?
    requires Falsy(v) || IsObjectLike(v)
    ensures var stored := AsText(StringifyJsonField(Or(v, Js(fallback))));
      Decoded(stored, fallback) == (if Falsy(v) then fallback else v.v)
  {
    if Falsy(v) {
      StoredRoundTrip(fallback, fallback);
    } else {
      StoredRoundTrip(v.v, fallback);
    }
  }
}

=== FILE: companies.dfy ===
/** `/api/companies`: the company directory, which any signed-in user may change. */
module CompanyRoutes {
  import opened Wrappers
  import opened Json
  import opened JsValues
  import opened Db
  import opened Binding
  import opened DynamicUpdate
  import opened Http
  import opened Listing
  import opened Handlers

  function CompanyFilters(query: Query): seq<Filter> {
    EqualsIfGiven(query, "department", "department") + EqualsIfGiven(query, "city", "city")
      + EqualsIfGiven(query, "sector", "sector") + EqualsIfGiven(query, "region", "region")
      + SearchIfGiven(query, ["name", "description"])
  }

  /** GET /api/companies: the matching companies by name. */
  method ListCompanies(db: Store, query: Query) returns (res: Response)
    ensures Listed(db.Rows(Companies), CompanyFilters(query), Ascending("name"), RowView, res)
  {
    res := List(db.Rows(Companies), CompanyFilters(query), Ascending("name"), RowView);
  }

  /** GET /api/companies/:id */
  method GetCompany(db: Store, id: string) returns (res: Response)
    ensures id !in db.Rows(Companies) ==> res == Response(404, Error("Empresa no encontrada"))
    ensures id in db.Rows(Companies) ==> res == Response(200, Record(RowView(db.Rows(Companies)[id])))
  {
    var table := db.Rows(Companies);
    if id !in table {
      return Response(404, Error("Empresa no encontrada"));
    }
    res := Response(200, Record(RowView(table[id])));
  }

  const CompanyChecks := [Check("name", NotEmpty, "El nombre es requerido")]

  /** A company passes validation exactly when it has a name. */
  lemma CompanyValidation(rt: Runtime, body: Body)
    ensures Validate(rt, CompanyChecks, body) == [] <==> Every(Lookup(body, "name"), t => t != "")
  {
    ValidateEach(rt, CompanyChecks, body);
    PassesText(rt, Lookup(body, "name"));
  }

  /** The optional columns of a company, each stored as `value || null`. */
  const CompanyOptional := ["region", "department", "city", "address", "sector", "phone", "email", "website",
    "description", "employeeCount", "foundedYear"]

  /** The INSERT's values: the name as sent and every optional column or NULL. */
  function CompanyRow(body: Body): (row: Row)
    ensures "name" in row && row["name"] == AsText(Lookup(body, "name"))
    ensures forall k :: k in CompanyOptional ==> k in row && row[k] == OrNull(body, k)
    ensures forall k :: k in row ==> k == "name" || k in CompanyOptional
  {
    map["name" := AsText(Lookup(body, "name"))] + map k | k in CompanyOptional :: OrNull(body, k)
  }

  function CreateCompanyStep(before: map<TableName, Table>, id: string, body: Body, rt: Runtime, now: int): Step {
    CreateStep(before, rt, CompanyChecks, body, Companies, id, Some(CompanyRow(body)), now,
      "Empresa creada exitosamente", "Error al crear empresa")
  }

  /** POST /api/companies */
  method CreateCompany(db: Store, id: string, body: Body, rt: Runtime, now: int) returns (res: Response)
    modifies db
    ensures Step(res, db.tables) == CreateCompanyStep(old(db.tables), id, body, rt, now)
  {
    res := Create(db, rt, CompanyChecks, body, Companies, id, Some(CompanyRow(body)), now,
      "Empresa creada exitosamente", "Error al crear empresa");
  }

  /** The twelve text fields PUT may change, in the route's order. */
  const CompanyFields := Whitelist(
    ["name", "region", "department", "city", "address", "sector", "phone", "email", "website", "description",
     "employeeCount", "foundedYear"],
    c => TextField)

  lemma CompanyFieldsWellFormed()
    ensures WellFormed(CompanyFields)
  {
    assert DistinctNames(["name", "region", "department", "city", "address", "sector", "phone", "email", "website",
      "description", "employeeCount", "foundedYear"]);
  }

  const CompanyEditTexts := Texts("Empresa no encontrada", "", "Empresa actualizada exitosamente", "Error al actualizar empresa")

  /** PUT /api/companies/:id: 404, then 400 with no fields, then the update. */
  method UpdateCompany(db: Store, id: string, body: Body, rt: Runtime, now: int) returns (res: Response)
    modifies db
    ensures Step(res, db.tables) == ExistingUpdate(old(db.tables), Companies, id, CompanyFields, body, rt, now, CompanyEditTexts)
  {
    res := PutExisting(db, Companies, id, CompanyFields, body, rt, now, CompanyEditTexts);
  }

  /** A successful edit stores each sent field as text, stamps `updatedAt` and keeps every other column and row. */
  lemma CompanyEditWrites(before: map<TableName, Table>, id: string, body: Body, rt: Runtime, now: int)
    requires ExistingUpdate(before, Companies, id, CompanyFields, body, rt, now, CompanyEditTexts).res.status == 200
    ensures var after := Get(ExistingUpdate(before, Companies, id, CompanyFields, body, rt, now, CompanyEditTexts).tables, Companies);
      var row := Get(before, Companies)[id];
      && after.Keys == Get(before, Companies).Keys
      && (forall k :: k in after && k != id ==> after[k] == Get(before, Companies)[k])
      && Field(after[id], "updatedAt") == Time(now)
      && (forall c :: c in ColumnsOf(CompanyFields) && c in body ==> Field(after[id], c) == AsText(Js(body[c])))
      && (forall c :: c !in Present(CompanyFields, body) && c != "updatedAt" ==> Field(after[id], c) == Field(row, c))
  {
    CompanyFieldsWellFormed();
    UpdatedWritesExactly(before, Companies, id, CompanyFields, body, rt, now);
    assert forall f :: f in CompanyFields ==> f.encoding == TextField;
  }

  /** Every company field is text, so binding an edit never fails. */
  lemma CompanyPatchBinds(rt: Runtime, body: Body, now: int)
    ensures Patch(rt, CompanyFields, body, now).Some?
  {
    assert forall f :: f in CompanyFields ==> f.encoding == TextField;
    AssignmentsExact(CompanyFields, body);
  }

  /** Setting the name to `null` breaks its NOT NULL: the edit is the route's 500 and nothing changes. */
  lemma NullNameRefused(before: map<TableName, Table>, id: string, body: Body, rt: Runtime, now: int)
    requires id in Get(before, Companies)
    requires "name" in body && body["name"] == JNull
    ensures ExistingUpdate(before, Companies, id, CompanyFields, body, rt, now, CompanyEditTexts)
      == Refuse(before, 500, "Error al actualizar empresa")
  {
    CompanyFieldsWellFormed();
    CompanyPatchBinds(rt, body, now);
    assert CompanyFields[0] == FieldSpec("name", TextField);
    assert Columns(Companies)[1] == Req("name");
    NullIntoRequired(before, Companies, id, CompanyFields, body, rt, now, CompanyEditTexts, "name");
  }

  const CompanyDeleteTexts := Texts("", "", "Empresa eliminada exitosamente", "Error al eliminar empresa")

  /** DELETE /api/companies/:id, with no existence check. */
  method DeleteCompany(db: Store, id: string) returns (res: Response)
    modifies db
    ensures Step(res, db.tables) == DeleteStep(old(db.tables), Companies, id, CompanyDeleteTexts)
  {
    res := Remove(db, Companies, id, CompanyDeleteTexts);
  }

  /** Deleting a company always succeeds, existing or not, and removes that row only. */
  lemma CompanyDeleteSucceeds(before: map<TableName, Table>, id: string)
    requires Consistent(before)
    ensures var r := DeleteStep(before, Companies, id, CompanyDeleteTexts);
      && r.res == Response(200, Message("Empresa eliminada exitosamente"))
      && Get(r.tables, Companies) == Get(before, Companies) - {id}
      && forall u :: u != Companies ==> Get(r.tables, u) == Get(before, u)
  {
    DeleteSucceeds(before, Companies, id, CompanyDeleteTexts);
  }
}

=== FILE: dynamic_update.dfy ===
/**
 * The partial update every PUT route performs: walk a fixed list of fields,
 * add `field = @field` for each one the body defines (even as `null`), answer
 * "no fields" when there is none, otherwise stamp `updatedAt` and run one
 * UPDATE on the row.
 */
module DynamicUpdate {
  import opened Wrappers
  import opened Json
  import opened JsValues
  import opened Db
  import opened Binding

  /** A field a route lets the client change, and how it passes the value to the driver. */
  datatype FieldSpec = FieldSpec(column: string, encoding: Encoding)

  /** One entry of the route's `updates` list with the parameter bound beside it. */
  datatype Assignment = Assignment(column: string, encoding: Encoding, value: JsValue)

  /** No column is listed twice. */
  predicate DistinctColumns(fields: seq<FieldSpec>) {
    forall i, j :: 0 <= i < j < |fields| ==> fields[i].column != fields[j].column
  }

  /** No name is listed twice. */
  predicate DistinctNames(names: seq<string>) {
    forall i, j :: 0 <= i < j < |names| ==> names[i] != names[j]
  }

  /** A route's field list: its columns in the route's order, each bound with the encoding the route gives it. */
  function Whitelist(columns: seq<string>, encoding: string -> Encoding): (fields: seq<FieldSpec>)
    ensures |fields| == |columns|
    ensures forall i :: 0 <= i < |columns| ==> fields[i] == FieldSpec(columns[i], encoding(columns[i]))
    ensures ColumnsOf(fields) == set c | c in columns
    ensures DistinctNames(columns) ==> DistinctColumns(fields)
  {
    var fields := seq(|columns|, i requires 0 <= i < |columns| => FieldSpec(columns[i], encoding(columns[i])));
    assert forall c :: c in columns ==> c in ColumnsOf(fields) by {
      forall c | c in columns ensures c in ColumnsOf(fields) {
        var i :| 0 <= i < |columns| && columns[i] == c;
        assert fields[i] in fields;
      }
    }
    fields
  }

  /** The listed fields the body defines, in list order: the `updates` the route collects. */
  function Assignments(fields: seq<FieldSpec>, body: Body): seq<Assignment> {
    if fields == [] then []
    else
      var f := fields[|fields| - 1];
      var init := Assignments(fields[..|fields| - 1], body);
      if f.column in body then init + [Assignment(f.column, f.encoding, Js(body[f.column]))] else init
  }

  /** The columns a list of fields names. */
  function ColumnsOf(fields: seq<FieldSpec>): set<string> {
    set f | f in fields :: f.column
  }

  /** The columns the body asks to change. */
  function Present(fields: seq<FieldSpec>, body: Body): set<string> {
    set f | f in fields && f.column in body :: f.column
  }

  /**
   * The route's loop: for each field in order, `if (req.body[field] !== undefined)`
   * push the assignment.
   */
  method CollectAssignments(fields: seq<FieldSpec>, body: Body) returns (updates: seq<Assignment>)
    ensures updates == Assignments(fields, body)
  {
    updates := [];
    var i := 0;
    while i < |fields|
      invariant 0 <= i <= |fields|
      invariant updates == Assignments(fields[..i], body)
    {
      var f := fields[i];
      assert fields[..i + 1][..i] == fields[..i];
      if Lookup(body, f.column) != Undefined {
        updates := updates + [Assignment(f.column, f.encoding, Lookup(body, f.column))];
      }
      i := i + 1;
    }
    assert fields[..|fields|] == fields;
  }

  /** The columns a list of assignments sets. */
  function AssignedColumns(u: seq<Assignment>): set<string> {
    set a | a in u :: a.column
  }

  /**
   * An assignment is made for exactly the listed fields the body defines, with
   * the body's value; so there are none exactly when the body defines none.
   */
  lemma {:induction false} AssignmentsExact(fields: seq<FieldSpec>, body: Body)
    ensures forall a :: a in Assignments(fields, body) ==>
      FieldSpec(a.column, a.encoding) in fields && a.column in body && a.value == Js(body[a.column])
    ensures AssignedColumns(Assignments(fields, body)) == Present(fields, body)
    ensures Assignments(fields, body) == [] <==> Present(fields, body) == {}
  {
    if fields != [] {
      var init := fields[..|fields| - 1];
      var f := fields[|fields| - 1];
      var u := Assignments(init, body);
      AssignmentsExact(init, body);
      assert fields == init + [f];
      if f.column in body {
        var x := Assignment(f.column, f.encoding, Js(body[f.column]));
        assert Present(fields, body) == Present(init, body) + {f.column};
        assert AssignedColumns(u + [x]) == AssignedColumns(u) + {f.column};
      } else {
        assert Present(fields, body) == Present(init, body);
      }
    }
  }

  /** The parameters bound, column by column; `None` when the driver rejects one of them. */
  function BindAll(rt: Runtime, updates: seq<Assignment>): (r: Option<Row>)
    ensures r.Some? ==> r.value.Keys == AssignedColumns(updates)
    ensures r.Some? <==> forall a :: a in updates ==> Bind(rt, a.encoding, a.value).Some?
  {
    if updates == [] then Some(map[])
    else
      var a := updates[|updates| - 1];
      var init := updates[..|updates| - 1];
      assert updates == init + [a];
      match BindAll(rt, init)
      case None => None
      case Some(row) =>
        match Bind(rt, a.encoding, a.value)
        case None => None
        case Some(c) => Some(row[a.column := c])
  }

  /** Each column receives the value bound for it. */
  lemma {:induction false} BindAllValues(rt: Runtime, updates: seq<Assignment>)
    requires BindAll(rt, updates).Some?
    requires forall i, j :: 0 <= i < j < |updates| ==> updates[i].column != updates[j].column
    ensures forall a :: a in updates ==> BindAll(rt, updates).value[a.column] == Bind(rt, a.encoding, a.value).value
  {
    if updates != [] {
      var init := updates[..|updates| - 1];
      assert updates == init + [updates[|updates| - 1]];
      BindAllValues(rt, init);
    }
  }

  /** Assignments keep the list's order, so distinct listed columns give distinct assignments. */
  lemma {:induction false} AssignmentsDistinct(fields: seq<FieldSpec>, body: Body)
    requires DistinctColumns(fields)
    ensures var u := Assignments(fields, body);
      forall i, j :: 0 <= i < j < |u| ==> u[i].column != u[j].column
  {
    if fields != [] {
      var init := fields[..|fields| - 1];
      var f := fields[|fields| - 1];
      AssignmentsDistinct(init, body);
      AssignmentsExact(init, body);
      forall a | a in Assignments(init, body) ensures a.column != f.column {
        var g := FieldSpec(a.column, a.encoding);
        var k :| 0 <= k < |init| && init[k] == g;
        assert fields[k] == g;
      }
    }
  }

  /** The columns the UPDATE writes: the bound fields and `updatedAt`. */
  function Patch(rt: Runtime, fields: seq<FieldSpec>, body: Body, now: int): Option<Row> {
    match BindAll(rt, Assignments(fields, body))
    case Some(row) => Some(row["updatedAt" := Time(now)])
    case None => None
  }

  /**
   * The patch writes exactly the listed fields the body defines, each with
   * its bound value, plus `updatedAt`; nothing else.
   */
  lemma PatchExact(rt: Runtime, fields: seq<FieldSpec>, body: Body, now: int)
    requires DistinctColumns(fields) && "updatedAt" !in ColumnsOf(fields)
    requires Patch(rt, fields, body, now).Some?
    ensures var p := Patch(rt, fields, body, now).value;
      && p.Keys == Present(fields, body) + {"updatedAt"}
      && p["updatedAt"] == Time(now)
      && forall f :: f in fields && f.column in body ==> Some(p[f.column]) == Bind(rt, f.encoding, Js(body[f.column]))
  {
    var u := Assignments(fields, body);
    AssignmentsExact(fields, body);
    AssignmentsDistinct(fields, body);
    BindAllValues(rt, u);
    var p := Patch(rt, fields, body, now).value;
    forall f | f in fields && f.column in body
      ensures Some(p[f.column]) == Bind(rt, f.encoding, Js(body[f.column]))
    {
      assert f.column in ColumnsOf(fields);
      assert f.column in Present(fields, body);
      assert f.column in AssignedColumns(u);
      var a :| a in u && a.column == f.column;
      var k :| 0 <= k < |fields| && fields[k] == FieldSpec(a.column, a.encoding);
      var m :| 0 <= m < |fields| && fields[m] == f;
      assert k == m;
    }
  }

  /** A whitelist that names each column once and leaves `updatedAt` to the route. */
  predicate WellFormed(fields: seq<FieldSpec>) {
    DistinctColumns(fields) && "updatedAt" !in ColumnsOf(fields)
  }

  /** Only listed columns can be present. */
  lemma PresentListed(fields: seq<FieldSpec>, body: Body)
    ensures Present(fields, body) <= ColumnsOf(fields)
  {
  }

  /**
   * The UPDATE a PUT runs changes one row of one table, and in that row
   * exactly the listed fields the body defines (each to its bound value) and
   * `updatedAt`; every other column keeps its value.
   */
  lemma UpdatedWritesExactly(before: map<TableName, Table>, t: TableName, id: string, fields: seq<FieldSpec>,
                             body: Body, rt: Runtime, now: int)
    requires WellFormed(fields)
    requires id in Get(before, t) && Patch(rt, fields, body, now).Some?
    ensures var after := Updated(before, t, id, Patch(rt, fields, body, now).value);
      var row := Get(before, t)[id];
      && (forall u :: u != t ==> Get(after, u) == Get(before, u))
      && Get(after, t).Keys == Get(before, t).Keys
      && (forall k :: k in Get(before, t) && k != id ==> Get(after, t)[k] == Get(before, t)[k])
      && Field(Get(after, t)[id], "updatedAt") == Time(now)
      && (forall f :: f in fields && f.column in body ==>
            Some(Field(Get(after, t)[id], f.column)) == Bind(rt, f.encoding, Js(body[f.column])))
      && (forall c :: c !in Present(fields, body) && c != "updatedAt" ==> Field(Get(after, t)[id], c) == Field(row, c))
  {
    var p := Patch(rt, fields, body, now).value;
    PatchExact(rt, fields, body, now);
    UpdateTouchesOneRow(before, t, id, p);
  }

  /** What a partial update came to. */
  datatype UpdateOutcome = NoFields | Rejected | Applied

  /**
   * The shared tail of every PUT route once the row is known to exist: collect
   * the assignments, answer "no fields" when there are none, otherwise bind
   * them and run the UPDATE with `updatedAt`.
   */
  method PartialUpdate(db: Store, t: TableName, id: string, fields: seq<FieldSpec>, body: Body, rt: Runtime, now: int)
    returns (outcome: UpdateOutcome)
    modifies db
    ensures outcome == NoFields <==> Present(fields, body) == {}
    ensures outcome == Applied <==>
      (Present(fields, body) != {} && Patch(rt, fields, body, now).Some?
       && Consistent(Updated(old(db.tables), t, id, Patch(rt, fields, body, now).value)))
    ensures outcome == Applied ==> db.tables == Updated(old(db.tables), t, id, Patch(rt, fields, body, now).value)
    ensures outcome != Applied ==> db.tables == old(db.tables)
  {
    var updates := CollectAssignments(fields, body);
    AssignmentsExact(fields, body);
    if |updates| == 0 {
      return NoFields;
    }
    var bound := BindAll(rt, updates);
    if bound.None? {
      return Rejected;
    }
    var ok := db.Update(t, id, bound.value["updatedAt" := Time(now)]);
    outcome := if ok then Applied else Rejected;
  }
}

=== FILE: employees.dfy ===
/**
 * `/api/employees`: the staff register, and each employee's memorandums and
 * recognitions, which the database removes with the employee.
 */
module EmployeeRoutes {
  import opened Wrappers
  import opened Json
  import opened JsValues
  import opened Db
  import opened Binding
  import opened DynamicUpdate
  import opened Http
  import opened Listing
  import opened Handlers

  // ================================================================ employees

  function EmployeeFilters(query: Query): seq<Filter> {
    EqualsIfGiven(query, "department", "department") + EqualsIfGiven(query, "status", "status")
      + SearchIfGiven(query, ["name", "email", "position"])
  }

  /** GET /api/employees: the matching employees by name. */
  method ListEmployees(db: Store, query: Query) returns (res: Response)
    ensures Listed(db.Rows(Employees), EmployeeFilters(query), Ascending("name"), RowView, res)
  {
    res := List(db.Rows(Employees), EmployeeFilters(query), Ascending("name"), RowView);
  }

  /** The rows of an employee's memorandums or recognitions: `WHERE employeeId = @employeeId ORDER BY date DESC`. */
  function OfEmployee(id: string): seq<Filter> {
    [Equals("employeeId", Text(id))]
  }

  /** An employee as sent by the detail route: the row with the two lists attached. */
  function EmployeeView(row: Row, memorandums: seq<Row>, recognitions: seq<Row>): (v: View)
    ensures v.Keys == row.Keys + {"memorandums", "recognitions"}
    ensures forall k :: k in row && k != "memorandums" && k != "recognitions" ==> v[k] == Stored(row[k])
    ensures v["memorandums"] == Nested(memorandums) && v["recognitions"] == Nested(recognitions)
  {
    RowView(row)["memorandums" := Nested(memorandums)]["recognitions" := Nested(recognitions)]
  }

  /** The detail answer: the employee with every memorandum and recognition of theirs, newest first. */
  ghost predicate Detailed(tables: map<TableName, Table>, id: string, res: Response)
    requires id in Get(tables, Employees)
  {
    var memos := Get(tables, Memorandums);
    var recs := Get(tables, Recognitions);
    exists ms, rs :: (&& Lists(memos, OfEmployee(id), Descending("date"), ms)
      && Lists(recs, OfEmployee(id), Descending("date"), rs)
      && res == Response(200, Record(EmployeeView(Get(tables, Employees)[id], RowsOf(memos, ms), RowsOf(recs, rs)))))
  }

  /** GET /api/employees/:id */
  method GetEmployee(db: Store, id: string) returns (res: Response)
    ensures id !in db.Rows(Employees) ==> res == Response(404, Error("Empleado no encontrado"))
    ensures id in db.Rows(Employees) ==> Detailed(db.tables, id, res)
  {
    var employees := db.Rows(Employees);
    if id !in employees {
      return Response(404, Error("Empleado no encontrado"));
    }
    var memos := db.Rows(Memorandums);
    var recs := db.Rows(Recognitions);
    var ms := Select(memos, OfEmployee(id), Descending("date"));
    var rs := Select(recs, OfEmployee(id), Descending("date"));
    res := Response(200, Record(EmployeeView(employees[id], RowsOf(memos, ms), RowsOf(recs, rs))));
  }

  /** Every memorandum the detail route attaches belongs to that employee. */
  lemma DetailListsOwnMemorandums(memos: Table, id: string, ms: seq<string>)
    requires Lists(memos, OfEmployee(id), Descending("date"), ms)
    ensures forall i :: 0 <= i < |ms| ==> Field(RowsOf(memos, ms)[i], "employeeId") == Text(id)
  {
    forall i | 0 <= i < |ms| ensures Field(RowsOf(memos, ms)[i], "employeeId") == Text(id) {
      assert ms[i] in Matching(memos, OfEmployee(id));
      assert Holds(OfEmployee(id)[0], memos[ms[i]]);
    }
  }

  const EmployeeChecks := [
    Check("name", NotEmpty, "El nombre es requerido"),
    Check("position", NotEmpty, "La posición es requerida"),
    Check("email", IsEmail, "Email inválido"),
    Check("hireDate", IsIso8601, "Fecha de contratación inválida"),
    Check("department", NotEmpty, "El departamento es requerido"),
    Check("salary", IsFloat(Some(0.0), None), "Salario inválido")
  ]

  /** The six checks, one by one. */
  lemma EmployeeChecksEach(rt: Runtime, body: Body)
    ensures Validate(rt, EmployeeChecks, body) == [] <==>
      (&& Passes(rt, NotEmpty, Lookup(body, "name"))
       && Passes(rt, NotEmpty, Lookup(body, "position"))
       && Passes(rt, IsEmail, Lookup(body, "email"))
       && Passes(rt, IsIso8601, Lookup(body, "hireDate"))
       && Passes(rt, NotEmpty, Lookup(body, "department"))
       && Passes(rt, IsFloat(Some(0.0), None), Lookup(body, "salary")))
  {
    ValidateEach(rt, EmployeeChecks, body);
  }

  /** An employee passes validation exactly when name, position and department are non-empty, email and hire date well-formed, and the salary a number of at least 0. */
  lemma EmployeeValidation(rt: Runtime, body: Body)
    ensures Validate(rt, EmployeeChecks, body) == [] <==>
      (&& Every(Lookup(body, "name"), t => t != "")
       && Every(Lookup(body, "position"), t => t != "")
       && Every(Lookup(body, "email"), rt.isEmail)
       && Every(Lookup(body, "hireDate"), rt.isIso8601)
       && Every(Lookup(body, "department"), t => t != "")
       && Every(Lookup(body, "salary"), t => FloatSyntax(t) && ParseFloat(t).Some? && ParseFloat(t).value >= 0.0))
  {
    EmployeeChecksEach(rt, body);
    PassesText(rt, Lookup(body, "name"));
    PassesText(rt, Lookup(body, "position"));
    PassesText(rt, Lookup(body, "email"));
    PassesText(rt, Lookup(body, "hireDate"));
    PassesText(rt, Lookup(body, "department"));
    AtLeast(rt, Lookup(body, "salary"), 0.0);
  }

  /** The INSERT's values; `None` when the driver rejects the hire date or the salary. */
  function EmployeeRow(rt: Runtime, body: Body): (row: Option<Row>)
    ensures row.Some? <==> AsDate(rt, Lookup(body, "hireDate")).Some? && AsFloat(Lookup(body, "salary")).Some?
    ensures row.Some? ==> "status" in row.value && row.value["status"] == AsText(Or(Lookup(body, "status"), Js(JStr("active"))))
  {
    match (AsDate(rt, Lookup(body, "hireDate")), AsFloat(Lookup(body, "salary")))
    case (Some(hired), Some(salary)) =>
      Some(map[
        "name" := AsText(Lookup(body, "name")),
        "position" := AsText(Lookup(body, "position")),
        "email" := AsText(Lookup(body, "email")),
        "phone" := OrNull(body, "phone"),
        "hireDate" := hired,
        "department" := AsText(Lookup(body, "department")),
        "salary" := salary,
        "status" := AsText(Or(Lookup(body, "status"), Js(JStr("active")))),
        "photoUrl" := OrNull(body, "photoUrl"),
        "address" := OrNull(body, "address")
      ])
    case _ => None
  }

  /** With no status sent, a new employee is active. */
  lemma StatusDefaultsToActive(rt: Runtime, body: Body)
    requires EmployeeRow(rt, body).Some? && Falsy(Lookup(body, "status"))
    ensures EmployeeRow(rt, body).value["status"] == Text("active")
  {
  }

  function CreateEmployeeStep(before: map<TableName, Table>, id: string, body: Body, rt: Runtime, now: int): Step {
    CreateStep(before, rt, EmployeeChecks, body, Employees, id, EmployeeRow(rt, body), now,
      "Empleado creado exitosamente", "Error al crear empleado")
  }

  /** POST /api/employees */
  method CreateEmployee(db: Store, id: string, body: Body, rt: Runtime, now: int) returns (res: Response)
    modifies db
    ensures Step(res, db.tables) == CreateEmployeeStep(old(db.tables), id, body, rt, now)
  {
    res := Create(db, rt, EmployeeChecks, body, Employees, id, EmployeeRow(rt, body), now,
      "Empleado creado exitosamente", "Error al crear empleado");
  }

  /** The fields PUT may change, `hireDate` last as the route appends it after its loop. */
  const EmployeeFields := Whitelist(
    ["name", "position", "email", "phone", "department", "salary", "status", "photoUrl", "address", "hireDate"],
    c => if c == "salary" then FloatField else if c == "hireDate" then DateField else TextField)

  lemma EmployeeFieldsWellFormed()
    ensures WellFormed(EmployeeFields)
  {
    assert DistinctNames(["name", "position", "email", "phone", "department", "salary", "status", "photoUrl", "address", "hireDate"]);
  }

  const EmployeeEditTexts := Texts("Empleado no encontrado", "", "Empleado actualizado exitosamente", "Error al actualizar empleado")

  /** PUT /api/employees/:id: 404, then 400 with no fields, then the update. */
  method UpdateEmployee(db: Store, id: string, body: Body, rt: Runtime, now: int) returns (res: Response)
    modifies db
    ensures Step(res, db.tables) == ExistingUpdate(old(db.tables), Employees, id, EmployeeFields, body, rt, now, EmployeeEditTexts)
  {
    res := PutExisting(db, Employees, id, EmployeeFields, body, rt, now, EmployeeEditTexts);
  }

  /** An employee edit writes each field sent with its bound value and `updatedAt`, and leaves every other column and row alone. */
  lemma EmployeeEditWrites(before: map<TableName, Table>, id: string, body: Body, rt: Runtime, now: int)
    requires ExistingUpdate(before, Employees, id, EmployeeFields, body, rt, now, EmployeeEditTexts).res.status == 200
    ensures var after := Get(ExistingUpdate(before, Employees, id, EmployeeFields, body, rt, now, EmployeeEditTexts).tables, Employees);
      var row := Get(before, Employees)[id];
      && after.Keys == Get(before, Employees).Keys
      && (forall k :: k in after && k != id ==> after[k] == Get(before, Employees)[k])
      && Field(after[id], "updatedAt") == Time(now)
      && (forall f :: f in EmployeeFields && f.column in body ==>
            Some(Field(after[id], f.column)) == Bind(rt, f.encoding, Js(body[f.column])))
      && (forall c :: c !in Present(EmployeeFields, body) && c != "updatedAt" ==> Field(after[id], c) == Field(row, c))
  {
    EmployeeFieldsWellFormed();
    UpdatedWritesExactly(before, Employees, id, EmployeeFields, body, rt, now);
  }

  const EmployeeDeleteTexts := Texts("", "", "Empleado eliminado exitosamente", "Error al eliminar empleado")

  /** DELETE /api/employees/:id, with no existence check. */
  method DeleteEmployee(db: Store, id: string) returns (res: Response)
    modifies db
    ensures Step(res, db.tables) == DeleteStep(old(db.tables), Employees, id, EmployeeDeleteTexts)
  {
    res := Remove(db, Employees, id, EmployeeDeleteTexts);
  }

  /**
   * Deleting an employee always succeeds, and takes their memorandums and
   * recognitions with them (ON DELETE CASCADE); every other row stays.
   */
  lemma EmployeeDeleteCascades(before: map<TableName, Table>, id: string)
    requires Consistent(before)
    ensures var r := DeleteStep(before, Employees, id, EmployeeDeleteTexts);
      && r.res == Response(200, Message("Empleado eliminado exitosamente"))
      && Get(r.tables, Employees) == Get(before, Employees) - {id}
      && (forall k :: k in Get(r.tables, Memorandums) <==>
            k in Get(before, Memorandums) && Field(Get(before, Memorandums)[k], "employeeId") != Text(id))
      && (forall k :: k in Get(r.tables, Recognitions) <==>
            k in Get(before, Recognitions) && Field(Get(before, Recognitions)[k], "employeeId") != Text(id))
      && Get(r.tables, Users) == Get(before, Users)
  {
    EmployeeDeleteSucceeds(before, id);
    EmployeeDeleted(before, id);
  }

  // ================================================================ memorandums and recognitions

  /** GET /api/employees/:employeeId/memorandums: that employee's memorandums, newest first. */
  method ListMemorandums(db: Store, employeeId: string) returns (res: Response)
    ensures Listed(db.Rows(Memorandums), OfEmployee(employeeId), Descending("date"), RowView, res)
  {
    res := List(db.Rows(Memorandums), OfEmployee(employeeId), Descending("date"), RowView);
  }

  /** GET /api/employees/:employeeId/recognitions: that employee's recognitions, newest first. */
  method ListRecognitions(db: Store, employeeId: string) returns (res: Response)
    ensures Listed(db.Rows(Recognitions), OfEmployee(employeeId), Descending("date"), RowView, res)
  {
    res := List(db.Rows(Recognitions), OfEmployee(employeeId), Descending("date"), RowView);
  }

  const MemorandumChecks := [
    Check("title", NotEmpty, "El título es requerido"),
    Check("description", NotEmpty, "La descripción es requerida"),
    Check("date", IsIso8601, "Fecha inválida"),
    Check("severity", IsIn(["leve", "grave", "muy_grave"]), "Severidad inválida"),
    Check("issuedBy", NotEmpty, "El emisor es requerido")
  ]

  const RecognitionChecks := [
    Check("title", NotEmpty, "El título es requerido"),
    Check("description", NotEmpty, "La descripción es requerida"),
    Check("date", IsIso8601, "Fecha inválida"),
    Check("type", NotEmpty, "El tipo es requerido"),
    Check("issuedBy", NotEmpty, "El emisor es requerido")
  ]

  /** The INSERT's values for a memorandum or recognition (`kind` is `severity` or `type`); `None` when the driver rejects the date. */
  function NoteRow(rt: Runtime, employeeId: string, body: Body, kind: string): (row: Option<Row>)
    requires kind == "severity" || kind == "type"
    ensures row.Some? <==> AsDate(rt, Lookup(body, "date")).Some?
    ensures row.Some? ==> "employeeId" in row.value && row.value["employeeId"] == Text(employeeId)
  {
    match AsDate(rt, Lookup(body, "date"))
    case Some(date) =>
      Some(map[
        "employeeId" := Text(employeeId),
        "title" := AsText(Lookup(body, "title")),
        "description" := AsText(Lookup(body, "description")),
        "date" := date,
        kind := AsText(Lookup(body, kind)),
        "issuedBy" := AsText(Lookup(body, "issuedBy"))
      ])
    case None => None
  }

  function CreateMemorandumStep(before: map<TableName, Table>, employeeId: string, id: string, body: Body, rt: Runtime, now: int): Step {
    CreateStep(before, rt, MemorandumChecks, body, Memorandums, id, NoteRow(rt, employeeId, body, "severity"), now,
      "Memorandum creado exitosamente", "Error al crear memorandum")
  }

  function CreateRecognitionStep(before: map<TableName, Table>, employeeId: string, id: string, body: Body, rt: Runtime, now: int): Step {
    CreateStep(before, rt, RecognitionChecks, body, Recognitions, id, NoteRow(rt, employeeId, body, "type"), now,
      "Reconocimiento creado exitosamente", "Error al crear reconocimiento")
  }

  /** POST /api/employees/:employeeId/memorandums */
  method CreateMemorandum(db: Store, employeeId: string, id: string, body: Body, rt: Runtime, now: int) returns (res: Response)
    modifies db
    ensures Step(res, db.tables) == CreateMemorandumStep(old(db.tables), employeeId, id, body, rt, now)
  {
    res := Create(db, rt, MemorandumChecks, body, Memorandums, id, NoteRow(rt, employeeId, body, "severity"), now,
      "Memorandum creado exitosamente", "Error al crear memorandum");
  }

  /** POST /api/employees/:employeeId/recognitions */
  method CreateRecognition(db: Store, employeeId: string, id: string, body: Body, rt: Runtime, now: int) returns (res: Response)
    modifies db
    ensures Step(res, db.tables) == CreateRecognitionStep(old(db.tables), employeeId, id, body, rt, now)
  {
    res := Create(db, rt, RecognitionChecks, body, Recognitions, id, NoteRow(rt, employeeId, body, "type"), now,
      "Reconocimiento creado exitosamente", "Error al crear reconocimiento");
  }

  /** A memorandum is only ever filed for an existing employee: for an unknown one the foreign key refuses it. */
  lemma MemorandumNeedsEmployee(before: map<TableName, Table>, employeeId: string, id: string, body: Body, rt: Runtime, now: int)
    requires employeeId !in Get(before, Employees)
    ensures CreateMemorandumStep(before, employeeId, id, body, rt, now).res.status != 201
    ensures CreateMemorandumStep(before, employeeId, id, body, rt, now).tables == before
  {
    var row := NoteRow(rt, employeeId, body, "severity");
    if Validate(rt, MemorandumChecks, body) == [] && row.Some? && id !in Get(before, Memorandums) {
      DanglingInsert(before, Memorandums, id, row.value, now, "employeeId", Employees);
    }
  }

  /** A recognition is only ever filed for an existing employee: for an unknown one the foreign key refuses it. */
  lemma RecognitionNeedsEmployee(before: map<TableName, Table>, employeeId: string, id: string, body: Body, rt: Runtime, now: int)
    requires employeeId !in Get(before, Employees)
    ensures CreateRecognitionStep(before, employeeId, id, body, rt, now).res.status != 201
    ensures CreateRecognitionStep(before, employeeId, id, body, rt, now).tables == before
  {
    var row := NoteRow(rt, employeeId, body, "type");
    if Validate(rt, RecognitionChecks, body) == [] && row.Some? && id !in Get(before, Recognitions) {
      DanglingInsert(before, Recognitions, id, row.value, now, "employeeId", Employees);
    }
  }

  const MemorandumDeleteTexts := Texts("", "", "Memorandum eliminado exitosamente", "Error al eliminar memorandum")
  const RecognitionDeleteTexts := Texts("", "", "Reconocimiento eliminado exitosamente", "Error al eliminar reconocimiento")

  /** DELETE /api/employees/:employeeId/memorandums/:id: by id alone, whatever the employee in the path. */
  method DeleteMemorandum(db: Store, employeeId: string, id: string) returns (res: Response)
    modifies db
    ensures Step(res, db.tables) == DeleteStep(old(db.tables), Memorandums, id, MemorandumDeleteTexts)
  {
    res := Remove(db, Memorandums, id, MemorandumDeleteTexts);
  }

  /** DELETE /api/employees/:employeeId/recognitions/:id: by id alone, whatever the employee in the path. */
  method DeleteRecognition(db: Store, employeeId: string, id: string) returns (res: Response)
    modifies db
    ensures Step(res, db.tables) == DeleteStep(old(db.tables), Recognitions, id, RecognitionDeleteTexts)
  {
    res := Remove(db, Recognitions, id, RecognitionDeleteTexts);
  }

  /** Deleting a memorandum always succeeds and removes that row only, even one of another employee than the path names. */
  lemma MemorandumDeleteSucceeds(before: map<TableName, Table>, id: string)
    requires Consistent(before)
    ensures var r := DeleteStep(before, Memorandums, id, MemorandumDeleteTexts);
      && r.res == Response(200, Message("Memorandum eliminado exitosamente"))
      && Get(r.tables, Memorandums) == Get(before, Memorandums) - {id}
      && forall u :: u != Memorandums ==> Get(r.tables, u) == Get(before, u)
  {
    DeleteSucceeds(before, Memorandums, id, MemorandumDeleteTexts);
  }

  /** Deleting a recognition always succeeds and removes that row only. */
  lemma RecognitionDeleteSucceeds(before: map<TableName, Table>, id: string)
    requires Consistent(before)
    ensures var r := DeleteStep(before, Recognitions, id, RecognitionDeleteTexts);
      && r.res == Response(200, Message("Reconocimiento eliminado exitosamente"))
      && Get(r.tables, Recognitions) == Get(before, Recognitions) - {id}
      && forall u :: u != Recognitions ==> Get(r.tables, u) == Get(before, u)
  {
    DeleteSucceeds(before, Recognitions, id, RecognitionDeleteTexts);
  }
}

=== FILE: emprendimientos.dfy ===
/**
 * `/api/emprendimientos`: small businesses, each belonging to the user who
 * created it, with a JSON list of products.
 */
module EmprendimientoRoutes {
  import opened Wrappers
  import opened Json
  import opened JsValues
  import opened Db
  import opened Binding
  import opened FieldCodec
  import opened DynamicUpdate
  import opened Http
  import opened Listing
  import opened Handlers

  /** A business as sent: every column, with `products` decoded and defaulting to `[]`. */
  function EmprendimientoView(row: Row): (v: View)
    ensures v.Keys == row.Keys + {"products"}
    ensures forall k :: k in row && k != "products" ==> v[k] == Stored(row[k])
    ensures v["products"].Value? && !Falsy(Js(v["products"].j))
  {
    RowView(row)["products" := Value(Decoded(Field(row, "products"), JArr([])))]
  }

  function EmprendimientoFilters(query: Query): seq<Filter> {
    EqualsIfGiven(query, "ownerId", "ownerId") + SearchIfGiven(query, ["name", "description"])
  }

  /** GET /api/emprendimientos: the matching businesses, newest first. */
  method ListEmprendimientos(db: Store, query: Query) returns (res: Response)
    ensures Listed(db.Rows(Emprendimientos), EmprendimientoFilters(query), Descending("createdAt"), EmprendimientoView, res)
  {
    res := List(db.Rows(Emprendimientos), EmprendimientoFilters(query), Descending("createdAt"), EmprendimientoView);
  }

  /** GET /api/emprendimientos/:id */
  method GetEmprendimiento(db: Store, id: string) returns (res: Response)
    ensures id !in db.Rows(Emprendimientos) ==> res == Response(404, Error("Emprendimiento no encontrado"))
    ensures id in db.Rows(Emprendimientos) ==> res == Response(200, Record(EmprendimientoView(db.Rows(Emprendimientos)[id])))
  {
    var table := db.Rows(Emprendimientos);
    if id !in table {
      return Response(404, Error("Emprendimiento no encontrado"));
    }
    res := Response(200, Record(EmprendimientoView(table[id])));
  }

  const EmprendimientoChecks := [Check("name", NotEmpty, "El nombre es requerido")]

  /** A business passes validation exactly when it has a name. */
  lemma EmprendimientoValidation(rt: Runtime, body: Body)
    ensures Validate(rt, EmprendimientoChecks, body) == [] <==> Every(Lookup(body, "name"), t => t != "")
  {
    ValidateEach(rt, EmprendimientoChecks, body);
    PassesText(rt, Lookup(body, "name"));
  }

  /** The INSERT's values: the owner is the caller, the optional texts become NULL when falsy, the products default to `[]`. */
  function EmprendimientoRow(user: Claims, body: Body): (row: Row)
    ensures row.Keys == {"name", "description", "products", "phone", "ownerId", "image1Url", "image2Url"}
    ensures row["ownerId"] == Text(user.userId)
    ensures forall k :: k in ["description", "phone", "image1Url", "image2Url"] ==> row[k] == OrNull(body, k)
  {
    map[
      "name" := AsText(Lookup(body, "name")),
      "description" := OrNull(body, "description"),
      "products" := AsText(StringifyJsonField(Or(Lookup(body, "products"), Js(JArr([]))))),
      "phone" := OrNull(body, "phone"),
      "ownerId" := Text(user.userId),
      "image1Url" := OrNull(body, "image1Url"),
      "image2Url" := OrNull(body, "image2Url")
    ]
  }

  function CreateEmprendimientoStep(before: map<TableName, Table>, user: Claims, id: string, body: Body, rt: Runtime, now: int): Step {
    CreateStep(before, rt, EmprendimientoChecks, body, Emprendimientos, id, Some(EmprendimientoRow(user, body)), now,
      "Emprendimiento creado exitosamente", "Error al crear emprendimiento")
  }

  /** POST /api/emprendimientos */
  method CreateEmprendimiento(db: Store, user: Claims, id: string, body: Body, rt: Runtime, now: int) returns (res: Response)
    modifies db
    ensures Step(res, db.tables) == CreateEmprendimientoStep(old(db.tables), user, id, body, rt, now)
  {
    res := Create(db, rt, EmprendimientoChecks, body, Emprendimientos, id, Some(EmprendimientoRow(user, body)), now,
      "Emprendimiento creado exitosamente", "Error al crear emprendimiento");
  }

  /** A created business belongs to the caller, who is a stored user; its products read back as sent, or as `[]`. */
  lemma CreatedEmprendimientoBelongsToCaller(before: map<TableName, Table>, user: Claims, id: string, body: Body, rt: Runtime, now: int)
    requires CreateEmprendimientoStep(before, user, id, body, rt, now).res.status == 201
    ensures var after := CreateEmprendimientoStep(before, user, id, body, rt, now).tables;
      && id in Get(after, Emprendimientos)
      && Field(Get(after, Emprendimientos)[id], "ownerId") == Text(user.userId)
      && user.userId in Get(after, Users)
  {
    var after := CreateEmprendimientoStep(before, user, id, body, rt, now).tables;
    InsertedRow(before, Emprendimientos, id, EmprendimientoRow(user, body), now);
    assert Refers(Field(Get(after, Emprendimientos)[id], "ownerId"), Get(after, Users));
  }

  /** The products a create stores read back as sent, or as `[]` when none are sent. */
  lemma ProductsReadBack(user: Claims, body: Body)
    requires Falsy(Lookup(body, "products")) || IsObjectLike(Lookup(body, "products"))
    ensures Decoded(EmprendimientoRow(user, body)["products"], JArr([])) ==
      (if "products" in body && !Falsy(Js(body["products"])) then body["products"] else JArr([]))
  {
    DefaultedJsonReadsBack(Lookup(body, "products"), JArr([]));
  }

  /** The fields PUT may change; `ownerId` is not one of them. */
  const EmprendimientoFields := Whitelist(
    ["name", "description", "products", "phone", "image1Url", "image2Url"],
    c => if c == "products" then JsonField else TextField)

  lemma EmprendimientoFieldsWellFormed()
    ensures WellFormed(EmprendimientoFields) && "ownerId" !in ColumnsOf(EmprendimientoFields)
  {
    assert DistinctNames(["name", "description", "products", "phone", "image1Url", "image2Url"]);
  }

  const EditTexts := Texts("Emprendimiento no encontrado", "No tienes permiso para editar este emprendimiento",
    "Emprendimiento actualizado exitosamente", "Error al actualizar emprendimiento")

  /** PUT /api/emprendimientos/:id: 404, then 403 for anyone but the owner, then 400 with no fields, then the update. */
  method UpdateEmprendimiento(db: Store, user: Claims, id: string, body: Body, rt: Runtime, now: int) returns (res: Response)
    modifies db
    ensures Step(res, db.tables) == OwnedUpdate(old(db.tables), Emprendimientos, id, "ownerId", user.userId, EmprendimientoFields, body, rt, now, EditTexts)
  {
    res := PutOwned(db, Emprendimientos, id, "ownerId", user.userId, EmprendimientoFields, body, rt, now, EditTexts);
  }

  /** An edit never hands a business to another owner. */
  lemma EditKeepsOwner(before: map<TableName, Table>, user: Claims, id: string, body: Body, rt: Runtime, now: int)
    requires OwnedUpdate(before, Emprendimientos, id, "ownerId", user.userId, EmprendimientoFields, body, rt, now, EditTexts).res.status == 200
    ensures var after := OwnedUpdate(before, Emprendimientos, id, "ownerId", user.userId, EmprendimientoFields, body, rt, now, EditTexts).tables;
      && Get(after, Emprendimientos).Keys == Get(before, Emprendimientos).Keys
      && (forall k :: k in Get(before, Emprendimientos) ==>
            Field(Get(after, Emprendimientos)[k], "ownerId") == Field(Get(before, Emprendimientos)[k], "ownerId"))
  {
    EmprendimientoFieldsWellFormed();
    OwnerKept(before, Emprendimientos, id, "ownerId", user.userId, EmprendimientoFields, body, rt, now, EditTexts);
  }

  const DeleteTexts := Texts("Emprendimiento no encontrado", "No tienes permiso para eliminar este emprendimiento",
    "Emprendimiento eliminado exitosamente", "Error al eliminar emprendimiento")

  /** DELETE /api/emprendimientos/:id: 404, then 403 for anyone but the owner, then the delete. */
  method DeleteEmprendimiento(db: Store, user: Claims, id: string) returns (res: Response)
    modifies db
    ensures Step(res, db.tables) == OwnedDelete(old(db.tables), Emprendimientos, id, "ownerId", user.userId, DeleteTexts)
  {
    res := RemoveOwned(db, Emprendimientos, id, "ownerId", user.userId, DeleteTexts);
  }

  /** The owner's delete of an existing business always succeeds and removes that business only. */
  lemma OwnerDeletesEmprendimiento(before: map<TableName, Table>, user: Claims, id: string)
    requires Consistent(before)
    requires id in Get(before, Emprendimientos) && Field(Get(before, Emprendimientos)[id], "ownerId") == Text(user.userId)
    ensures var r := OwnedDelete(before, Emprendimientos, id, "ownerId", user.userId, DeleteTexts);
      && r.res == Response(200, Message("Emprendimiento eliminado exitosamente"))
      && Get(r.tables, Emprendimientos) == Get(before, Emprendimientos) - {id}
      && forall u :: u != Emprendimientos ==> Get(r.tables, u) == Get(before, u)
  {
    DeleteSucceeds(before, Emprendimientos, id, DeleteTexts);
  }
}

=== FILE: error_handler.dfy ===
/**
 * Classification of failures of calls to external services (the AI provider)
 * into five user-facing outcomes, and the shaping of results and error
 * responses around it.
 */
module ErrorHandler {
  import opened Wrappers
  import opened Strings

  /** What a thrown error carries: `error.code`, `error.message`, `error.status`. */
  datatype ExternalError = ExternalError(code: Option<string>, message: Option<string>, status: Option<int>)

  /** The five outcome codes. */
  datatype Outcome = NetworkError | TimeoutError | AuthError | RateLimit | ExternalServiceError

  /** The object `classifyError` returns. */
  datatype ErrorInfo = ErrorInfo(code: Outcome, title: string, message: string, httpStatus: int)

  /** The code as it is sent to the client. */
  function CodeName(o: Outcome): (name: string)
    ensures name != ""
  {
    match o
    case NetworkError => "NETWORK_ERROR"
    case TimeoutError => "TIMEOUT_ERROR"
    case AuthError => "AUTH_ERROR"
    case RateLimit => "RATE_LIMIT"
    case ExternalServiceError => "EXTERNAL_SERVICE_ERROR"
  }

  lemma CodeNamesDistinct(a: Outcome, b: Outcome)
    requires a != b
    ensures CodeName(a) != CodeName(b)
  {
  }

  /** `error.message?.toLowerCase() || ''` */
  function MessageText(e: ExternalError): string {
    match e.message
    case Some(m) => Lower(m)
    case None => ""
  }

  /** `error.code || ''` */
  function CodeText(e: ExternalError): string {
    e.code.GetOr("")
  }

  predicate IsNetwork(e: ExternalError) {
    var m, c := MessageText(e), CodeText(e);
    c == "ENOTFOUND" || c == "EAI_AGAIN"
    || Contains(m, "failed host lookup") || Contains(m, "no address associated")
  }

  predicate IsTimeout(e: ExternalError) {
    CodeText(e) == "ETIMEDOUT" || Contains(MessageText(e), "timeout")
  }

  predicate IsAuth(e: ExternalError) {
    var m := MessageText(e);
    e.status == Some(401) || Contains(m, "unauthorized") || Contains(m, "invalid api key")
  }

  predicate IsRateLimited(e: ExternalError) {
    e.status == Some(429) || Contains(MessageText(e), "rate limit")
  }

  const NetworkInfo := ErrorInfo(NetworkError, "Sin conexión",
    "⚠️ No se pudo conectar al servicio. Por favor, verifica tu conexión a internet y vuelve a intentarlo.", 503)
  const TimeoutInfo := ErrorInfo(TimeoutError, "Tiempo de espera agotado",
    "⏱️ La solicitud tardó demasiado tiempo. Por favor, intenta nuevamente.", 504)
  const AuthInfo := ErrorInfo(AuthError, "Error de autenticación",
    "🔒 Hubo un problema con las credenciales del servicio. Contacta al administrador.", 502)
  const RateLimitInfo := ErrorInfo(RateLimit, "Demasiadas solicitudes",
    "🚦 Has alcanzado el límite de solicitudes. Por favor, espera un momento e intenta de nuevo.", 429)
  const ServiceInfo := ErrorInfo(ExternalServiceError, "Error del servicio",
    "❌ El servicio de IA no está disponible en este momento. Por favor, intenta más tarde.", 502)

  /** The fixed status of each outcome. */
  function StatusOf(o: Outcome): int {
    match o
    case NetworkError => 503
    case TimeoutError => 504
    case AuthError => 502
    case RateLimit => 429
    case ExternalServiceError => 502
  }

  /** The first matching rule of network, timeout, authentication, rate limit decides; otherwise the generic outcome. */
  function ClassifyError(e: ExternalError): (info: ErrorInfo)
    ensures info.httpStatus == StatusOf(info.code)
    ensures info.code == NetworkError <==> IsNetwork(e)
    ensures info.code == TimeoutError <==> !IsNetwork(e) && IsTimeout(e)
    ensures info.code == AuthError <==> !IsNetwork(e) && !IsTimeout(e) && IsAuth(e)
    ensures info.code == RateLimit <==> !IsNetwork(e) && !IsTimeout(e) && !IsAuth(e) && IsRateLimited(e)
    ensures info.code == ExternalServiceError <==>
      !IsNetwork(e) && !IsTimeout(e) && !IsAuth(e) && !IsRateLimited(e)
  {
    if IsNetwork(e) then NetworkInfo
    else if IsTimeout(e) then TimeoutInfo
    else if IsAuth(e) then AuthInfo
    else if IsRateLimited(e) then RateLimitInfo
    else ServiceInfo
  }

  /** Every error gets exactly one of the five fixed answers. */
  lemma ClassifyTotal(e: ExternalError)
    ensures ClassifyError(e) in {NetworkInfo, TimeoutInfo, AuthInfo, RateLimitInfo, ServiceInfo}
    ensures ClassifyError(e).httpStatus in {503, 504, 502, 429}
  {
  }

  /** A network code wins over any status, e.g. `ENOTFOUND` with status 429. */
  lemma NetworkFirst(message: Option<string>, status: Option<int>)
    ensures ClassifyError(ExternalError(Some("ENOTFOUND"), message, status)).code == NetworkError
    ensures ClassifyError(ExternalError(Some("EAI_AGAIN"), message, status)).code == NetworkError
  {
  }

  /** Only the lower-cased message matters: a message classifies like its lower-case form. */
  lemma CaseInsensitive(e: ExternalError, m: string)
    ensures ClassifyError(e.(message := Some(m))) == ClassifyError(e.(message := Some(Lower(m))))
  {
    LowerIdempotent(m);
  }

  /** Upper-case letters in the message are ignored, e.g. "Request TIMEOUT". */
  lemma UpperCaseTimeout(code: Option<string>, status: Option<int>)
    requires code != Some("ENOTFOUND") && code != Some("EAI_AGAIN")
    ensures ClassifyError(ExternalError(code, Some("TIMEOUT"), status)).code == TimeoutError
  {
    var e := ExternalError(code, Some("TIMEOUT"), status);
    assert MessageText(e) == "timeout";
    LongerNeedle("timeout", "failed host lookup");
    LongerNeedle("timeout", "no address associated");
    assert !IsNetwork(e);
    assert Contains("timeout", "timeout");
  }

  /** A missing message decides like an empty one, so only code and status matter. */
  lemma MissingMessage(code: Option<string>, status: Option<int>)
    ensures ClassifyError(ExternalError(code, None, status)) == ClassifyError(ExternalError(code, Some(""), status))
    ensures ClassifyError(ExternalError(code, None, status)) ==
      if code == Some("ENOTFOUND") || code == Some("EAI_AGAIN") then NetworkInfo
      else if code == Some("ETIMEDOUT") then TimeoutInfo
      else if status == Some(401) then AuthInfo
      else if status == Some(429) then RateLimitInfo
      else ServiceInfo
  {
  }

  /** `ETIMEDOUT`, or a message mentioning a timeout, without a network sign gives the timeout outcome. */
  lemma TimeoutRule(e: ExternalError)
    requires CodeText(e) == "ETIMEDOUT" || Contains(MessageText(e), "timeout")
    requires !IsNetwork(e)
    ensures ClassifyError(e) == TimeoutInfo
  {
  }

  /** A bare 401 or 429, with no code and no message, gives authentication or rate-limit errors. */
  lemma StatusAlone()
    ensures ClassifyError(ExternalError(None, None, Some(401))) == AuthInfo
    ensures ClassifyError(ExternalError(None, None, Some(429))) == RateLimitInfo
  {
  }

  /** The error object handed back to the client. */
  datatype ErrorBody = ErrorBody(code: string, title: string, message: string, details: Option<string>)

  /** What the wrapped call did: returned a value or threw. */
  datatype CallOutcome<T> = Returned(data: T) | Threw(error: ExternalError)

  /** `{ok: true, data}` or `{ok: false, error, httpStatus}`. */
  datatype CallResult<T> = Succeeded(data: T) | Failed(error: ErrorBody, httpStatus: Option<int>)

  /**
   * `safeExternalCall`: the call's value on success; on failure the classified
   * code, title, message and status, with the raw message as details only in development.
   */
  function SafeExternalCall<T>(call: CallOutcome<T>, nodeEnv: Option<string>): (r: CallResult<T>)
    ensures call.Returned? <==> r.Succeeded?
    ensures call.Returned? ==> r.data == call.data
    ensures call.Threw? ==>
      var info := ClassifyError(call.error);
      && r.error.code == CodeName(info.code)
      && r.error.title == info.title
      && r.error.message == info.message
      && r.httpStatus == Some(info.httpStatus)
    ensures call.Threw? ==>
      (r.error.details.Some? <==> nodeEnv == Some("development") && call.error.message.Some?)
    ensures call.Threw? && r.error.details.Some? ==> r.error.details == call.error.message
  {
    match call
    case Returned(data) => Succeeded(data)
    case Threw(e) =>
      var info := ClassifyError(e);
      var details := if nodeEnv == Some("development") then e.message else None;
      Failed(ErrorBody(CodeName(info.code), info.title, info.message, details), Some(info.httpStatus))
  }

  /** The JSON body and status `sendErrorResponse` answers with. */
  datatype ErrorResponse = ErrorResponse(status: int, ok: bool, error: Option<ErrorBody>)

  /** `httpStatus || 500`, and `ok: false` always. */
  function SendErrorResponse(error: Option<ErrorBody>, httpStatus: Option<int>): (r: ErrorResponse)
    ensures !r.ok && r.error == error
    ensures httpStatus.Some? && httpStatus.value != 0 ==> r.status == httpStatus.value
    ensures httpStatus.None? || httpStatus == Some(0) ==> r.status == 500
  {
    var status := match httpStatus case Some(s) => if s != 0 then s else 500 case None => 500;
    ErrorResponse(status, false, error)
  }

  /** A failed call sent on answers with exactly the status of its classification. */
  lemma FailedCallStatus<T>(e: ExternalError, nodeEnv: Option<string>)
    ensures var r := SafeExternalCall<T>(Threw(e), nodeEnv);
      var sent := SendErrorResponse(Some(r.error), r.httpStatus);
      sent.status == ClassifyError(e).httpStatus && sent.status != 500 && !sent.ok
  {
  }
}

=== FILE: field_codec.dfy ===
/**
 * `parseJsonField` / `stringifyJsonField`, the helpers the job, user and
 * emprendimiento routes use to keep arrays and objects in NVARCHAR columns.
 */
module FieldCodec {
  import opened Wrappers
  import opened Json
  import opened JsValues
  import opened Db

  /** `parseJsonField`: falsy gives `null`, text is read as JSON (`null` when it does not parse), anything else is kept. */
  function ParseJsonField(x: JsValue): (r: JsValue)
    ensures Falsy(x) ==> r == Js(JNull)
    ensures !Falsy(x) && !(x.Js? && x.v.JStr?) ==> r == x
    ensures !Falsy(x) && x.Js? && x.v.JStr? ==> r.Js? && (r.v == JNull || Parse(x.v.s) == Some(r.v))
    ensures !Falsy(x) && x.Js? && x.v.JStr? && Parse(x.v.s).None? ==> r == Js(JNull)
  {
    if Falsy(x) then Js(JNull)
    else match x
      case Js(JStr(s)) => Js(Parse(s).GetOr(JNull))
      case _ => x
  }

  /** `typeof field === 'object'` for a value that is not `null`. */
  predicate IsObjectLike(x: JsValue) {
    x.Js? && (x.v.JArr? || x.v.JObj?)
  }

  /** `stringifyJsonField`: falsy gives `null`, arrays and objects become JSON text, anything else is kept. */
  function StringifyJsonField(x: JsValue): (r: JsValue)
    ensures Falsy(x) ==> r == Js(JNull)
    ensures IsObjectLike(x) ==> r == Js(JStr(Stringify(x.v)))
    ensures !Falsy(x) && !IsObjectLike(x) ==> r == x
  {
    if Falsy(x) then Js(JNull)
    else if IsObjectLike(x) then Js(JStr(Stringify(x.v)))
    else x
  }

  /** Every array or object comes back unchanged from being written and read: `parse(stringify(x)) == x`. */
  lemma ParseStringifyField(x: JsValue)
    requires IsObjectLike(x)
    ensures ParseJsonField(StringifyJsonField(x)) == x
  {
    StringifyStart(x.v);
    ParseStringify(x.v);
  }

  /** A value that is neither falsy nor text nor an array or object (a number, `true`) passes both helpers untouched. */
  lemma ScalarsPassThrough(x: JsValue)
    requires !Falsy(x) && !IsObjectLike(x) && !(x.Js? && x.v.JStr?)
    ensures ParseJsonField(StringifyJsonField(x)) == x
  {
  }

  /** The JavaScript value a text column holds when it is read. */
  function ColumnValue(c: Cell): JsValue {
    match c
    case Text(s) => Js(JStr(s))
    case _ => Js(JNull)
  }

  /** `parseJsonField(row.column) || fallback`, as the list and detail routes decode a JSON column. */
  function Decoded(c: Cell, fallback: Json): (r: Json)
    requires fallback.JArr? || fallback.JObj?
    ensures !Falsy(Js(r))
    ensures c.Text? && Parse(c.s).Some? && !Falsy(Js(Parse(c.s).value)) ==> r == Parse(c.s).value
    ensures c.Null? || (c.Text? && Parse(c.s).None?) ==> r == fallback
    ensures c.Text? && Parse(c.s).Some? && Falsy(Js(Parse(c.s).value)) ==> r == fallback
    ensures !c.Null? && !c.Text? ==> r == fallback
  {
    Or(ParseJsonField(ColumnValue(c)), Js(fallback)).v
  }

  /** `parseJsonField(row.column)` with no fallback, as the user routes decode theirs. */
  function DecodedOrNull(c: Cell): (r: Json)
    ensures c.Null? ==> r == JNull
    ensures !c.Text? ==> r == JNull
    ensures c.Text? && Parse(c.s).Some? && c.s != "" ==> r == Parse(c.s).value
    ensures c.Text? && (c.s == "" || Parse(c.s).None?) ==> r == JNull
  {
    ParseJsonField(ColumnValue(c)).v
  }

  /** An array or object stored through `stringifyJsonField` reads back as itself, with or without a fallback. */
  lemma StoredRoundTrip(x: Json, fallback: Json)
    requires x.JArr? || x.JObj?
    requires fallback.JArr? || fallback.JObj?
    ensures Decoded(Text(Stringify(x)), fallback) == x
    ensures DecodedOrNull(Text(Stringify(x))) == x
  {
    StringifyStart(x);
    ParseStringify(x);
  }
}

=== FILE: handlers.dfy ===
/**
 * The shapes every route file repeats: run a statement and answer 500 when
 * the database refuses it; look a row up and answer 404; check ownership and
 * answer 403; the partial-update PUT; the create with validation; the delete.
 * Each shape is a function from the data before the request to the answer and
 * the data after it, and a method on the store proved to do exactly that.
 */
module Handlers {
  import opened Wrappers
  import opened Json
  import opened JsValues
  import opened Db
  import opened Binding
  import opened DynamicUpdate
  import opened Http
  import opened Listing

  /** A handler's answer together with the data it leaves behind. */
  datatype Step = Step(res: Response, tables: map<TableName, Table>)

  /** The texts of a route: row not found, not the owner, success, and the 500 of its catch block. */
  datatype Texts = Texts(notFound: string, forbidden: string, done: string, failed: string)

  const NoFieldsText := "No hay campos para actualizar"

  /** An error answer that leaves the data as it was. */
  function Refuse(before: map<TableName, Table>, status: int, text: string): (r: Step)
    ensures r.tables == before && r.res.status == status && r.res.reply == Error(text)
  {
    Step(Response(status, Error(text)), before)
  }

  /** One statement: the new data and `success` if every constraint holds, otherwise the route's 500 and no change. */
  function Run(before: map<TableName, Table>, next: map<TableName, Table>, success: Response, failed: string): (r: Step)
    ensures Consistent(before) ==> Consistent(r.tables)
    ensures r.tables == next || r.tables == before
    ensures r.res == success || r.res == Response(500, Error(failed))
  {
    if Consistent(next) then Step(success, next) else Refuse(before, 500, failed)
  }

  /** `value || null` passed as NVarChar: a falsy value is stored as NULL. */
  function OrNull(body: Body, key: string): (c: Cell)
    ensures Falsy(Lookup(body, key)) ==> c == Null
    ensures !Falsy(Lookup(body, key)) ==> c == AsText(Lookup(body, key)) && c.Text?
  {
    AsText(Or(Lookup(body, key), Js(JNull)))
  }

  // ---------------------------------------------------------------- GET

  /** The rows listed, each shaped by the route's `map`. */
  function ViewsOf(table: Table, ids: seq<string>, view: Row -> View): (vs: seq<View>)
    requires forall i :: 0 <= i < |ids| ==> ids[i] in table
    ensures |vs| == |ids|
    ensures forall i :: 0 <= i < |ids| ==> vs[i] == view(table[ids[i]])
  {
    if ids == [] then [] else [view(table[ids[0]])] + ViewsOf(table, ids[1..], view)
  }

  /** The rows listed, as read. */
  function RowsOf(table: Table, ids: seq<string>): (rows: seq<Row>)
    requires forall i :: 0 <= i < |ids| ==> ids[i] in table
    ensures |rows| == |ids|
    ensures forall i :: 0 <= i < |ids| ==> rows[i] == table[ids[i]]
  {
    if ids == [] then [] else [table[ids[0]]] + RowsOf(table, ids[1..])
  }

  /** The answer to a list query: every matching row once, in an order the query allows, each as `view` shows it. */
  ghost predicate Listed(table: Table, filters: seq<Filter>, order: Order, view: Row -> View, res: Response) {
    exists ids :: Lists(table, filters, order, ids) && res == Response(200, Records(ViewsOf(table, ids, view)))
  }

  /** A list route: the query's rows in its order, each shaped by `view`. */
  method List(table: Table, filters: seq<Filter>, order: Order, view: Row -> View) returns (res: Response)
    ensures Listed(table, filters, order, view, res)
  {
    var ids := Select(table, filters, order);
    res := Response(200, Records(ViewsOf(table, ids, view)));
  }

  // ---------------------------------------------------------------- PUT

  /**
   * A PUT once the row may be changed: "no fields" when the body defines none
   * of the listed fields, otherwise one UPDATE writing them and `updatedAt`.
   */
  function UpdateStep(before: map<TableName, Table>, t: TableName, id: string, fields: seq<FieldSpec>,
                      body: Body, rt: Runtime, now: int, texts: Texts): (r: Step)
    ensures r.res.status == 400 <==> Present(fields, body) == {}
    ensures r.res.status == 200 <==> (Present(fields, body) != {} && Patch(rt, fields, body, now).Some?
      && Consistent(Updated(before, t, id, Patch(rt, fields, body, now).value)))
    ensures r.res.status == 200 ==> r.tables == Updated(before, t, id, Patch(rt, fields, body, now).value)
    ensures r.res.status != 200 ==> r.tables == before
    ensures Consistent(before) ==> Consistent(r.tables)
  {
    if Present(fields, body) == {} then Refuse(before, 400, NoFieldsText)
    else match Patch(rt, fields, body, now)
      case None => Refuse(before, 500, texts.failed)
      case Some(p) => Run(before, Updated(before, t, id, p), Response(200, Message(texts.done)), texts.failed)
  }

  /** PUT on a row with an owner: 404 when it is missing, then 403 when `owner` is not the caller, then the update. */
  function OwnedUpdate(before: map<TableName, Table>, t: TableName, id: string, owner: string, userId: string,
                       fields: seq<FieldSpec>, body: Body, rt: Runtime, now: int, texts: Texts): (r: Step)
    ensures r.res.status == 404 <==> id !in Get(before, t)
    ensures r.res.status == 403 <==> id in Get(before, t) && Field(Get(before, t)[id], owner) != Text(userId)
    ensures r.res.status == 400 <==>
      (id in Get(before, t) && Field(Get(before, t)[id], owner) == Text(userId) && Present(fields, body) == {})
    ensures r.res.status != 200 ==> r.tables == before
    ensures r.res.status == 200 ==> r == UpdateStep(before, t, id, fields, body, rt, now, texts)
    ensures Consistent(before) ==> Consistent(r.tables)
  {
    var table := Get(before, t);
    if id !in table then Refuse(before, 404, texts.notFound)
    else if Field(table[id], owner) != Text(userId) then Refuse(before, 403, texts.forbidden)
    else UpdateStep(before, t, id, fields, body, rt, now, texts)
  }

  /** PUT on a row anyone may change: 404 when it is missing, then the update. */
  function ExistingUpdate(before: map<TableName, Table>, t: TableName, id: string, fields: seq<FieldSpec>,
                          body: Body, rt: Runtime, now: int, texts: Texts): (r: Step)
    ensures r.res.status == 404 <==> id !in Get(before, t)
    ensures r.res.status == 400 <==> id in Get(before, t) && Present(fields, body) == {}
    ensures r.res.status != 200 ==> r.tables == before
    ensures r.res.status == 200 ==> r == UpdateStep(before, t, id, fields, body, rt, now, texts)
    ensures Consistent(before) ==> Consistent(r.tables)
  {
    if id !in Get(before, t) then Refuse(before, 404, texts.notFound)
    else UpdateStep(before, t, id, fields, body, rt, now, texts)
  }

  /**
   * A PUT that sends `null` for a NOT NULL text column breaks the schema, so
   * the UPDATE fails: the route answers 500 and nothing changes.
   */
  lemma NullIntoRequired(before: map<TableName, Table>, t: TableName, id: string, fields: seq<FieldSpec>,
                         body: Body, rt: Runtime, now: int, texts: Texts, c: string)
    requires WellFormed(fields) && id in Get(before, t) && Patch(rt, fields, body, now).Some?
    requires FieldSpec(c, TextField) in fields && c in body && body[c] == JNull
    requires Req(c) in Columns(t)
    ensures ExistingUpdate(before, t, id, fields, body, rt, now, texts) == Refuse(before, 500, texts.failed)
  {
    var p := Patch(rt, fields, body, now).value;
    PatchExact(rt, fields, body, now);
    assert c in Present(fields, body);
    assert p[c] == Null;
    RequiredNullBreaks(before, t, id, p, c);
  }

  /** An UPDATE that writes NULL into a NOT NULL column leaves the data inconsistent. */
  lemma RequiredNullBreaks(before: map<TableName, Table>, t: TableName, id: string, assigns: Row, c: string)
    requires id in Get(before, t) && c in assigns && assigns[c] == Null && Req(c) in Columns(t)
    ensures !Consistent(Updated(before, t, id, assigns))
  {
    var after := Updated(before, t, id, assigns);
    UpdatedTables(before, t, id, assigns);
    assert Get(after, t)[id][c] == Null;
    assert !RowOk(t, id, Get(after, t)[id]);
    assert !TableOk(t, Get(after, t));
  }

  /** A successful owned PUT leaves every row's owner as it was, so the row still belongs to the caller. */
  lemma OwnerKept(before: map<TableName, Table>, t: TableName, id: string, owner: string, userId: string,
                  fields: seq<FieldSpec>, body: Body, rt: Runtime, now: int, texts: Texts)
    requires WellFormed(fields) && owner !in ColumnsOf(fields) && owner != "updatedAt"
    requires OwnedUpdate(before, t, id, owner, userId, fields, body, rt, now, texts).res.status == 200
    ensures var after := OwnedUpdate(before, t, id, owner, userId, fields, body, rt, now, texts).tables;
      && Get(after, t).Keys == Get(before, t).Keys
      && (forall k :: k in Get(before, t) ==> Field(Get(after, t)[k], owner) == Field(Get(before, t)[k], owner))
      && Field(Get(after, t)[id], owner) == Text(userId)
  {
    UpdateStepKeeps(before, t, id, fields, body, rt, now, texts);
  }

  /** A successful update changes the one row it names, and in that row only listed columns and `updatedAt`. */
  lemma UpdateStepKeeps(before: map<TableName, Table>, t: TableName, id: string, fields: seq<FieldSpec>,
                        body: Body, rt: Runtime, now: int, texts: Texts)
    requires WellFormed(fields)
    requires UpdateStep(before, t, id, fields, body, rt, now, texts).res.status == 200
    ensures var after := UpdateStep(before, t, id, fields, body, rt, now, texts).tables;
      && Get(after, t).Keys == Get(before, t).Keys
      && (forall k :: k in Get(before, t) && k != id ==> Get(after, t)[k] == Get(before, t)[k])
      && (forall u :: u != t ==> Get(after, u) == Get(before, u))
      && (forall c :: c !in ColumnsOf(fields) && c != "updatedAt" && id in Get(before, t) ==>
            Field(Get(after, t)[id], c) == Field(Get(before, t)[id], c))
  {
    if id in Get(before, t) {
      UpdatedWritesExactly(before, t, id, fields, body, rt, now);
      PresentListed(fields, body);
    }
  }

  /** The PUT handler once the row is known to be editable. */
  method PutRow(db: Store, t: TableName, id: string, fields: seq<FieldSpec>, body: Body, rt: Runtime, now: int, texts: Texts)
    returns (res: Response)
    modifies db
    ensures Step(res, db.tables) == UpdateStep(old(db.tables), t, id, fields, body, rt, now, texts)
  {
    var outcome := PartialUpdate(db, t, id, fields, body, rt, now);
    match outcome
    case NoFields => res := Response(400, Error(NoFieldsText));
    case Rejected => res := Response(500, Error(texts.failed));
    case Applied => res := Response(200, Message(texts.done));
  }

  method PutOwned(db: Store, t: TableName, id: string, owner: string, userId: string, fields: seq<FieldSpec>,
                  body: Body, rt: Runtime, now: int, texts: Texts) returns (res: Response)
    modifies db
    ensures Step(res, db.tables) == OwnedUpdate(old(db.tables), t, id, owner, userId, fields, body, rt, now, texts)
  {
    var table := db.Rows(t);
    if id !in table {
      return Response(404, Error(texts.notFound));
    }
    if Field(table[id], owner) != Text(userId) {
      return Response(403, Error(texts.forbidden));
    }
    res := PutRow(db, t, id, fields, body, rt, now, texts);
  }

  method PutExisting(db: Store, t: TableName, id: string, fields: seq<FieldSpec>, body: Body, rt: Runtime, now: int, texts: Texts)
    returns (res: Response)
    modifies db
    ensures Step(res, db.tables) == ExistingUpdate(old(db.tables), t, id, fields, body, rt, now, texts)
  {
    if id !in db.Rows(t) {
      return Response(404, Error(texts.notFound));
    }
    res := PutRow(db, t, id, fields, body, rt, now, texts);
  }

  // ---------------------------------------------------------------- DELETE

  /** `DELETE FROM t WHERE id = @id`, which succeeds whether or not the row exists. */
  function DeleteStep(before: map<TableName, Table>, t: TableName, id: string, texts: Texts): (r: Step)
    ensures Consistent(before) ==> Consistent(r.tables)
    ensures r.res.status == 200 <==> Consistent(Deleted(before, t, id))
    ensures r.res.status == 200 ==> r.tables == Deleted(before, t, id)
    ensures r.res.status != 200 ==> r.tables == before
  {
    Run(before, Deleted(before, t, id), Response(200, Message(texts.done)), texts.failed)
  }

  /** DELETE of a row with an owner: 404 when it is missing, 403 when `owner` is not the caller, then the delete. */
  function OwnedDelete(before: map<TableName, Table>, t: TableName, id: string, owner: string, userId: string, texts: Texts): (r: Step)
    ensures r.res.status == 404 <==> id !in Get(before, t)
    ensures r.res.status == 403 <==> id in Get(before, t) && Field(Get(before, t)[id], owner) != Text(userId)
    ensures r.res.status != 200 ==> r.tables == before
    ensures r.res.status == 200 ==> r.tables == Deleted(before, t, id)
    ensures Consistent(before) ==> Consistent(r.tables)
  {
    var table := Get(before, t);
    if id !in table then Refuse(before, 404, texts.notFound)
    else if Field(table[id], owner) != Text(userId) then Refuse(before, 403, texts.forbidden)
    else DeleteStep(before, t, id, texts)
  }

  /** Deleting a row no foreign key points at always succeeds and removes exactly that row. */
  lemma DeleteSucceeds(before: map<TableName, Table>, t: TableName, id: string, texts: Texts)
    requires Consistent(before) && t != Users && t != Employees
    ensures var r := DeleteStep(before, t, id, texts);
      && r.res == Response(200, Message(texts.done))
      && Get(r.tables, t) == Get(before, t) - {id}
      && forall u :: u != t ==> Get(r.tables, u) == Get(before, u)
  {
    UnreferencedDeleteSucceeds(before, t, id);
  }

  method Remove(db: Store, t: TableName, id: string, texts: Texts) returns (res: Response)
    modifies db
    ensures Step(res, db.tables) == DeleteStep(old(db.tables), t, id, texts)
  {
    var ok := db.Delete(t, id);
    res := if ok then Response(200, Message(texts.done)) else Response(500, Error(texts.failed));
  }

  method RemoveOwned(db: Store, t: TableName, id: string, owner: string, userId: string, texts: Texts) returns (res: Response)
    modifies db
    ensures Step(res, db.tables) == OwnedDelete(old(db.tables), t, id, owner, userId, texts)
  {
    var table := db.Rows(t);
    if id !in table {
      return Response(404, Error(texts.notFound));
    }
    if Field(table[id], owner) != Text(userId) {
      return Response(403, Error(texts.forbidden));
    }
    res := Remove(db, t, id, texts);
  }

  // ---------------------------------------------------------------- POST

  /**
   * The INSERT of a create under the fresh key: `None` is a parameter the
   * driver rejects; a taken key or a violated constraint is the route's 500.
   */
  function InsertStep(before: map<TableName, Table>, t: TableName, id: string, row: Option<Row>, now: int,
                      created: string, failed: string): (r: Step)
    ensures r.res.status == 201 <==> row.Some? && id !in Get(before, t) && Consistent(Inserted(before, t, id, row.value, now))
    ensures r.res.status == 201 ==> r.res.reply == Created(created, id) && r.tables == Inserted(before, t, id, row.value, now)
    ensures r.res.status != 201 ==> r == Refuse(before, 500, failed)
    ensures Consistent(before) ==> Consistent(r.tables)
  {
    if row.None? || id in Get(before, t) then Refuse(before, 500, failed)
    else Run(before, Inserted(before, t, id, row.value, now), Response(201, Created(created, id)), failed)
  }

  /** A create: 400 with the validation errors, otherwise the INSERT. */
  function CreateStep(before: map<TableName, Table>, rt: Runtime, checks: seq<Check>, body: Body,
                      t: TableName, id: string, row: Option<Row>, now: int, created: string, failed: string): (r: Step)
    ensures r.res.status == 400 <==> Validate(rt, checks, body) != []
    ensures r.res.status == 400 ==> r.res.reply == Invalid(Validate(rt, checks, body)) && r.tables == before
    ensures r.res.status != 400 ==> r == InsertStep(before, t, id, row, now, created, failed)
    ensures Consistent(before) ==> Consistent(r.tables)
  {
    var errors := Validate(rt, checks, body);
    if errors != [] then Step(Rejection(errors), before)
    else InsertStep(before, t, id, row, now, created, failed)
  }

  method InsertRow(db: Store, t: TableName, id: string, row: Option<Row>, now: int, created: string, failed: string)
    returns (res: Response)
    modifies db
    ensures Step(res, db.tables) == InsertStep(old(db.tables), t, id, row, now, created, failed)
  {
    if row.None? {
      return Response(500, Error(failed));
    }
    ghost var before := db.tables;
    var ok := db.Insert(t, id, row.value, now);
    if ok {
      res := Response(201, Created(created, id));
      assert Step(res, db.tables) == Run(before, Inserted(before, t, id, row.value, now), res, failed);
    } else {
      res := Response(500, Error(failed));
    }
  }

  method Create(db: Store, rt: Runtime, checks: seq<Check>, body: Body, t: TableName, id: string, row: Option<Row>,
                now: int, created: string, failed: string) returns (res: Response)
    modifies db
    ensures Step(res, db.tables) == CreateStep(old(db.tables), rt, checks, body, t, id, row, now, created, failed)
  {
    var errors := Validate(rt, checks, body);
    if errors != [] {
      return Rejection(errors);
    }
    res := InsertRow(db, t, id, row, now, created, failed);
  }
}

=== FILE: http.dfy ===
/**
 * What the route handlers receive besides the body and send back: the token
 * claims, the response status and JSON body, the views of stored rows, and
 * the request validators the routes declare.
 */
module Http {
  import opened Wrappers
  import opened Json
  import opened JsValues
  import opened Db
  import opened Binding

  /** The payload of a signed token, `{userId, email, role}`, as `req.user`. */
  datatype Claims = Claims(userId: string, email: Prop, role: Prop)

  /**
   * A value in a response object or token payload: a column as read, a JSON
   * value, a list of rows, or `undefined`, which serialising leaves out.
   */
  datatype Prop = Stored(c: Cell) | Value(j: Json) | Nested(rows: seq<Row>) | Omitted

  /** A request value placed in a response or a token. */
  function Sent(v: JsValue): (p: Prop)
    ensures v.Js? ==> p == Value(v.v)
    ensures v.Undefined? ==> p == Omitted
  {
    match v
    case Undefined => Omitted
    case Js(j) => Value(j)
  }

  /** A row or object as sent to the client. */
  type View = map<string, Prop>

  /** One entry of `errors.array()`: the field, the message the route set for it, and the value it had. */
  datatype FieldError = FieldError(path: string, msg: string, value: JsValue)

  /** The JSON body of a response. */
  datatype Reply =
    | Message(text: string)
    | Created(text: string, id: string)
    | Error(text: string)
    | Invalid(errors: seq<FieldError>)
    | Record(view: View)
    | Records(views: seq<View>)
    | Rated(text: string, avgRating: real)
    | Session(text: string, token: Claims, user: View)

  datatype Response = Response(status: int, reply: Reply)

  /** A row as read by `SELECT *`: every column as stored. */
  function RowView(row: Row): (v: View)
    ensures v.Keys == row.Keys
    ensures forall k :: k in row ==> v[k] == Stored(row[k])
  {
    map k | k in row :: Stored(row[k])
  }

  /** `delete user.password` */
  function WithoutPassword(v: View): (r: View)
    ensures "password" !in r
    ensures forall k :: k in v && k != "password" ==> k in r && r[k] == v[k]
    ensures r.Keys == v.Keys - {"password"}
  {
    v - {"password"}
  }

  // ---------------------------------------------------------------- request validation

  /** The validators the routes chain on body fields. */
  datatype Rule =
    | NotEmpty
    | IsIn(options: seq<string>)
    | MinLength(n: nat)
    | IsFloat(min: Option<real>, max: Option<real>)
    | IsEmail
    | IsIso8601

  /** `body(path).<rule>().withMessage(msg)` */
  datatype Check = Check(path: string, rule: Rule, msg: string)

  /**
   * The values a validator runs on: each element of an array, otherwise the
   * value itself. An empty array gives nothing to check.
   */
  function Checked(v: JsValue): (xs: seq<JsValue>)
    ensures !(v.Js? && v.v.JArr?) ==> xs == [v]
    ensures v.Js? && v.v.JArr? ==> |xs| == |v.v.items| && forall i :: 0 <= i < |xs| ==> xs[i] == Js(v.v.items[i])
  {
    match v
    case Js(JArr(items)) => seq(|items|, i requires 0 <= i < |items| => Js(items[i]))
    case _ => [v]
  }

  /** Whether the text of one checked value passes a rule. */
  predicate TextPasses(rt: Runtime, rule: Rule, text: string) {
    match rule
    case NotEmpty => text != ""
    case IsIn(options) => text in options
    case MinLength(n) => |text| >= n
    case IsFloat(min, max) => IsFloatText(text, min, max)
    case IsEmail => rt.isEmail(text)
    case IsIso8601 => rt.isIso8601(text)
  }

  /** `p` holds of the text of every value a validator runs on. */
  predicate Every(v: JsValue, p: string -> bool) {
    forall x :: x in Checked(v) ==> p(ValidatorText(x))
  }

  /** Whether a value passes a rule: the text of every value checked does, `undefined` and `null` being empty. */
  predicate Passes(rt: Runtime, rule: Rule, v: JsValue) {
    forall x :: x in Checked(v) ==> TextPasses(rt, rule, ValidatorText(x))
  }

  /** The errors one check reports: one per checked value whose text fails, carrying that value. */
  function CheckErrors(rt: Runtime, c: Check, xs: seq<JsValue>): (errors: seq<FieldError>)
    ensures |errors| <= |xs|
    ensures errors == [] <==> forall x :: x in xs ==> TextPasses(rt, c.rule, ValidatorText(x))
    ensures forall e :: e in errors ==>
      e.path == c.path && e.msg == c.msg && e.value in xs && !TextPasses(rt, c.rule, ValidatorText(e.value))
  {
    if xs == [] then []
    else
      var rest := CheckErrors(rt, c, xs[1..]);
      assert forall x :: x in xs ==> x == xs[0] || x in xs[1..];
      if TextPasses(rt, c.rule, ValidatorText(xs[0])) then rest else [FieldError(c.path, c.msg, xs[0])] + rest
  }

  /** `validationResult(req).array()`: the errors of each check, in the order the checks are declared. */
  function Validate(rt: Runtime, checks: seq<Check>, body: Body): (errors: seq<FieldError>)
    ensures errors == [] <==> forall c :: c in checks ==> Passes(rt, c.rule, Lookup(body, c.path))
    ensures forall e :: e in errors ==>
      exists c :: (c in checks && c.path == e.path && c.msg == e.msg
        && e.value in Checked(Lookup(body, c.path)) && !TextPasses(rt, c.rule, ValidatorText(e.value)))
  {
    if checks == [] then []
    else
      var c := checks[0];
      var rest := Validate(rt, checks[1..], body);
      assert forall d :: d in checks[1..] ==> d in checks;
      assert forall d :: d in checks ==> d == c || d in checks[1..];
      CheckErrors(rt, c, Checked(Lookup(body, c.path))) + rest
  }

  /** From the `k`-th check on, there are no errors exactly when that check passes and none follow it. */
  lemma ValidateFrom(rt: Runtime, checks: seq<Check>, body: Body, k: nat)
    requires k < |checks|
    ensures Validate(rt, checks[k..], body) == [] <==>
      Passes(rt, checks[k].rule, Lookup(body, checks[k].path)) && Validate(rt, checks[k + 1..], body) == []
  {
    assert checks[k..][1..] == checks[k + 1..];
  }

  /** The check passes on the value at its path. */
  predicate CheckPasses(rt: Runtime, c: Check, body: Body) {
    Passes(rt, c.rule, Lookup(body, c.path))
  }

  /** A list of checks reports no errors exactly when each check passes, here for lists of up to six checks. */
  lemma ValidateEach(rt: Runtime, checks: seq<Check>, body: Body)
    requires 1 <= |checks| <= 6
    ensures Validate(rt, checks, body) == [] <==>
      && CheckPasses(rt, checks[0], body)
      && (|checks| > 1 ==> CheckPasses(rt, checks[1], body))
      && (|checks| > 2 ==> CheckPasses(rt, checks[2], body))
      && (|checks| > 3 ==> CheckPasses(rt, checks[3], body))
      && (|checks| > 4 ==> CheckPasses(rt, checks[4], body))
      && (|checks| > 5 ==> CheckPasses(rt, checks[5], body))
  {
    assert checks[0..] == checks;
    var k := 0;
    while k < |checks|
      invariant 0 <= k <= |checks|
      invariant (Validate(rt, checks, body) == []) <==>
        (forall i :: 0 <= i < k ==> CheckPasses(rt, checks[i], body)) && Validate(rt, checks[k..], body) == []
    {
      ValidateFrom(rt, checks, body, k);
      k := k + 1;
    }
    assert checks[k..] == [];
  }

  /** The 400 answer to a request that fails validation. */
  function Rejection(errors: seq<FieldError>): Response {
    Response(400, Invalid(errors))
  }

  /** What each rule but `isFloat` asks of the texts checked. */
  lemma PassesText(rt: Runtime, v: JsValue)
    ensures Passes(rt, NotEmpty, v) <==> Every(v, t => t != "")
    ensures Passes(rt, IsEmail, v) <==> Every(v, rt.isEmail)
    ensures Passes(rt, IsIso8601, v) <==> Every(v, rt.isIso8601)
  {
  }

  /** `isLength({min: n})` asks every text checked for at least `n` characters. */
  lemma PassesLength(rt: Runtime, v: JsValue, n: nat)
    ensures Passes(rt, MinLength(n), v) <==> Every(v, t => |t| >= n)
  {
  }

  /** `isIn(options)` asks every text checked to be one of the options. */
  lemma PassesIn(rt: Runtime, v: JsValue, options: seq<string>)
    ensures Passes(rt, IsIn(options), v) <==> Every(v, t => t in options)
  {
  }

  /** A value that is not an array is checked once, through its own text. */
  lemma EveryScalar(v: JsValue, p: string -> bool)
    requires !(v.Js? && v.v.JArr?)
    ensures Every(v, p) <==> p(ValidatorText(v))
  {
  }

  /** An empty array gives no value to check, so it passes every rule, `notEmpty` included. */
  lemma EmptyArrayPasses(rt: Runtime, rule: Rule)
    ensures Passes(rt, rule, Js(JArr([])))
    ensures !Passes(rt, NotEmpty, Js(JStr("")))
  {
    var empty := Js(JStr(""));
    assert empty in Checked(empty) && !TextPasses(rt, NotEmpty, ValidatorText(empty));
  }

  /** `isFloat({min})`: every text checked is of the float pattern and reads as a number of at least `min`. */
  lemma AtLeast(rt: Runtime, v: JsValue, min: real)
    ensures Passes(rt, IsFloat(Some(min), None), v) <==>
      Every(v, t => FloatSyntax(t) && ParseFloat(t).Some? && ParseFloat(t).value >= min)
  {
  }

  /**
   * A value that passes `isFloat({min, max})` is not missing, and `parseFloat`
   * of its text is a number within the bounds, unless it is the empty array,
   * which passes with nothing checked and reads as NaN.
   */
  lemma FloatCheck(rt: Runtime, v: JsValue, min: real, max: real)
    requires Passes(rt, IsFloat(Some(min), Some(max)), v)
    ensures v.Js? && v.v != JNull
    ensures v.v == JArr([]) || var x := ParseFloat(JsString(v.v)); x.Some? && min <= x.value <= max
  {
    if v.Js? && v.v.JArr? {
      if v.v.items != [] {
        assert Js(v.v.items[0]) in Checked(v);
        FirstElementFloat(v.v.items);
      }
    } else {
      assert v in Checked(v);
    }
  }
}

=== FILE: jobs.dfy ===
/**
 * `/api/jobs`: job posts, which belong to the employer who created them, and
 * job opportunities, which any signed-in user may change.
 */
module Jobs {
  import opened Wrappers
  import opened Json
  import opened JsValues
  import opened Db
  import opened Binding
  import opened FieldCodec
  import opened DynamicUpdate
  import opened Http
  import opened Listing
  import opened Handlers

  // ================================================================ job posts

  /** A post as sent: every column, with `requirements` and `obligations` decoded and defaulting to `[]`. */
  function PostView(row: Row): (v: View)
    ensures v.Keys == row.Keys + {"requirements", "obligations"}
    ensures forall k :: k in row && k != "requirements" && k != "obligations" ==> v[k] == Stored(row[k])
    ensures v["requirements"].Value? && !Falsy(Js(v["requirements"].j))
    ensures v["obligations"].Value? && !Falsy(Js(v["obligations"].j))
  {
    RowView(row)
      ["requirements" := Value(Decoded(Field(row, "requirements"), JArr([])))]
      ["obligations" := Value(Decoded(Field(row, "obligations"), JArr([])))]
  }

  function PostFilters(query: Query): seq<Filter> {
    EqualsIfGiven(query, "city", "city") + EqualsIfGiven(query, "type", "type")
      + EqualsIfGiven(query, "modality", "modality") + EqualsIfGiven(query, "employerId", "employerId")
  }

  /** GET /posts: the posts matching every filter given, newest first. */
  method ListPosts(db: Store, query: Query) returns (res: Response)
    ensures Listed(db.Rows(JobPosts), PostFilters(query), Descending("createdAt"), PostView, res)
  {
    res := List(db.Rows(JobPosts), PostFilters(query), Descending("createdAt"), PostView);
  }

  /** GET /posts/:id */
  method GetPost(db: Store, id: string) returns (res: Response)
    ensures id !in db.Rows(JobPosts) ==> res == Response(404, Error("Publicación no encontrada"))
    ensures id in db.Rows(JobPosts) ==> res == Response(200, Record(PostView(db.Rows(JobPosts)[id])))
  {
    var table := db.Rows(JobPosts);
    if id !in table {
      return Response(404, Error("Publicación no encontrada"));
    }
    res := Response(200, Record(PostView(table[id])));
  }

  const PostChecks := [
    Check("title", NotEmpty, "El título es requerido"),
    Check("description", NotEmpty, "La descripción es requerida"),
    Check("city", NotEmpty, "La ciudad es requerida"),
    Check("type", IsIn(["fullTime", "partTime"]), "Tipo inválido"),
    Check("modality", IsIn(["onsite", "remote", "hybrid"]), "Modalidad inválida")
  ]

  /** A post passes validation exactly when title, description and city are non-empty and type and modality are allowed values. */
  lemma PostValidation(rt: Runtime, body: Body)
    ensures Validate(rt, PostChecks, body) == [] <==>
      (&& Every(Lookup(body, "title"), t => t != "")
       && Every(Lookup(body, "description"), t => t != "")
       && Every(Lookup(body, "city"), t => t != "")
       && Every(Lookup(body, "type"), t => t in ["fullTime", "partTime"])
       && Every(Lookup(body, "modality"), t => t in ["onsite", "remote", "hybrid"]))
  {
    ValidateEach(rt, PostChecks, body);
    PassesText(rt, Lookup(body, "title"));
    PassesText(rt, Lookup(body, "description"));
    PassesText(rt, Lookup(body, "city"));
    PassesIn(rt, Lookup(body, "type"), ["fullTime", "partTime"]);
    PassesIn(rt, Lookup(body, "modality"), ["onsite", "remote", "hybrid"]);
  }

  /** The INSERT's values: the owner is the caller, and the two lists default to `[]`. */
  function PostRow(user: Claims, body: Body): (row: Row)
    ensures row.Keys == {"title", "description", "city", "employerId", "type", "modality", "requirements", "obligations"}
    ensures row["employerId"] == Text(user.userId)
  {
    map[
      "title" := AsText(Lookup(body, "title")),
      "description" := AsText(Lookup(body, "description")),
      "city" := AsText(Lookup(body, "city")),
      "employerId" := Text(user.userId),
      "type" := AsText(Lookup(body, "type")),
      "modality" := AsText(Lookup(body, "modality")),
      "requirements" := AsText(StringifyJsonField(Or(Lookup(body, "requirements"), Js(JArr([]))))),
      "obligations" := AsText(StringifyJsonField(Or(Lookup(body, "obligations"), Js(JArr([])))))
    ]
  }

  function CreatePostStep(before: map<TableName, Table>, user: Claims, id: string, body: Body, rt: Runtime, now: int): Step {
    CreateStep(before, rt, PostChecks, body, JobPosts, id, Some(PostRow(user, body)), now,
      "Publicación creada exitosamente", "Error al crear publicación")
  }

  /** POST /posts */
  method CreatePost(db: Store, user: Claims, id: string, body: Body, rt: Runtime, now: int) returns (res: Response)
    modifies db
    ensures Step(res, db.tables) == CreatePostStep(old(db.tables), user, id, body, rt, now)
  {
    res := Create(db, rt, PostChecks, body, JobPosts, id, Some(PostRow(user, body)), now,
      "Publicación creada exitosamente", "Error al crear publicación");
  }

  /**
   * A created post belongs to the caller whatever the body says, the caller
   * is a stored user, and the lists sent (or `[]`) read back unchanged.
   */
  lemma CreatedPostBelongsToCaller(before: map<TableName, Table>, user: Claims, id: string, body: Body, rt: Runtime, now: int)
    requires CreatePostStep(before, user, id, body, rt, now).res.status == 201
    ensures var after := CreatePostStep(before, user, id, body, rt, now).tables;
      && id in Get(after, JobPosts)
      && Field(Get(after, JobPosts)[id], "employerId") == Text(user.userId)
      && user.userId in Get(after, Users)
  {
    var after := CreatePostStep(before, user, id, body, rt, now).tables;
    InsertedRow(before, JobPosts, id, PostRow(user, body), now);
    assert Refers(Field(Get(after, JobPosts)[id], "employerId"), Get(after, Users));
  }

  /** The requirements and obligations a create stores read back as sent, or as `[]` when none are sent. */
  lemma PostListsReadBack(user: Claims, body: Body, key: string)
    requires key == "requirements" || key == "obligations"
    requires Falsy(Lookup(body, key)) || IsObjectLike(Lookup(body, key))
    ensures Decoded(PostRow(user, body)[key], JArr([])) == (if key in body && !Falsy(Js(body[key])) then body[key] else JArr([]))
  {
    DefaultedJsonReadsBack(Lookup(body, key), JArr([]));
  }

  /** The fields PUT /posts may change; `employerId` is not one of them. */
  const PostFields := Whitelist(
    ["title", "description", "city", "type", "modality", "requirements", "obligations"],
    c => if c == "requirements" || c == "obligations" then JsonField else TextField)

  lemma PostFieldsWellFormed()
    ensures WellFormed(PostFields) && "employerId" !in ColumnsOf(PostFields)
  {
    assert DistinctNames(["title", "description", "city", "type", "modality", "requirements", "obligations"]);
  }

  const PostEditTexts := Texts("Publicación no encontrada", "No tienes permiso para editar esta publicación",
    "Publicación actualizada exitosamente", "Error al actualizar publicación")

  /** PUT /posts/:id: 404, then 403 for anyone but the employer, then 400 with no fields, then the update. */
  method UpdatePost(db: Store, user: Claims, id: string, body: Body, rt: Runtime, now: int) returns (res: Response)
    modifies db
    ensures Step(res, db.tables) == OwnedUpdate(old(db.tables), JobPosts, id, "employerId", user.userId, PostFields, body, rt, now, PostEditTexts)
  {
    res := PutOwned(db, JobPosts, id, "employerId", user.userId, PostFields, body, rt, now, PostEditTexts);
  }

  /** An edit never moves a post to another employer. */
  lemma PostEditKeepsEmployer(before: map<TableName, Table>, user: Claims, id: string, body: Body, rt: Runtime, now: int)
    requires OwnedUpdate(before, JobPosts, id, "employerId", user.userId, PostFields, body, rt, now, PostEditTexts).res.status == 200
    ensures var after := OwnedUpdate(before, JobPosts, id, "employerId", user.userId, PostFields, body, rt, now, PostEditTexts).tables;
      && Get(after, JobPosts).Keys == Get(before, JobPosts).Keys
      && (forall k :: k in Get(before, JobPosts) ==>
            Field(Get(after, JobPosts)[k], "employerId") == Field(Get(before, JobPosts)[k], "employerId"))
  {
    PostFieldsWellFormed();
    OwnerKept(before, JobPosts, id, "employerId", user.userId, PostFields, body, rt, now, PostEditTexts);
  }

  const PostDeleteTexts := Texts("Publicación no encontrada", "No tienes permiso para eliminar esta publicación",
    "Publicación eliminada exitosamente", "Error al eliminar publicación")

  /** DELETE /posts/:id: 404, then 403 for anyone but the employer, then the delete. */
  method DeletePost(db: Store, user: Claims, id: string) returns (res: Response)
    modifies db
    ensures Step(res, db.tables) == OwnedDelete(old(db.tables), JobPosts, id, "employerId", user.userId, PostDeleteTexts)
  {
    res := RemoveOwned(db, JobPosts, id, "employerId", user.userId, PostDeleteTexts);
  }

  /** The employer's delete of an existing post always succeeds and removes that post only. */
  lemma OwnerDeletesPost(before: map<TableName, Table>, user: Claims, id: string)
    requires Consistent(before)
    requires id in Get(before, JobPosts) && Field(Get(before, JobPosts)[id], "employerId") == Text(user.userId)
    ensures var r := OwnedDelete(before, JobPosts, id, "employerId", user.userId, PostDeleteTexts);
      && r.res == Response(200, Message("Publicación eliminada exitosamente"))
      && Get(r.tables, JobPosts) == Get(before, JobPosts) - {id}
      && forall u :: u != JobPosts ==> Get(r.tables, u) == Get(before, u)
  {
    DeleteSucceeds(before, JobPosts, id, PostDeleteTexts);
  }

  // ================================================================ job opportunities

  /** An opportunity as sent: every column, with `additionalData` decoded and defaulting to `{}`. */
  function OpportunityView(row: Row): (v: View)
    ensures v.Keys == row.Keys + {"additionalData"}
    ensures forall k :: k in row && k != "additionalData" ==> v[k] == Stored(row[k])
    ensures v["additionalData"].Value? && !Falsy(Js(v["additionalData"].j))
  {
    RowView(row)["additionalData" := Value(Decoded(Field(row, "additionalData"), JObj([])))]
  }

  function OpportunityFilters(query: Query): seq<Filter> {
    EqualsIfGiven(query, "department", "department") + EqualsIfGiven(query, "sector", "sector")
      + EqualsIfGiven(query, "city", "city") + SearchIfGiven(query, ["companyName", "position", "description"])
  }

  /** GET /opportunities: the opportunities matching every filter given, newest first. */
  method ListOpportunities(db: Store, query: Query) returns (res: Response)
    ensures Listed(db.Rows(JobOpportunities), OpportunityFilters(query), Descending("createdAt"), OpportunityView, res)
  {
    res := List(db.Rows(JobOpportunities), OpportunityFilters(query), Descending("createdAt"), OpportunityView);
  }

  /** GET /opportunities/:id */
  method GetOpportunity(db: Store, id: string) returns (res: Response)
    ensures id !in db.Rows(JobOpportunities) ==> res == Response(404, Error("Oportunidad no encontrada"))
    ensures id in db.Rows(JobOpportunities) ==> res == Response(200, Record(OpportunityView(db.Rows(JobOpportunities)[id])))
  {
    var table := db.Rows(JobOpportunities);
    if id !in table {
      return Response(404, Error("Oportunidad no encontrada"));
    }
    res := Response(200, Record(OpportunityView(table[id])));
  }

  const OpportunityChecks := [
    Check("department", NotEmpty, "El departamento es requerido"),
    Check("sector", NotEmpty, "El sector es requerido"),
    Check("companyName", NotEmpty, "El nombre de la empresa es requerido")
  ]

  /** The optional text columns of an opportunity, each stored as `value || null`. */
  const OpportunityOptional := ["position", "city", "address", "phone", "email", "website", "description",
    "requirements", "salary", "schedule", "contractType", "benefits", "experience", "contactPerson"]

  /** The INSERT's values: the three required texts, the optional ones or NULL, and `additionalData` defaulting to `{}`. */
  function OpportunityRow(body: Body): (row: Row)
    ensures forall k :: k in OpportunityOptional ==> k in row && row[k] == OrNull(body, k)
    ensures forall k :: k in row ==> k in OpportunityOptional || k in ["department", "sector", "companyName", "additionalData"]
  {
    map[
      "department" := AsText(Lookup(body, "department")),
      "sector" := AsText(Lookup(body, "sector")),
      "companyName" := AsText(Lookup(body, "companyName")),
      "additionalData" := AsText(StringifyJsonField(Or(Lookup(body, "additionalData"), Js(JObj([])))))
    ] + map k | k in OpportunityOptional :: OrNull(body, k)
  }

  function CreateOpportunityStep(before: map<TableName, Table>, id: string, body: Body, rt: Runtime, now: int): Step {
    CreateStep(before, rt, OpportunityChecks, body, JobOpportunities, id, Some(OpportunityRow(body)), now,
      "Oportunidad creada exitosamente", "Error al crear oportunidad")
  }

  /** POST /opportunities */
  method CreateOpportunity(db: Store, id: string, body: Body, rt: Runtime, now: int) returns (res: Response)
    modifies db
    ensures Step(res, db.tables) == CreateOpportunityStep(old(db.tables), id, body, rt, now)
  {
    res := Create(db, rt, OpportunityChecks, body, JobOpportunities, id, Some(OpportunityRow(body)), now,
      "Oportunidad creada exitosamente", "Error al crear oportunidad");
  }

  /** The fields PUT /opportunities may change: seventeen texts and `additionalData`. */
  const OpportunityFields := Whitelist(
    ["department", "sector", "companyName", "position", "city", "address", "phone", "email", "website",
     "description", "requirements", "salary", "schedule", "contractType", "benefits", "experience",
     "contactPerson", "additionalData"],
    c => if c == "additionalData" then JsonField else TextField)

  lemma OpportunityFieldsWellFormed()
    ensures WellFormed(OpportunityFields)
  {
    assert DistinctNames(["department", "sector", "companyName", "position", "city", "address", "phone", "email",
      "website", "description", "requirements", "salary", "schedule", "contractType", "benefits", "experience",
      "contactPerson", "additionalData"]);
  }

  const OpportunityEditTexts := Texts("Oportunidad no encontrada", "",
    "Oportunidad actualizada exitosamente", "Error al actualizar oportunidad")

  /** PUT /opportunities/:id: 404, then 400 with no fields, then the update; there is no ownership check. */
  method UpdateOpportunity(db: Store, id: string, body: Body, rt: Runtime, now: int) returns (res: Response)
    modifies db
    ensures Step(res, db.tables) == ExistingUpdate(old(db.tables), JobOpportunities, id, OpportunityFields, body, rt, now, OpportunityEditTexts)
  {
    res := PutExisting(db, JobOpportunities, id, OpportunityFields, body, rt, now, OpportunityEditTexts);
  }

  const OpportunityDeleteTexts := Texts("", "", "Oportunidad eliminada exitosamente", "Error al eliminar oportunidad")

  /** DELETE /opportunities/:id, with no existence check. */
  method DeleteOpportunity(db: Store, id: string) returns (res: Response)
    modifies db
    ensures Step(res, db.tables) == DeleteStep(old(db.tables), JobOpportunities, id, OpportunityDeleteTexts)
  {
    res := Remove(db, JobOpportunities, id, OpportunityDeleteTexts);
  }

  /** Deleting an opportunity succeeds whether or not it exists, and a repeat changes nothing more. */
  lemma OpportunityDeleteAlwaysSucceeds(before: map<TableName, Table>, id: string)
    requires Consistent(before)
    ensures var r := DeleteStep(before, JobOpportunities, id, OpportunityDeleteTexts);
      && r.res == Response(200, Message("Oportunidad eliminada exitosamente"))
      && Get(r.tables, JobOpportunities) == Get(before, JobOpportunities) - {id}
      && DeleteStep(r.tables, JobOpportunities, id, OpportunityDeleteTexts) == r
  {
    DeleteSucceeds(before, JobOpportunities, id, OpportunityDeleteTexts);
    DeletedIdempotent(before, JobOpportunities, id);
  }
}

=== FILE: js_values.dfy ===
/**
 * The few JavaScript value conversions the route handlers rely on: truthiness,
 * `String(v)`, `parseFloat` and the text that request validators look at.
 * A request-body value is either absent (`undefined`) or a JSON value.
 */
module JsValues {
  import opened Wrappers
  import opened Json

  /** A JavaScript value as it reaches a handler: `undefined`, or something JSON can hold. */
  datatype JsValue = Undefined | Js(v: Json)

  /** A parsed request body (or query); a key it lacks reads as `undefined`. */
  type Body = map<string, Json>

  /** `req.body[key]` */
  function Lookup(body: Body, key: string): (v: JsValue)
    ensures v == Undefined <==> key !in body
    ensures key in body ==> v == Js(body[key])
  {
    if key in body then Js(body[key]) else Undefined
  }

  /** The values `!x` is true for (NaN cannot come out of a JSON body). */
  predicate Falsy(x: JsValue) {
    match x
    case Undefined => true
    case Js(j) =>
      match j
      case JNull => true
      case JBool(b) => !b
      case JNum(d) => d.digits == 0
      case JStr(s) => s == ""
      case _ => false
  }

  /** `x || fallback` */
  function Or(x: JsValue, fallback: JsValue): (r: JsValue)
    ensures !Falsy(x) ==> r == x
    ensures Falsy(x) ==> r == fallback
  {
    if Falsy(x) then fallback else x
  }

  /** `String(v)`; an array joins its elements with commas, `null` elements becoming empty. */
  function JsString(v: Json): string {
    match v
    case JNull => "null"
    case JBool(b) => if b then "true" else "false"
    case JNum(d) => NumberText(d)
    case JStr(s) => s
    case JArr(items) => Joined(items)
    case JObj(_) => "[object Object]"
  }

  /** `items.join(",")` as `Array.prototype.toString` does it. */
  function Joined(items: seq<Json>): string {
    if items == [] then ""
    else
      var first := if items[0] == JNull then "" else JsString(items[0]);
      if |items| == 1 then first else first + "," + Joined(items[1..])
  }

  /** The characters `parseFloat` skips before a number: ECMAScript's white space and line terminators. */
  predicate IsJsWs(c: char) {
    || c == ' ' || c == '\t' || c == '\n' || c == '\r' || c == '\U{B}' || c == '\U{C}'
    || c == '\U{A0}' || c == '\U{1680}' || '\U{2000}' <= c <= '\U{200A}' || c == '\U{2028}' || c == '\U{2029}'
    || c == '\U{202F}' || c == '\U{205F}' || c == '\U{3000}' || c == '\U{FEFF}'
  }

  /** The text after its leading white space. */
  function TrimStart(s: string): (t: string)
    ensures t == [] || !IsJsWs(t[0])
    ensures s != [] && !IsJsWs(s[0]) ==> t == s
  {
    if s != [] && IsJsWs(s[0]) then TrimStart(s[1..]) else s
  }

  /** A text read greedily as `[+-]? digits ('.' digits)?`: the sign, the digits before and after the point, and what follows. */
  datatype Mantissa = Mantissa(negative: bool, whole: string, fraction: string, after: string)

  function SplitMantissa(s: string): (m: Mantissa)
    ensures AllDigits(m.whole) && AllDigits(m.fraction)
  {
    var negative := s != [] && s[0] == '-';
    Unsigned(negative, if s != [] && (s[0] == '+' || s[0] == '-') then s[1..] else s)
  }

  /** The digits, the point and the digits after it, once the sign is read. */
  function Unsigned(negative: bool, t: string): (m: Mantissa)
    ensures m.negative == negative && AllDigits(m.whole) && AllDigits(m.fraction)
  {
    var n := LeadingDigits(t);
    if n < |t| && t[n] == '.' then Fraction(negative, t[..n], t[n + 1..])
    else Mantissa(negative, t[..n], [], t[n..])
  }

  /** The digits after the point, and what follows them. */
  function Fraction(negative: bool, whole: string, u: string): (m: Mantissa)
    requires AllDigits(whole)
    ensures AllDigits(m.fraction)
  {
    var k := LeadingDigits(u);
    Mantissa(negative, whole, u[..k], u[k..])
  }

  /** The number a mantissa stands for, scaled by the exponent after it when digits follow the `e`. */
  function MantissaValue(m: Mantissa): Decimal
    requires AllDigits(m.whole) && AllDigits(m.fraction)
  {
    var mag := DigitsValue(m.whole) * Pow10(|m.fraction|) + DigitsValue(m.fraction);
    match ParseExponent(mag, |m.fraction|, m.negative, m.after)
    case Some((d, _)) => d
    case None => Decimal(if m.negative then -(mag as int) else mag as int, |m.fraction|)
  }

  /**
   * `parseFloat(text)`: after leading white space, the longest prefix of the
   * form `[+-]? (digits ('.' digits?)? | '.' digits) ([eE] [+-]? digits)?`;
   * `None` stands for NaN, when no digit comes before the exponent.
   */
  function ParseFloat(text: string): Option<real> {
    NumberOf(SplitMantissa(TrimStart(text)))
  }

  /** The number a mantissa reads as, or NaN when it has no digit. */
  function NumberOf(m: Mantissa): Option<real>
    requires AllDigits(m.whole) && AllDigits(m.fraction)
  {
    if m.whole == [] && m.fraction == [] then None else Some(ValueOf(MantissaValue(m)))
  }

  /** `[eE] [+-]? digits` and nothing after. */
  predicate IsExponent(e: string) {
    && |e| >= 2 && (e[0] == 'e' || e[0] == 'E')
    && var w := if e[1] == '+' || e[1] == '-' then e[2..] else e[1..];
      w != [] && AllDigits(w)
  }

  /**
   * The pattern validator.js's `isFloat` tests, `^[+-]?([0-9]+)?(\.[0-9]*)?([eE][+-]?[0-9]+)?$`,
   * less the texts it refuses outright: "", ".", "+" and "-".
   */
  predicate FloatSyntax(text: string) {
    && text != "" && text != "." && text != "+" && text != "-"
    && var m := SplitMantissa(text); m.after == [] || IsExponent(m.after)
  }

  /** `isFloat(text, {min, max})`: the pattern holds and `parseFloat(text)` meets each bound given; NaN meets none. */
  predicate IsFloatText(text: string, min: Option<real>, max: Option<real>) {
    && FloatSyntax(text)
    && (min.None? || (ParseFloat(text).Some? && ParseFloat(text).value >= min.value))
    && (max.None? || (ParseFloat(text).Some? && ParseFloat(text).value <= max.value))
  }

  /** The text a request validator checks: `undefined` and `null` read as empty. */
  function ValidatorText(v: JsValue): (t: string)
    ensures v == Undefined || v == Js(JNull) ==> t == ""
    ensures v.Js? && v.v.JStr? ==> t == v.v.s
  {
    match v
    case Undefined => ""
    case Js(JNull) => ""
    case Js(j) => JsString(j)
  }

  // ---------------------------------------------------------------- what parseFloat reads

  lemma {:induction false} LeadingDigitsAppend(a: string, b: string)
    requires b == [] || !IsDigit(b[0]) || LeadingDigits(a) < |a|
    ensures LeadingDigits(a + b) == LeadingDigits(a)
  {
    if a != [] {
      assert (a + b)[0] == a[0];
      if IsDigit(a[0]) {
        assert (a + b)[1..] == a[1..] + b;
        LeadingDigitsAppend(a[1..], b);
      }
    }
  }

  /** Text after a mantissa that cannot continue it is left, whole, after the mantissa. */
  lemma MantissaAppend(t: string, r: string)
    requires t != [] && (r == [] || (!IsDigit(r[0]) && r[0] != '.'))
    ensures var m := SplitMantissa(t); SplitMantissa(t + r) == m.(after := m.after + r)
  {
    var s := t + r;
    assert s[0] == t[0];
    var negative := t[0] == '-';
    if t[0] == '+' || t[0] == '-' {
      assert s[1..] == t[1..] + r;
      UnsignedAppend(negative, t[1..], r);
    } else {
      UnsignedAppend(negative, t, r);
    }
  }

  lemma UnsignedAppend(negative: bool, t: string, r: string)
    requires r == [] || (!IsDigit(r[0]) && r[0] != '.')
    ensures var m := Unsigned(negative, t); Unsigned(negative, t + r) == m.(after := m.after + r)
  {
    var s := t + r;
    LeadingDigitsAppend(t, r);
    var n := LeadingDigits(t);
    assert s[..n] == t[..n];
    if n < |t| && t[n] == '.' {
      assert s[n] == '.';
      assert s[n + 1..] == t[n + 1..] + r;
      FractionAppend(negative, t[..n], t[n + 1..], r);
    } else {
      assert n < |s| ==> s[n] != '.';
      assert s[n..] == t[n..] + r;
    }
  }

  lemma FractionAppend(negative: bool, whole: string, u: string, r: string)
    requires AllDigits(whole) && (r == [] || !IsDigit(r[0]))
    ensures var m := Fraction(negative, whole, u); Fraction(negative, whole, u + r) == m.(after := m.after + r)
  {
    LeadingDigitsAppend(u, r);
    var k := LeadingDigits(u);
    assert (u + r)[..k] == u[..k];
    assert (u + r)[k..] == u[k..] + r;
  }

  /** A complete exponent, or none, reads the same when a separator follows it. */
  lemma ExponentAppend(mag: nat, scale: nat, negative: bool, e: string, r: string)
    requires e == [] || IsExponent(e)
    requires r == [] || (!IsDigit(r[0]) && r[0] != 'e' && r[0] != 'E')
    ensures ParseExponent(mag, scale, negative, e + r).Some? && ParseExponent(mag, scale, negative, e).Some?
    ensures ParseExponent(mag, scale, negative, e + r).value.0 == ParseExponent(mag, scale, negative, e).value.0
  {
    if e == [] {
      assert e + r == r;
    } else {
      var s := e + r;
      assert s[0] == e[0] && s[1] == e[1];
      var w := if e[1] == '+' || e[1] == '-' then e[2..] else e[1..];
      var tw := if s[1] == '+' || s[1] == '-' then s[2..] else s[1..];
      assert tw == w + r;
      LeadingDigitsOf(w, r);
      LeadingDigitsOf(w, []);
      assert w + [] == w;
      assert tw[..|w|] == w;
    }
  }

  /** Where validator.js's pattern holds, a separator after the text does not change what `parseFloat` reads. */
  lemma FloatSyntaxAppend(t: string, r: string)
    requires FloatSyntax(t) && r != [] && r[0] == ','
    ensures ParseFloat(t + r) == ParseFloat(t)
  {
    FloatSyntaxStart(t);
    assert (t + r)[0] == t[0];
    assert TrimStart(t + r) == t + r;
    MantissaAppend(t, r);
    var m := SplitMantissa(t);
    ValueAppend(m, r);
  }

  lemma ValueAppend(m: Mantissa, r: string)
    requires AllDigits(m.whole) && AllDigits(m.fraction)
    requires m.after == [] || IsExponent(m.after)
    requires r != [] && r[0] == ','
    ensures NumberOf(m.(after := m.after + r)) == NumberOf(m)
  {
    var m2 := m.(after := m.after + r);
    var mag := DigitsValue(m.whole) * Pow10(|m.fraction|) + DigitsValue(m.fraction);
    ExponentAppend(mag, |m.fraction|, m.negative, m.after, r);
    var longer := ParseExponent(mag, |m.fraction|, m.negative, m.after + r);
    var shorter := ParseExponent(mag, |m.fraction|, m.negative, m.after);
    assert MantissaValue(m2) == longer.value.0;
    assert MantissaValue(m) == shorter.value.0;
  }

  /** A text of the pattern starts with a sign, a digit, a point or an exponent, never white space. */
  lemma FloatSyntaxStart(t: string)
    requires FloatSyntax(t)
    ensures !IsJsWs(t[0]) && TrimStart(t) == t
  {
    var m := SplitMantissa(t);
    if !(t[0] == '+' || t[0] == '-' || IsDigit(t[0]) || t[0] == '.') {
      assert LeadingDigits(t) == 0;
      assert m.after == t;
    }
  }

  /** What `String(n)` writes for a number is of the pattern, and `parseFloat` reads it back as that number. */
  lemma NumberTextFloat(d: Decimal)
    ensures FloatSyntax(NumberText(d))
    ensures ParseFloat(NumberText(d)) == Some(ValueOf(d))
  {
    var m, p := Magnitude(d), Pow10(d.scale);
    var q, f := Whole(m, p), Part(m, p);
    var frac := if d.scale == 0 then "" else "." + PadDigits(f, d.scale);
    var t := NatText(q) + frac;
    var s := NumberText(d);
    assert s == (if d.digits < 0 then "-" else "") + t;
    NatTextValue(q);
    assert t[0] == NatText(q)[0];
    if d.digits < 0 {
      assert s[0] == '-' && s[1..] == t;
    } else {
      assert s == t;
    }
    assert TrimStart(s) == s;
    var sm := SplitMantissa(s);
    assert sm == Unsigned(d.digits < 0, t);
    if d.scale == 0 {
      WholeRead(d.digits < 0, NatText(q), frac);
      assert sm == Mantissa(d.digits < 0, NatText(q), [], []);
    } else {
      WholeRead(d.digits < 0, NatText(q), frac);
      FractionRead(d.digits < 0, NatText(q), f, d.scale);
      assert sm == Mantissa(d.digits < 0, NatText(q), PadDigits(f, d.scale), []);
    }
    MagnitudeValue(d, q, f, sm);
  }

  /** Digits followed by nothing, or by a point, are read as the whole part. */
  lemma WholeRead(negative: bool, w: string, frac: string)
    requires w != [] && AllDigits(w) && (frac == [] || frac[0] == '.')
    ensures frac == [] ==> Unsigned(negative, w + frac) == Mantissa(negative, w, [], [])
    ensures frac != [] ==> Unsigned(negative, w + frac) == Fraction(negative, w, frac[1..])
  {
    var t := w + frac;
    LeadingDigitsOf(w, frac);
    assert t[..|w|] == w && t[|w|..] == frac;
    if frac != [] {
      assert t[|w|] == '.' && t[|w| + 1..] == frac[1..];
    }
  }

  /** Padded fraction digits with nothing after are read as the fraction. */
  lemma FractionRead(negative: bool, w: string, f: nat, scale: nat)
    requires AllDigits(w)
    ensures Fraction(negative, w, PadDigits(f, scale)) == Mantissa(negative, w, PadDigits(f, scale), [])
  {
    var u := PadDigits(f, scale);
    LeadingDigitsOf(u, []);
    assert u + [] == u;
  }

  /** The mantissa of a written number stands for that number. */
  lemma MagnitudeValue(d: Decimal, q: nat, f: nat, sm: Mantissa)
    requires q == Whole(Magnitude(d), Pow10(d.scale)) && f == Part(Magnitude(d), Pow10(d.scale))
    requires DigitsValue(NatText(q)) == q
    requires d.scale == 0 ==> sm == Mantissa(d.digits < 0, NatText(q), [], [])
    requires d.scale > 0 ==> sm == Mantissa(d.digits < 0, NatText(q), PadDigits(f, d.scale), [])
    ensures NumberOf(sm) == Some(ValueOf(d))
  {
    if d.scale > 0 {
      PadDigitsValue(f, d.scale);
    }
    assert MantissaValue(sm) == d;
  }

  /** `String(array)` begins with its first element's text, so `parseFloat` reads the first element when that is of the pattern. */
  lemma FirstElementFloat(items: seq<Json>)
    requires items != [] && FloatSyntax(ValidatorText(Js(items[0])))
    ensures ParseFloat(JsString(JArr(items))) == ParseFloat(ValidatorText(Js(items[0])))
  {
    var first := ValidatorText(Js(items[0]));
    assert first != "";
    assert items[0] != JNull;
    assert first == JsString(items[0]);
    assert JsString(JArr(items)) == Joined(items);
    if |items| > 1 {
      var more := "," + Joined(items[1..]);
      assert Joined(items) == first + more;
      FloatSyntaxAppend(first, more);
    } else {
      assert Joined(items) == first;
    }
  }

  /** Leading zeros are digits to `parseFloat` and `isFloat`, where JSON's grammar stops after the first. */
  lemma LeadingZeros()
    ensures ParseFloat("0500") == Some(500.0) && FloatSyntax("0500")
  {
    var t := "0500";
    LeadingDigitsOf(t, []);
    assert t + [] == t && t[..4] == t && t[4..] == [];
    assert TrimStart(t) == t;
    assert Unsigned(false, t) == Mantissa(false, t, [], []);
    assert SplitMantissa(t) == Mantissa(false, t, [], []);
    assert DigitsValue("0") == 0;
    assert "05"[..1] == "0";
    assert DigitsValue("05") == 5;
    assert "050"[..2] == "05";
    assert DigitsValue("050") == 50;
    assert t[..3] == "050";
    assert DigitsValue(t) == 500;
    assert MantissaValue(Mantissa(false, t, [], [])) == Decimal(500, 0);
  }

  /** A point with no digit after it ends the number. */
  lemma TrailingPoint()
    ensures ParseFloat("5.") == Some(5.0) && FloatSyntax("5.")
  {
    var t := "5.";
    LeadingDigitsOf("5", ".");
    assert "5" + "." == t && t[..1] == "5" && t[2..] == [];
    assert TrimStart(t) == t;
    assert LeadingDigits(t) == 1 && t[1] == '.';
    assert Unsigned(false, t) == Fraction(false, "5", []);
    assert Fraction(false, "5", []) == Mantissa(false, "5", [], []);
    assert SplitMantissa(t) == Mantissa(false, "5", [], []);
    assert DigitsValue("5") == 5;
    assert MantissaValue(Mantissa(false, "5", [], [])) == Decimal(5, 0);
  }

  /** A point with no digit before it starts the number. */
  lemma LeadingPoint()
    ensures ParseFloat(".5") == Some(0.5) && FloatSyntax(".5")
  {
    var t := ".5";
    assert LeadingDigits(t) == 0;
    assert t[..0] == [] && t[1..] == "5";
    LeadingDigitsOf("5", []);
    assert "5" + [] == "5" && "5"[..1] == "5" && "5"[1..] == [];
    assert SplitMantissa(t) == Mantissa(false, [], "5", []);
    assert DigitsValue("5") == 5 && DigitsValue([]) == 0;
  }

  /** A leading plus sign is read and dropped. */
  lemma PlusSign()
    ensures ParseFloat("+3") == Some(3.0) && FloatSyntax("+3")
  {
    var t := "+3";
    assert t[1..] == "3";
    LeadingDigitsOf("3", []);
    assert "3" + [] == "3" && "3"[..1] == "3" && "3"[1..] == [];
    assert SplitMantissa(t) == Mantissa(false, "3", [], []);
    assert DigitsValue("3") == 3;
  }

  /** `parseFloat` stops at a comma, so `String([4, 5])` reads as 4; the pattern refuses the comma. */
  lemma CommaStops()
    ensures ParseFloat("4,5") == Some(4.0) && !FloatSyntax("4,5")
  {
    var t := "4,5";
    LeadingDigitsOf("4", ",5");
    assert "4" + ",5" == t && t[..1] == "4" && t[1..] == ",5";
    assert SplitMantissa(t) == Mantissa(false, "4", [], ",5");
    assert DigitsValue("4") == 4;
  }
}

=== FILE: json.dfy ===
/**
 * JSON values and their text form (RFC 8259), as JavaScript's `JSON.stringify`
 * writes them and `JSON.parse` reads them. The route handlers store every
 * structured field as this text and read it back with the parser, so the
 * round trip `Parse(Stringify(j)) == Some(j)` is proved here rather than assumed.
 */
module Json {
  import opened Wrappers

  /** An exact decimal number: the value `digits / 10^scale`. */
  datatype Decimal = Decimal(digits: int, scale: nat)

  datatype Json =
    | JNull
    | JBool(b: bool)
    | JNum(n: Decimal)
    | JStr(s: string)
    | JArr(items: seq<Json>)
    | JObj(members: seq<Member>)

  /** One `"key": value` pair of an object, in the order written. */
  datatype Member = Member(key: string, value: Json)

  function Pow10(n: nat): (p: nat)
    ensures p >= 1
  {
    if n == 0 then 1 else 10 * Pow10(n - 1)
  }

  /** The number a decimal stands for. */
  function ValueOf(d: Decimal): real {
    d.digits as real / Pow10(d.scale) as real
  }

  // ---------------------------------------------------------------- characters

  predicate IsDigit(c: char) { '0' <= c <= '9' }

  predicate AllDigits(s: string) { forall i :: 0 <= i < |s| ==> IsDigit(s[i]) }

  predicate IsHex(c: char) { IsDigit(c) || 'a' <= c <= 'f' || 'A' <= c <= 'F' }

  /** The four characters RFC 8259 allows between tokens. */
  predicate IsWs(c: char) { c == ' ' || c == '\t' || c == '\n' || c == '\r' }

  function DigitChar(k: nat): (c: char)
    requires k < 10
    ensures IsDigit(c)
  {
    ('0' as int + k) as char
  }

  function DigitValue(c: char): (k: nat)
    requires IsDigit(c)
    ensures k < 10 && DigitChar(k) == c
  {
    c as int - '0' as int
  }

  /** Lower-case hexadecimal digit, as `JSON.stringify` writes in `\u00xx`. */
  function HexDigit(k: nat): (c: char)
    requires k < 16
    ensures IsHex(c)
  {
    if k < 10 then DigitChar(k) else ('a' as int + (k - 10)) as char
  }

  function HexValue(c: char): (k: nat)
    requires IsHex(c)
    ensures k < 16
  {
    if IsDigit(c) then DigitValue(c)
    else if 'a' <= c <= 'f' then c as int - 'a' as int + 10
    else c as int - 'A' as int + 10
  }

  lemma HexValueOfDigit(k: nat)
    requires k < 16
    ensures HexValue(HexDigit(k)) == k
  {
    if k < 10 {
      assert DigitValue(DigitChar(k)) == k;
    }
  }

  // ---------------------------------------------------------------- digit strings

  /** Decimal digits of `n`, most significant first, with no leading zero. */
  function NatText(n: nat): (s: string)
    ensures |s| >= 1 && AllDigits(s)
  {
    if n < 10 then [DigitChar(n)] else NatText(n / 10) + [DigitChar(n % 10)]
  }

  /** `k` written with exactly `width` digits, padded on the left with zeros. */
  function PadDigits(k: nat, width: nat): (s: string)
    ensures |s| == width && AllDigits(s)
  {
    if width == 0 then [] else PadDigits(k / 10, width - 1) + [DigitChar(k % 10)]
  }

  /** The number a string of digits denotes. */
  function DigitsValue(s: string): nat
    requires AllDigits(s)
  {
    if s == [] then 0 else DigitsValue(s[..|s| - 1]) * 10 + DigitValue(s[|s| - 1])
  }

  /** How many digits `s` starts with. */
  function LeadingDigits(s: string): (n: nat)
    ensures n <= |s| && AllDigits(s[..n])
    ensures n < |s| ==> !IsDigit(s[n])
  {
    if s != [] && IsDigit(s[0]) then
      var k := LeadingDigits(s[1..]);
      assert s[..k + 1] == [s[0]] + s[1..][..k];
      1 + k
    else 0
  }

  lemma {:induction false} NatTextValue(n: nat)
    ensures DigitsValue(NatText(n)) == n
    ensures n > 0 ==> NatText(n)[0] != '0'
  {
    if n >= 10 {
      NatTextValue(n / 10);
      var s := NatText(n);
      assert s[..|s| - 1] == NatText(n / 10);
      assert DigitValue(DigitChar(n % 10)) == n % 10;
    } else {
      assert DigitValue(DigitChar(n)) == n;
    }
  }

  lemma {:induction false} PadDigitsValue(k: nat, width: nat)
    requires k < Pow10(width)
    ensures DigitsValue(PadDigits(k, width)) == k
  {
    if width > 0 {
      assert k / 10 < Pow10(width - 1);
      PadDigitsValue(k / 10, width - 1);
      var s := PadDigits(k, width);
      assert s[..|s| - 1] == PadDigits(k / 10, width - 1);
      assert DigitValue(DigitChar(k % 10)) == k % 10;
    }
  }

  lemma {:induction false} LeadingDigitsOf(ds: string, rest: string)
    requires AllDigits(ds)
    requires rest == [] || !IsDigit(rest[0])
    ensures LeadingDigits(ds + rest) == |ds|
  {
    if ds != [] {
      assert (ds + rest)[1..] == ds[1..] + rest;
      LeadingDigitsOf(ds[1..], rest);
    }
  }

  // ---------------------------------------------------------------- writing

  /** The text `JSON.stringify` gives a number, with exactly `scale` fraction digits. */
  function NumberText(d: Decimal): string {
    var m, p := Magnitude(d), Pow10(d.scale);
    (if d.digits < 0 then "-" else "")
      + (NatText(Whole(m, p)) + (if d.scale == 0 then "" else "." + PadDigits(Part(m, p), d.scale)))
  }

  function Magnitude(d: Decimal): nat {
    if d.digits < 0 then -d.digits else d.digits
  }

  /** The integer part of `m / p`. */
  function Whole(m: nat, p: nat): (q: nat)
    requires p >= 1
    ensures q * p <= m
  {
    m / p
  }

  /** The remainder of `m / p`: together with `Whole` it rebuilds `m`. */
  function Part(m: nat, p: nat): (r: nat)
    requires p >= 1
    ensures r < p && Whole(m, p) * p + r == m
  {
    m % p
  }

  /** One character inside a JSON string literal, escaped as `JSON.stringify` does. */
  function EscapeChar(c: char): string {
    if c == '"' then "\\\""
    else if c == '\\' then "\\\\"
    else if c == '\U{8}' then "\\b"
    else if c == '\t' then "\\t"
    else if c == '\n' then "\\n"
    else if c == '\U{C}' then "\\f"
    else if c == '\r' then "\\r"
    else if c < ' ' then "\\u00" + [HexDigit(c as int / 16), HexDigit(c as int % 16)]
    else [c]
  }

  function Escape(s: string): string {
    if s == [] then [] else EscapeChar(s[0]) + Escape(s[1..])
  }

  function Quote(s: string): string {
    "\"" + Escape(s) + "\""
  }

  /** `JSON.stringify(j)`: no whitespace, members in the order given. */
  function Stringify(j: Json): string {
    match j
    case JNull => "null"
    case JBool(b) => if b then "true" else "false"
    case JNum(d) => NumberText(d)
    case JStr(s) => Quote(s)
    case JArr(items) => "[" + ItemsText(items) + "]"
    case JObj(members) => "{" + MembersText(members) + "}"
  }

  function ItemsText(items: seq<Json>): string {
    if items == [] then ""
    else if |items| == 1 then Stringify(items[0])
    else Stringify(items[0]) + "," + ItemsText(items[1..])
  }

  function MembersText(members: seq<Member>): string {
    if members == [] then ""
    else
      Quote(members[0].key) + ":" + Stringify(members[0].value)
        + (if |members| == 1 then "" else "," + MembersText(members[1..]))
  }

  // ---------------------------------------------------------------- reading

  function SkipWs(s: string): (t: string)
    ensures |t| <= |s|
    ensures t == [] || !IsWs(t[0])
  {
    if s != [] && IsWs(s[0]) then SkipWs(s[1..]) else s
  }

  /** `word` at the start of `s`, standing for `v`. */
  function Literal(s: string, word: string, v: Json): (r: Option<(Json, string)>)
    requires |word| > 0
    ensures r.Some? ==> |r.value.1| < |s|
  {
    if |word| <= |s| && s[..|word|] == word then Some((v, s[|word|..])) else None
  }

  /** Digits of a number `digits / 10^scale` times `10^e`. */
  function Scaled(digits: int, scale: nat, e: int): Decimal {
    if e >= scale then Decimal(digits * Pow10(e - scale), 0) else Decimal(digits, scale - e)
  }

  /** An optional exponent part after the digits read so far. */
  function ParseExponent(mag: nat, scale: nat, negative: bool, s: string): (r: Option<(Decimal, string)>)
    ensures r.Some? ==> |r.value.1| <= |s|
  {
    var digits := if negative then -(mag as int) else mag as int;
    if s != [] && (s[0] == 'e' || s[0] == 'E') then
      var t := if |s| > 1 && (s[1] == '+' || s[1] == '-') then s[2..] else s[1..];
      var k := LeadingDigits(t);
      if k == 0 then None
      else
        var e := DigitsValue(t[..k]);
        Some((Scaled(digits, scale, if |s| > 1 && s[1] == '-' then -(e as int) else e), t[k..]))
    else Some((Decimal(digits, scale), s))
  }

  /** Length of the integer part of a number: a lone `0`, or every leading digit. */
  function IntegerLength(t: string): (n: nat)
    requires t != [] && IsDigit(t[0])
    ensures 0 < n <= |t| && AllDigits(t[..n])
  {
    if t[0] == '0' then 1 else LeadingDigits(t)
  }

  /** A number token: `-? (0 | [1-9][0-9]*) (. [0-9]+)? ([eE] [+-]? [0-9]+)?`. */
  function ParseNumber(s: string): (r: Option<(Decimal, string)>)
    ensures r.Some? ==> |r.value.1| < |s|
  {
    var negative := s != [] && s[0] == '-';
    ParseMagnitude(if negative then s[1..] else s, negative)
  }

  /** The unsigned part of a number token: an integer part, then the optional fraction and exponent. */
  function ParseMagnitude(t: string, negative: bool): (r: Option<(Decimal, string)>)
    ensures r.Some? ==> |r.value.1| < |t|
  {
    if t == [] || !IsDigit(t[0]) then None
    else
      var n := IntegerLength(t);
      ParseFraction(DigitsValue(t[..n]), t[n..], negative)
  }

  /** What follows the integer part `whole`: an optional `.` with at least one digit, then the exponent. */
  function ParseFraction(whole: nat, u: string, negative: bool): (r: Option<(Decimal, string)>)
    ensures r.Some? ==> |r.value.1| <= |u|
  {
    if u != [] && u[0] == '.' then
      var k := LeadingDigits(u[1..]);
      if k == 0 then None
      else ParseExponent(whole * Pow10(k) + DigitsValue(u[1..][..k]), k, negative, u[1..][k..])
    else ParseExponent(whole, 0, negative, u)
  }

  /** Four hexadecimal digits at the start of `s`, as after `\u`. */
  predicate HexQuad(s: string) {
    |s| >= 4 && IsHex(s[0]) && IsHex(s[1]) && IsHex(s[2]) && IsHex(s[3])
  }

  /** The 16-bit code unit four hexadecimal digits denote. */
  function QuadValue(s: string): (v: nat)
    requires HexQuad(s)
    ensures v < 0x10000
  {
    HexValue(s[0]) * 4096 + HexValue(s[1]) * 256 + HexValue(s[2]) * 16 + HexValue(s[3])
  }

  /**
   * The character after a backslash in a string literal. A `\u` escape of a
   * high surrogate followed by a `\u` escape of a low surrogate is one
   * character beyond the 16-bit range; a lone surrogate is refused.
   */
  function Unescape(s: string): (r: Option<(char, string)>)
    ensures r.Some? ==> |r.value.1| < |s|
  {
    if s == [] then None
    else if s[0] == '"' then Some(('"', s[1..]))
    else if s[0] == '\\' then Some(('\\', s[1..]))
    else if s[0] == '/' then Some(('/', s[1..]))
    else if s[0] == 'b' then Some(('\U{8}', s[1..]))
    else if s[0] == 'f' then Some(('\U{C}', s[1..]))
    else if s[0] == 'n' then Some(('\n', s[1..]))
    else if s[0] == 'r' then Some(('\r', s[1..]))
    else if s[0] == 't' then Some(('\t', s[1..]))
    else if s[0] == 'u' && HexQuad(s[1..]) then
      var v := QuadValue(s[1..]);
      if v < 0xD800 || 0xE000 <= v then Some((v as char, s[5..]))
      else if v < 0xDC00 && |s| >= 11 && s[5] == '\\' && s[6] == 'u' && HexQuad(s[7..]) then
        var w := QuadValue(s[7..]);
        if 0xDC00 <= w < 0xE000 then Some(((0x10000 + (v - 0xD800) * 0x400 + (w - 0xDC00)) as char, s[11..]))
        else None
      else None
    else None
  }

  /** The body of a string literal up to its closing quote, unescaped. */
  function ParseChars(s: string): (r: Option<(string, string)>)
    ensures r.Some? ==> |r.value.1| < |s|
  {
    if s == [] then None
    else if s[0] == '"' then Some(([], s[1..]))
    else if s[0] == '\\' then
      match Unescape(s[1..])
      case None => None
      case Some((c, t)) =>
        match ParseChars(t)
        case None => None
        case Some((cs, u)) => Some(([c] + cs, u))
    else if s[0] < ' ' then None
    else
      match ParseChars(s[1..])
      case None => None
      case Some((cs, u)) => Some(([s[0]] + cs, u))
  }

  /** One value after optional whitespace, and the text after it. */
  function ParseValue(s: string): (r: Option<(Json, string)>)
    ensures r.Some? ==> |r.value.1| < |s|
    decreases |s|, 0
  {
    var t := SkipWs(s);
    if t == [] then None
    else if t[0] == 'n' then Literal(t, "null", JNull)
    else if t[0] == 't' then Literal(t, "true", JBool(true))
    else if t[0] == 'f' then Literal(t, "false", JBool(false))
    else if t[0] == '"' then
      match ParseChars(t[1..])
      case None => None
      case Some((x, rest)) => Some((JStr(x), rest))
    else if t[0] == '[' then ParseArray(t[1..])
    else if t[0] == '{' then ParseObject(t[1..])
    else
      match ParseNumber(t)
      case None => None
      case Some((d, rest)) => Some((JNum(d), rest))
  }

  /** The rest of an array after its `[`. */
  function ParseArray(s: string): (r: Option<(Json, string)>)
    ensures r.Some? ==> |r.value.1| < |s|
    decreases |s|, 2
  {
    var t := SkipWs(s);
    if t != [] && t[0] == ']' then Some((JArr([]), t[1..]))
    else
      match ParseElements(t)
      case None => None
      case Some((items, rest)) => Some((JArr(items), rest))
  }

  /** `value (, value)* ]` */
  function ParseElements(s: string): (r: Option<(seq<Json>, string)>)
    ensures r.Some? ==> |r.value.1| < |s|
    decreases |s|, 1
  {
    match ParseValue(s)
    case None => None
    case Some((v, rest)) =>
      var t := SkipWs(rest);
      if t == [] then None
      else if t[0] == ',' then
        match ParseElements(t[1..])
        case None => None
        case Some((vs, u)) => Some(([v] + vs, u))
      else if t[0] == ']' then Some(([v], t[1..]))
      else None
  }

  /** The rest of an object after its `{`. */
  function ParseObject(s: string): (r: Option<(Json, string)>)
    ensures r.Some? ==> |r.value.1| < |s|
    decreases |s|, 2
  {
    var t := SkipWs(s);
    if t != [] && t[0] == '}' then Some((JObj([]), t[1..]))
    else
      match ParseMembers(t)
      case None => None
      case Some((ms, rest)) => Some((JObj(ms), rest))
  }

  /** `"key" : value (, "key" : value)* }` */
  function ParseMembers(s: string): (r: Option<(seq<Member>, string)>)
    ensures r.Some? ==> |r.value.1| < |s|
    decreases |s|, 1
  {
    var t := SkipWs(s);
    if t == [] || t[0] != '"' then None
    else
      match ParseChars(t[1..])
      case None => None
      case Some((key, r1)) =>
        var r2 := SkipWs(r1);
        if r2 == [] || r2[0] != ':' then None
        else
          match ParseValue(r2[1..])
          case None => None
          case Some((v, r3)) =>
            var r4 := SkipWs(r3);
            if r4 == [] then None
            else if r4[0] == ',' then
              match ParseMembers(r4[1..])
              case None => None
              case Some((ms, u)) => Some(([Member(key, v)] + ms, u))
            else if r4[0] == '}' then Some(([Member(key, v)], r4[1..]))
            else None
  }

  /**
   * `JSON.parse(s)`: one value, surrounded by nothing but whitespace; `None`
   * where it throws. An object keeps its members as written, a repeated key
   * included.
   */
  function Parse(s: string): Option<Json> {
    match ParseValue(s)
    case None => None
    case Some((v, rest)) => if SkipWs(rest) == [] then Some(v) else None
  }

  // ---------------------------------------------------------------- the round trip

  /** What may follow a value that `Stringify` wrote: the end, or a closing or separating token. */
  predicate Delimited(rest: string) {
    rest == [] || rest[0] == ',' || rest[0] == ']' || rest[0] == '}'
  }

  lemma NumberRoundTrip(d: Decimal, rest: string)
    requires Delimited(rest)
    ensures ParseNumber(NumberText(d) + rest) == Some((d, rest))
  {
    var m, p := Magnitude(d), Pow10(d.scale);
    var q, f := Whole(m, p), Part(m, p);
    assert q * p + f == m;
    var frac := if d.scale == 0 then "" else "." + PadDigits(f, d.scale);
    var t := NatText(q) + (frac + rest);
    assert NumberText(d) + rest == (if d.digits < 0 then "-" else "") + t;
    SignOf(d.digits < 0, t);
    WholeDigits(q, frac + rest);
    NoExponent(d, rest);
    MagnitudeParsed(d, q, f, rest);
  }

  /** The unsigned part of a written number, integer part then fraction, parses back to the magnitude. */
  lemma MagnitudeParsed(d: Decimal, q: nat, f: nat, rest: string)
    requires Delimited(rest)
    requires f < Pow10(d.scale) && q * Pow10(d.scale) + f == Magnitude(d)
    requires d.scale == 0 ==> f == 0
    ensures var frac := if d.scale == 0 then "" else "." + PadDigits(f, d.scale);
      ParseFraction(q, frac + rest, d.digits < 0) == ParseExponent(Magnitude(d), d.scale, d.digits < 0, rest)
  {
    if d.scale == 0 {
      assert q == Magnitude(d);
      assert ("" + rest) == rest;
    } else {
      assert ("." + PadDigits(f, d.scale)) + rest == "." + PadDigits(f, d.scale) + rest;
      FractionParsed(q, f, d.scale, d.digits < 0, rest);
    }
  }

  /** A number followed by a delimiter has no exponent, so the digits and scale come back unchanged. */
  lemma NoExponent(d: Decimal, rest: string)
    requires Delimited(rest)
    ensures ParseExponent(Magnitude(d), d.scale, d.digits < 0, rest) == Some((d, rest))
  {
  }

  /** A leading minus sign is consumed and remembered; a digit is never mistaken for one. */
  lemma SignOf(negative: bool, t: string)
    requires t != [] && IsDigit(t[0])
    ensures ParseNumber((if negative then "-" else "") + t) == ParseMagnitude(t, negative)
  {
    var s := (if negative then "-" else "") + t;
    if negative {
      assert s[0] == '-' && s[1..] == t;
    } else {
      assert s == t;
    }
  }

  /** The integer part of a number is read back whole, leading zero rule included. */
  lemma WholeDigits(q: nat, rest: string)
    requires rest == [] || rest[0] == '.' || Delimited(rest)
    ensures IsDigit((NatText(q) + rest)[0])
    ensures IntegerLength(NatText(q) + rest) == |NatText(q)|
    ensures (NatText(q) + rest)[..|NatText(q)|] == NatText(q)
    ensures (NatText(q) + rest)[|NatText(q)|..] == rest
    ensures DigitsValue(NatText(q)) == q
    ensures forall negative :: ParseMagnitude(NatText(q) + rest, negative) == ParseFraction(q, rest, negative)
  {
    var t := NatText(q) + rest;
    NatTextValue(q);
    assert t[0] == NatText(q)[0];
    if q == 0 {
      assert NatText(q) == "0";
    } else {
      LeadingDigitsOf(NatText(q), rest);
    }
  }

  /** The fraction part `.ddd` is read back with its exact number of digits. */
  /** A fraction written with `PadDigits` is read back as the same scaled value. */
  lemma FractionParsed(whole: nat, f: nat, scale: nat, negative: bool, rest: string)
    requires scale > 0 && f < Pow10(scale) && Delimited(rest)
    ensures ParseFraction(whole, "." + PadDigits(f, scale) + rest, negative)
      == ParseExponent(whole * Pow10(scale) + f, scale, negative, rest)
  {
    var u := "." + PadDigits(f, scale) + rest;
    FractionDigits(f, scale, rest);
    FractionOf(whole, u, negative, scale, f, rest);
  }

  lemma FractionOf(whole: nat, u: string, negative: bool, k: nat, digits: nat, after: string)
    requires u != [] && u[0] == '.' && 0 < k == LeadingDigits(u[1..])
    requires DigitsValue(u[1..][..k]) == digits && u[1..][k..] == after
    ensures ParseFraction(whole, u, negative) == ParseExponent(whole * Pow10(k) + digits, k, negative, after)
  {
  }

  lemma FractionDigits(f: nat, scale: nat, rest: string)
    requires scale > 0 && f < Pow10(scale) && Delimited(rest)
    ensures var u := "." + PadDigits(f, scale) + rest;
      LeadingDigits(u[1..]) == scale && u[1..][..scale] == PadDigits(f, scale)
      && u[1..][scale..] == rest && DigitsValue(PadDigits(f, scale)) == f
  {
    var u := "." + PadDigits(f, scale) + rest;
    assert u[1..] == PadDigits(f, scale) + rest;
    LeadingDigitsOf(PadDigits(f, scale), rest);
    PadDigitsValue(f, scale);
  }

  lemma UnescapeRoundTrip(c: char, tail: string)
    requires EscapeChar(c)[0] == '\\'
    ensures Unescape(EscapeChar(c)[1..] + tail) == Some((c, tail))
  {
    if c < ' ' && c != '\U{8}' && c != '\t' && c != '\n' && c != '\U{C}' && c != '\r' {
      var a, b := c as int / 16, c as int % 16;
      var s := EscapeChar(c)[1..] + tail;
      assert s[..5] == ['u', '0', '0', HexDigit(a), HexDigit(b)];
      HexValueOfDigit(a);
      HexValueOfDigit(b);
      assert HexValue('0') == 0;
      assert QuadValue(s[1..]) == c as int;
    }
  }

  /** Four lower-case hexadecimal digits for a 16-bit code unit. */
  function Quad(k: nat): (s: string)
    requires k < 0x10000
    ensures |s| == 4
  {
    var r := k % 4096;
    [HexDigit(k / 4096), HexDigit(r / 256), HexDigit(r % 256 / 16), HexDigit(r % 16)]
  }

  lemma QuadRoundTrip(k: nat, tail: string)
    requires k < 0x10000
    ensures HexQuad(Quad(k) + tail) && QuadValue(Quad(k) + tail) == k
  {
    var s := Quad(k) + tail;
    var a, r := k / 4096, k % 4096;
    var b, r2 := r / 256, r % 256;
    var c, d := r2 / 16, r2 % 16;
    assert r % 16 == d;
    HexValueOfDigit(a);
    HexValueOfDigit(b);
    HexValueOfDigit(c);
    HexValueOfDigit(d);
    assert s[0] == HexDigit(a) && s[1] == HexDigit(b) && s[2] == HexDigit(c) && s[3] == HexDigit(d);
    assert k == a * 4096 + b * 256 + c * 16 + d;
  }

  /** The escape `\uHHHH\uLLLL` of a character beyond the 16-bit range as a UTF-16 surrogate pair, after the first backslash. */
  function PairEscape(c: char): string
    requires c as int >= 0x10000
  {
    var u := c as int - 0x10000;
    "u" + Quad(0xD800 + u / 0x400) + "\\u" + Quad(0xDC00 + u % 0x400)
  }

  /** A surrogate pair escape reads back as the one character it encodes. */
  lemma PairRoundTrip(c: char, tail: string)
    requires c as int >= 0x10000
    ensures Unescape(PairEscape(c) + tail) == Some((c, tail))
  {
    var u := c as int - 0x10000;
    var hi, lo := 0xD800 + u / 0x400, 0xDC00 + u % 0x400;
    var q1, q2 := Quad(hi), Quad(lo);
    var s := PairEscape(c) + tail;
    assert s == "u" + (q1 + ("\\u" + (q2 + tail)));
    assert s[1..] == q1 + ("\\u" + (q2 + tail));
    QuadRoundTrip(hi, "\\u" + (q2 + tail));
    assert s[5] == '\\' && s[6] == 'u';
    assert s[7..] == q2 + tail;
    QuadRoundTrip(lo, tail);
    assert s[11..] == tail;
    PairRead(s, hi, lo);
    assert 0x10000 + (hi - 0xD800) * 0x400 + (lo - 0xDC00) == c as int;
  }

  /** What `Unescape` makes of a high and a low surrogate escape in a row. */
  lemma PairRead(s: string, hi: nat, lo: nat)
    requires |s| >= 11 && s[0] == 'u' && HexQuad(s[1..]) && QuadValue(s[1..]) == hi && 0xD800 <= hi < 0xDC00
    requires s[5] == '\\' && s[6] == 'u' && HexQuad(s[7..]) && QuadValue(s[7..]) == lo && 0xDC00 <= lo < 0xE000
    ensures Unescape(s) == Some(((0x10000 + (hi - 0xD800) * 0x400 + (lo - 0xDC00)) as char, s[11..]))
  {
  }

  /** `\ud83d\ude00`, the escape other encoders write for U+1F600, reads as that one character. */
  lemma EmojiEscape()
    ensures Unescape("ud83d\\ude00") == Some(('\U{1F600}', []))
  {
    var c := '\U{1F600}';
    assert c as int - 0x10000 == 0xF600;
    assert 0xD800 + 0xF600 / 0x400 == 0xD83D && 0xDC00 + 0xF600 % 0x400 == 0xDE00;
    assert HexDigit(13) == 'd' && HexDigit(14) == 'e' && HexDigit(8) == '8' && HexDigit(3) == '3' && HexDigit(0) == '0';
    assert Quad(0xD83D) == "d83d";
    assert Quad(0xDE00) == "de00";
    assert PairEscape(c) == "ud83d\\ude00";
    PairRoundTrip(c, []);
    assert PairEscape(c) + [] == PairEscape(c);
  }

  lemma {:induction false} CharsRoundTrip(x: string, rest: string)
    ensures ParseChars(Escape(x) + "\"" + rest) == Some((x, rest))
  {
    if x != [] {
      var c := x[0];
      var tail := Escape(x[1..]) + "\"" + rest;
      var s := Escape(x) + "\"" + rest;
      assert s == EscapeChar(c) + tail;
      CharsRoundTrip(x[1..], rest);
      if EscapeChar(c) == [c] {
        assert s[1..] == tail;
      } else {
        assert s[1..] == EscapeChar(c)[1..] + tail;
        UnescapeRoundTrip(c, tail);
      }
      assert [c] + x[1..] == x;
    }
  }

  lemma SkipWsNone(s: string)
    requires s != [] && !IsWs(s[0])
    ensures SkipWs(s) == s
  {
  }

  /** The characters a value's text can start with. */
  predicate StartsValue(c: char) {
    c == 'n' || c == 't' || c == 'f' || c == '"' || c == '[' || c == '{' || c == '-' || IsDigit(c)
  }

  lemma StringifyStart(j: Json)
    ensures Stringify(j) != [] && StartsValue(Stringify(j)[0])
  {
    match j
    case JNum(d) =>
      var t := NatText(Whole(Magnitude(d), Pow10(d.scale)));
      var tail := if d.scale == 0 then "" else "." + PadDigits(Part(Magnitude(d), Pow10(d.scale)), d.scale);
      assert (t + tail)[0] == t[0];
      if d.digits >= 0 {
        assert Stringify(j) == t + tail;
      } else {
        assert Stringify(j)[0] == '-';
      }
    case JStr(x) =>
      assert Stringify(j)[0] == '"';
    case JArr(_) =>
      assert Stringify(j)[0] == '[';
    case JObj(_) =>
      assert Stringify(j)[0] == '{';
    case _ =>
  }

  lemma {:induction false} ValueRoundTrip(j: Json, rest: string)
    requires Delimited(rest)
    ensures ParseValue(Stringify(j) + rest) == Some((j, rest))
    decreases j, 4
  {
    match j
    case JNull => LiteralRoundTrip(j, rest);
    case JBool(_) => LiteralRoundTrip(j, rest);
    case JNum(d) => NumRoundTrip(d, rest);
    case JStr(x) => StrRoundTrip(x, rest);
    case JArr(items) => ArrRoundTrip(items, rest);
    case JObj(ms) => ObjRoundTrip(ms, rest);
  }

  /** After `[` comes the rest of an array, after `{` the rest of an object. */
  lemma ValueOfBracket(s: string)
    requires s != [] && (s[0] == '[' || s[0] == '{')
    ensures s[0] == '[' ==> ParseValue(s) == ParseArray(s[1..])
    ensures s[0] == '{' ==> ParseValue(s) == ParseObject(s[1..])
  {
    SkipWsNone(s);
  }

  lemma {:induction false} ArrRoundTrip(items: seq<Json>, rest: string)
    requires Delimited(rest)
    ensures ParseValue("[" + ItemsText(items) + "]" + rest) == Some((JArr(items), rest))
    decreases items, 3
  {
    var s := "[" + ItemsText(items) + "]" + rest;
    Opened("[", ItemsText(items), "]", rest);
    ValueOfBracket(s);
    ArrayRoundTrip(items, rest);
  }

  lemma {:induction false} ObjRoundTrip(ms: seq<Member>, rest: string)
    requires Delimited(rest)
    ensures ParseValue("{" + MembersText(ms) + "}" + rest) == Some((JObj(ms), rest))
    decreases ms, 5
  {
    var s := "{" + MembersText(ms) + "}" + rest;
    Opened("{", MembersText(ms), "}", rest);
    ValueOfBracket(s);
    ObjectRoundTrip(ms, rest);
  }

  lemma LiteralRoundTrip(j: Json, rest: string)
    requires j.JNull? || j.JBool?
    ensures ParseValue(Stringify(j) + rest) == Some((j, rest))
  {
    var s := Stringify(j) + rest;
    if j.JNull? {
      assert s[..4] == "null" && s[4..] == rest;
    } else if j.b {
      assert s[..4] == "true" && s[4..] == rest;
    } else {
      assert s[..5] == "false" && s[5..] == rest;
    }
  }

  lemma NumRoundTrip(d: Decimal, rest: string)
    requires Delimited(rest)
    ensures ParseValue(NumberText(d) + rest) == Some((JNum(d), rest))
  {
    var s := NumberText(d) + rest;
    StringifyStart(JNum(d));
    assert s[0] == NumberText(d)[0];
    SkipWsNone(s);
    NumberRoundTrip(d, rest);
  }

  lemma StrRoundTrip(x: string, rest: string)
    ensures ParseValue(Quote(x) + rest) == Some((JStr(x), rest))
  {
    var s := Quote(x) + rest;
    assert s == "\"" + (Escape(x) + "\"" + rest);
    SkipWsNone(s);
    CharsRoundTrip(x, rest);
  }

  lemma {:induction false} ArrayRoundTrip(items: seq<Json>, rest: string)
    requires Delimited(rest)
    ensures ParseArray(ItemsText(items) + "]" + rest) == Some((JArr(items), rest))
    decreases items, 2
  {
    var s := ItemsText(items) + "]" + rest;
    if items == [] {
      EmptyArray(rest);
    } else {
      var tail := ItemsTail(items, rest);
      StringifyStart(items[0]);
      assert s[0] == Stringify(items[0])[0];
      ElementsRoundTrip(items, rest);
      ArrayOfElements(s);
    }
  }

  /** An array body that starts with a value is read as its elements. */
  lemma ArrayOfElements(s: string)
    requires s != [] && StartsValue(s[0])
    ensures ParseElements(s).Some? ==> ParseArray(s) == Some((JArr(ParseElements(s).value.0), ParseElements(s).value.1))
  {
    SkipWsNone(s);
  }

  lemma EmptyArray(rest: string)
    ensures ParseArray(ItemsText([]) + "]" + rest) == Some((JArr([]), rest))
  {
    var s := ItemsText([]) + "]" + rest;
    assert s == "]" + rest;
    SkipWsNone(s);
    assert s[1..] == rest;
  }

  lemma EmptyObject(rest: string)
    ensures ParseObject(MembersText([]) + "}" + rest) == Some((JObj([]), rest))
  {
    var s := MembersText([]) + "}" + rest;
    assert s == "}" + rest;
    SkipWsNone(s);
    assert s[1..] == rest;
  }

  lemma ItemsTextStart(items: seq<Json>)
    requires items != []
    ensures Stringify(items[0]) <= ItemsText(items)
  {
  }

  lemma {:induction false} ObjectRoundTrip(ms: seq<Member>, rest: string)
    requires Delimited(rest)
    ensures ParseObject(MembersText(ms) + "}" + rest) == Some((JObj(ms), rest))
    decreases ms, 4
  {
    var s := MembersText(ms) + "}" + rest;
    if ms == [] {
      EmptyObject(rest);
    } else {
      var tail := MembersTail(ms, rest);
      assert s[0] == '"';
      MembersRoundTrip(ms, rest);
      ObjectOfMembers(s);
    }
  }

  /** An object body that starts with a key is read as its members. */
  lemma ObjectOfMembers(s: string)
    requires s != [] && s[0] == '"'
    ensures ParseMembers(s).Some? ==> ParseObject(s) == Some((JObj(ParseMembers(s).value.0), ParseMembers(s).value.1))
  {
    SkipWsNone(s);
  }

  /** After a value, `,` continues the list and `]` ends it. */
  lemma ElementsAfter(s: string, v: Json, tail: string)
    requires ParseValue(s) == Some((v, tail)) && tail != [] && (tail[0] == ',' || tail[0] == ']')
    ensures tail[0] == ']' ==> ParseElements(s) == Some(([v], tail[1..]))
    ensures tail[0] == ',' && ParseElements(tail[1..]).Some? ==>
      var (vs, u) := ParseElements(tail[1..]).value;
      ParseElements(s) == Some(([v] + vs, u))
  {
    SkipWsNone(tail);
  }

  lemma {:induction false} ElementsRoundTrip(items: seq<Json>, rest: string)
    requires items != [] && Delimited(rest)
    ensures ParseElements(ItemsText(items) + "]" + rest) == Some((items, rest))
    decreases items, 1
  {
    if |items| == 1 {
      LastElementRoundTrip(items, rest);
    } else {
      NextElementRoundTrip(items, rest);
    }
  }

  lemma {:induction false} LastElementRoundTrip(items: seq<Json>, rest: string)
    requires |items| == 1 && Delimited(rest)
    ensures ParseElements(ItemsText(items) + "]" + rest) == Some((items, rest))
    decreases items, 0
  {
    var s, tail := ItemsText(items) + "]" + rest, ItemsTail(items, rest);
    ValueRoundTrip(items[0], tail);
    ElementsAfter(s, items[0], tail);
    assert ParseElements(s) == Some(([items[0]], rest));
    assert [items[0]] == items;
  }

  lemma {:induction false} NextElementRoundTrip(items: seq<Json>, rest: string)
    requires |items| > 1 && Delimited(rest)
    ensures ParseElements(ItemsText(items) + "]" + rest) == Some((items, rest))
    decreases items, 0
  {
    var s, tail := ItemsText(items) + "]" + rest, ItemsTail(items, rest);
    ValueRoundTrip(items[0], tail);
    ElementsAfter(s, items[0], tail);
    ElementsRoundTrip(items[1..], rest);
    assert ParseElements(tail[1..]) == Some((items[1..], rest));
    assert ParseElements(s) == Some(([items[0]] + items[1..], rest));
    ConsTail(items);
  }

  lemma Assoc<T>(a: seq<T>, b: seq<T>, c: seq<T>)
    ensures a + b + c == a + (b + c)
  {
  }

  lemma Regroup<T>(a: seq<T>, b: seq<T>, c: seq<T>, d: seq<T>, e: seq<T>)
    ensures a + b + c + d + e == a + (b + (c + d + e))
  {
  }

  lemma MemberRegroup<T>(a: seq<T>, b: seq<T>, c: seq<T>, d: seq<T>, e: seq<T>, f: seq<T>, g: seq<T>, h: seq<T>)
    ensures a + b + c + d + e + f + g + h == a + (b + c + (d + (e + (f + g + h))))
  {
  }

  /** A written member list, followed by `}` and more text, regrouped around its first key and value. */
  lemma MemberSplit(m: string, key: string, value: string, more: string, rest: string)
    requires m == Quote(key) + ":" + value + more
    ensures m + "}" + rest == "\"" + (Escape(key) + "\"" + (":" + (value + (more + "}" + rest))))
  {
    MemberRegroup("\"", Escape(key), "\"", ":", value, more, "}", rest);
  }

  /** Dropping the opening bracket of a bracketed text. */
  lemma Opened(open: string, body: string, close: string, rest: string)
    requires |open| == 1
    ensures (open + body + close + rest)[1..] == body + close + rest
  {
  }

  lemma ConsTail<T>(xs: seq<T>)
    requires xs != []
    ensures [xs[0]] + xs[1..] == xs
  {
  }

  /** What follows the first element of a written array: `]` and the rest, or `,` and the other elements. */
  function ItemsTail(items: seq<Json>, rest: string): (tail: string)
    requires items != []
    ensures ItemsText(items) + "]" + rest == Stringify(items[0]) + tail
    ensures |items| == 1 ==> tail != [] && tail[0] == ']' && tail[1..] == rest
    ensures |items| > 1 ==> tail != [] && tail[0] == ',' && tail[1..] == ItemsText(items[1..]) + "]" + rest
  {
    var first := Stringify(items[0]);
    if |items| == 1 then
      assert ItemsText(items) == first;
      Assoc(first, "]", rest);
      "]" + rest
    else
      var more := ItemsText(items[1..]);
      assert ItemsText(items) == first + "," + more;
      Regroup(first, ",", more, "]", rest);
      "," + (more + "]" + rest)
  }

  lemma {:induction false} MembersRoundTrip(ms: seq<Member>, rest: string)
    requires ms != [] && Delimited(rest)
    ensures ParseMembers(MembersText(ms) + "}" + rest) == Some((ms, rest))
    decreases ms, 3
  {
    if |ms| == 1 {
      LastMemberRoundTrip(ms, rest);
    } else {
      NextMemberRoundTrip(ms, rest);
    }
  }

  /** What follows the first member's value in a written object: `}` and the rest, or `,` and the other members. */
  function MembersTail(ms: seq<Member>, rest: string): (tail: string)
    requires ms != []
    ensures MembersText(ms) + "}" + rest == "\"" + (Escape(ms[0].key) + "\"" + (":" + (Stringify(ms[0].value) + tail)))
    ensures |ms| == 1 ==> tail != [] && tail[0] == '}' && tail[1..] == rest
    ensures |ms| > 1 ==> tail != [] && tail[0] == ',' && tail[1..] == MembersText(ms[1..]) + "}" + rest
  {
    var key, v := ms[0].key, ms[0].value;
    if |ms| == 1 then
      assert MembersText(ms) == Quote(key) + ":" + Stringify(v) + "";
      MemberSplit(MembersText(ms), key, Stringify(v), "", rest);
      var tail := "}" + rest;
      assert "" + "}" + rest == tail && tail[1..] == rest;
      tail
    else
      var more := MembersText(ms[1..]);
      assert MembersText(ms) == Quote(key) + ":" + Stringify(v) + ("," + more);
      MemberSplit(MembersText(ms), key, Stringify(v), "," + more, rest);
      Assoc(",", more, "}" + rest);
      var tail := "," + (more + "}" + rest);
      assert "," + more + "}" + rest == tail && tail[1..] == more + "}" + rest;
      tail
  }

  /** The first member of a written object is read back, up to what follows its value. */
  lemma FirstMemberParsed(ms: seq<Member>, rest: string)
    requires ms != [] && Delimited(rest)
    ensures var s, tail := MembersText(ms) + "}" + rest, MembersTail(ms, rest);
      s != [] && s[0] == '"' && ParseChars(s[1..]) == Some((ms[0].key, ":" + (Stringify(ms[0].value) + tail)))
      && ParseValue(Stringify(ms[0].value) + tail) == Some((ms[0].value, tail))
    decreases ms, 1
  {
    var key, v, tail := ms[0].key, ms[0].value, MembersTail(ms, rest);
    var s := MembersText(ms) + "}" + rest;
    assert s[1..] == Escape(key) + "\"" + (":" + (Stringify(v) + tail));
    CharsRoundTrip(key, ":" + (Stringify(v) + tail));
    ValueRoundTrip(v, tail);
  }

  /** After a member's value, `,` continues the object and `}` ends it. */
  lemma MembersAfter(s: string, key: string, r1: string, v: Json, tail: string)
    requires s != [] && s[0] == '"' && ParseChars(s[1..]) == Some((key, r1))
    requires r1 != [] && r1[0] == ':' && ParseValue(r1[1..]) == Some((v, tail))
    requires tail != [] && (tail[0] == ',' || tail[0] == '}')
    ensures tail[0] == '}' ==> ParseMembers(s) == Some(([Member(key, v)], tail[1..]))
    ensures tail[0] == ',' && ParseMembers(tail[1..]).Some? ==>
      var (ms, u) := ParseMembers(tail[1..]).value;
      ParseMembers(s) == Some(([Member(key, v)] + ms, u))
  {
    SkipWsNone(s);
    SkipWsNone(r1);
    SkipWsNone(tail);
    assert SkipWs(s) == s && SkipWs(r1) == r1 && SkipWs(tail) == tail;
  }

  lemma {:induction false} LastMemberRoundTrip(ms: seq<Member>, rest: string)
    requires |ms| == 1 && Delimited(rest)
    ensures ParseMembers(MembersText(ms) + "}" + rest) == Some((ms, rest))
    decreases ms, 2
  {
    var s, tail := MembersText(ms) + "}" + rest, MembersTail(ms, rest);
    var r1 := ":" + (Stringify(ms[0].value) + tail);
    FirstMemberParsed(ms, rest);
    assert r1[1..] == Stringify(ms[0].value) + tail;
    MembersAfter(s, ms[0].key, r1, ms[0].value, tail);
    assert ParseMembers(s) == Some(([ms[0]], rest));
    assert [ms[0]] == ms;
  }

  lemma {:induction false} NextMemberRoundTrip(ms: seq<Member>, rest: string)
    requires |ms| > 1 && Delimited(rest)
    ensures ParseMembers(MembersText(ms) + "}" + rest) == Some((ms, rest))
    decreases ms, 2
  {
    var s, tail := MembersText(ms) + "}" + rest, MembersTail(ms, rest);
    var r1 := ":" + (Stringify(ms[0].value) + tail);
    FirstMemberParsed(ms, rest);
    assert r1[1..] == Stringify(ms[0].value) + tail;
    MembersAfter(s, ms[0].key, r1, ms[0].value, tail);
    MembersRoundTrip(ms[1..], rest);
    assert ParseMembers(tail[1..]) == Some((ms[1..], rest));
    assert ParseMembers(s) == Some(([ms[0]] + ms[1..], rest));
    ConsTail(ms);
  }

  /** What `JSON.stringify` writes, `JSON.parse` reads back as the same value. */
  lemma ParseStringify(j: Json)
    ensures Parse(Stringify(j)) == Some(j)
  {
    ValueRoundTrip(j, []);
    assert Stringify(j) + [] == Stringify(j);
  }
}

=== FILE: listing.dfy ===
/**
 * The list queries: `SELECT * FROM t WHERE 1=1 [AND ...] [ORDER BY ...]`,
 * built from whichever query-string filters are given.
 */
module Listing {
  import opened Wrappers
  import opened Strings
  import opened Db

  /** The query string, `req.query`; a parameter it lacks is `undefined`. */
  type Query = map<string, string>

  /** A condition the route appends to the WHERE clause. */
  datatype Filter =
    | Equals(column: string, value: Cell)   // `column = @param`
    | Like(columns: seq<string>, needle: string)   // `(c1 LIKE @search OR c2 LIKE @search ...)` with `%needle%`

  /** Whether a row satisfies one condition; NULL satisfies neither an equality nor a LIKE. */
  predicate Holds(f: Filter, row: Row) {
    match f
    case Equals(column, value) => value != Null && Field(row, column) == value
    case Like(columns, needle) =>
      exists i :: 0 <= i < |columns| && Field(row, columns[i]).Text? && Contains(Field(row, columns[i]).s, needle)
  }

  predicate MatchesAll(filters: seq<Filter>, row: Row) {
    forall i :: 0 <= i < |filters| ==> Holds(filters[i], row)
  }

  /** The keys of the rows the WHERE clause keeps. */
  function Matching(table: Table, filters: seq<Filter>): (ids: set<string>)
    ensures ids <= table.Keys
    ensures forall k :: k in ids <==> k in table && MatchesAll(filters, table[k])
  {
    set k | k in table && MatchesAll(filters, table[k])
  }

  /** `if (param) { query += ' AND column = @param' }`: an equality filter when the parameter is a non-empty string. */
  function EqualsIfGiven(query: Query, param: string, column: string): (fs: seq<Filter>)
    ensures param in query && query[param] != "" ==> fs == [Equals(column, Text(query[param]))]
    ensures !(param in query && query[param] != "") ==> fs == []
  {
    if param in query && query[param] != "" then [Equals(column, Text(query[param]))] else []
  }

  /** `if (search) { query += ' AND (c1 LIKE @search OR ...)' }` */
  function SearchIfGiven(query: Query, columns: seq<string>): (fs: seq<Filter>)
    ensures "search" in query && query["search"] != "" ==> fs == [Like(columns, query["search"])]
    ensures !("search" in query && query["search"] != "") ==> fs == []
  {
    if "search" in query && query["search"] != "" then [Like(columns, query["search"])] else []
  }

  /** The ORDER BY clause, if any. */
  datatype Order =
    | Descending(column: string)   // a DATETIME column, newest first, NULL last
    | Ascending(column: string)    // an NVARCHAR column, NULL first
    | Unordered

  /** Whether `a` may be listed before `b`. */
  predicate Precedes(order: Order, a: Row, b: Row) {
    match order
    case Descending(c) =>
      !Field(b, c).Time? || (Field(a, c).Time? && Field(a, c).t >= Field(b, c).t)
    case Ascending(c) =>
      !Field(a, c).Text? || (Field(b, c).Text? && LexLe(Field(a, c).s, Field(b, c).s))
    case Unordered => true
  }

  lemma PrecedesTotal(order: Order, a: Row, b: Row)
    ensures Precedes(order, a, b) || Precedes(order, b, a)
  {
    if order.Ascending? && Field(a, order.column).Text? && Field(b, order.column).Text? {
      LexTotal(Field(a, order.column).s, Field(b, order.column).s);
    }
  }

  lemma PrecedesTrans(order: Order, a: Row, b: Row, c: Row)
    requires Precedes(order, a, b) && Precedes(order, b, c)
    ensures Precedes(order, a, c)
  {
    if order.Ascending? && Field(a, order.column).Text? {
      LexTrans(Field(a, order.column).s, Field(b, order.column).s, Field(c, order.column).s);
    }
  }

  /** Listed in an order the ORDER BY allows. */
  predicate Sorted(order: Order, table: Table, ids: seq<string>)
    requires forall i :: 0 <= i < |ids| ==> ids[i] in table
  {
    forall i, j :: 0 <= i < j < |ids| ==> Precedes(order, table[ids[i]], table[ids[j]])
  }

  predicate Distinct(ids: seq<string>) {
    forall i, j :: 0 <= i < j < |ids| ==> ids[i] != ids[j]
  }

  /** The result of the query: each matching row exactly once, in an order the ORDER BY allows. */
  predicate Lists(table: Table, filters: seq<Filter>, order: Order, ids: seq<string>) {
    && Distinct(ids)
    && (forall i :: 0 <= i < |ids| ==> ids[i] in Matching(table, filters))
    && (forall k :: k in Matching(table, filters) ==> k in ids)
    && Sorted(order, table, ids)
  }

  /** Every non-empty set of rows has one that may come first. */
  lemma {:induction false} HasFirst(order: Order, table: Table, s: set<string>)
    requires s != {} && s <= table.Keys
    ensures exists k :: k in s && forall p :: p in s ==> Precedes(order, table[k], table[p])
    decreases |s|
  {
    var x :| x in s;
    if s == {x} {
      PrecedesTotal(order, table[x], table[x]);
      assert forall p :: p in s ==> p == x;
    } else {
      var rest := s - {x};
      HasFirst(order, table, rest);
      var m :| m in rest && forall p :: p in rest ==> Precedes(order, table[m], table[p]);
      PrecedesTotal(order, table[m], table[x]);
      if !Precedes(order, table[m], table[x]) {
        forall p | p in s ensures Precedes(order, table[x], table[p]) {
          if p == x {
            PrecedesTotal(order, table[x], table[x]);
          } else {
            PrecedesTrans(order, table[x], table[m], table[p]);
          }
        }
      } else {
        assert forall p :: p in s ==> p == x || p in rest;
      }
    }
  }

  /** What the query has listed so far: `ids` in order, the rest of the matching rows still `pending`, none before a listed one. */
  predicate Progress(table: Table, filters: seq<Filter>, order: Order, ids: seq<string>, pending: set<string>) {
    && pending <= Matching(table, filters)
    && (forall i :: 0 <= i < |ids| ==> ids[i] in Matching(table, filters) && ids[i] !in pending)
    && (forall k :: k in Matching(table, filters) ==> k in pending || k in ids)
    && Distinct(ids)
    && Sorted(order, table, ids)
    && (forall i, p :: 0 <= i < |ids| && p in pending ==> Precedes(order, table[ids[i]], table[p]))
  }

  /** Listing a pending row that may come first keeps the listing in progress. */
  lemma TakeFirst(table: Table, filters: seq<Filter>, order: Order, ids: seq<string>, pending: set<string>, k: string)
    requires Progress(table, filters, order, ids, pending)
    requires k in pending && forall p :: p in pending ==> Precedes(order, table[k], table[p])
    ensures Progress(table, filters, order, ids + [k], pending - {k})
  {
    var next := ids + [k];
    assert forall i :: 0 <= i < |ids| ==> next[i] == ids[i];
    assert next[|ids|] == k;
  }

  /** Runs the query: repeatedly takes a matching row that may come first among those left. */
  method Select(table: Table, filters: seq<Filter>, order: Order) returns (ids: seq<string>)
    ensures forall i :: 0 <= i < |ids| ==> ids[i] in table
    ensures Lists(table, filters, order, ids)
  {
    var pending := Matching(table, filters);
    ids := [];
    while pending != {}
      invariant Progress(table, filters, order, ids, pending)
      decreases |pending|
    {
      HasFirst(order, table, pending);
      var k :| k in pending && forall p :: p in pending ==> Precedes(order, table[k], table[p]);
      TakeFirst(table, filters, order, ids, pending, k);
      ids := ids + [k];
      pending := pending - {k};
    }
  }
}

=== FILE: store.dfy ===
/**
 * The SQL Server database the routes talk to, as eight tables of rows keyed by
 * id, together with the constraints the schema declares (NOT NULL, CHECK,
 * UNIQUE, FOREIGN KEY with or without ON DELETE CASCADE). Every statement
 * either leaves all constraints satisfied or fails and changes nothing, which
 * the routes report as a 500.
 */
module Db {

  /** A bcrypt digest, kept symbolic: the password it was computed from. */
  datatype Digest = Bcrypt(of: string)

  /** One column value of a row. */
  datatype Cell = Null | Text(s: string) | Num(r: real) | Bit(b: bool) | Time(t: int) | Hashed(d: Digest)

  /** Column name to value. */
  type Row = map<string, Cell>

  /** Primary key to row. */
  type Table = map<string, Row>

  datatype TableName =
    | Users | Companies | JobPosts | JobOpportunities
    | Employees | Memorandums | Recognitions | Emprendimientos

  /** NVARCHAR, the NVARCHAR column holding password hashes, FLOAT, BIT, DATETIME. */
  datatype Kind = TextKind | SecretKind | FloatKind | BitKind | DateKind

  /** What an INSERT puts in a column it does not name. */
  datatype Default = NoDefault | Constant(c: Cell) | CurrentTime

  /** A column: its type, NOT NULL, the values a CHECK admits (empty when there is no CHECK) and its DEFAULT. */
  datatype Column = Column(name: string, kind: Kind, required: bool, allowed: seq<string>, default: Default)

  function Req(name: string): Column { Column(name, TextKind, true, [], NoDefault) }
  function Opt(name: string): Column { Column(name, TextKind, false, [], NoDefault) }
  function OneOf(name: string, allowed: seq<string>): Column { Column(name, TextKind, true, allowed, NoDefault) }
  function Stamp(name: string): Column { Column(name, DateKind, false, [], CurrentTime) }

  /** The columns of each table, as the schema script creates them. */
  function Columns(t: TableName): seq<Column> {
    match t
    case Users =>
      [Req("id"), OneOf("role", ["seeker", "serviceSeeker", "employer"]), Req("name"), Req("email"),
       Column("password", SecretKind, true, [], NoDefault),
       Opt("phoneIntl"), Opt("city"), Opt("career"), Opt("specialty"), Opt("summary"),
       Opt("languages"), Opt("certificates"), Opt("skills"), Opt("experiences"), Opt("serviceCategories"),
       Column("isProfilePublic", BitKind, false, [], Constant(Bit(true))),
       Opt("previousWorks"), Opt("reviews"), Column("rating", FloatKind, false, [], NoDefault),
       Opt("companyName"), Opt("taxId"),
       Column("isEmployerVerified", BitKind, false, [], Constant(Bit(false))),
       Stamp("createdAt"), Stamp("updatedAt")]
    case Companies =>
      [Req("id"), Req("name"), Opt("region"), Opt("department"), Opt("city"), Opt("address"),
       Opt("sector"), Opt("phone"), Opt("email"), Opt("website"), Opt("description"),
       Opt("employeeCount"), Opt("foundedYear"), Stamp("createdAt"), Stamp("updatedAt")]
    case JobPosts =>
      [Req("id"), Req("title"), Req("description"), Req("city"), Req("employerId"),
       OneOf("type", ["fullTime", "partTime"]), OneOf("modality", ["onsite", "remote", "hybrid"]),
       Opt("requirements"), Opt("obligations"), Stamp("createdAt"), Stamp("updatedAt")]
    case JobOpportunities =>
      [Req("id"), Req("department"), Req("sector"), Req("companyName"), Opt("position"), Opt("city"),
       Opt("address"), Opt("phone"), Opt("email"), Opt("website"), Opt("description"),
       Opt("requirements"), Opt("salary"), Opt("schedule"), Opt("contractType"), Opt("benefits"),
       Opt("experience"), Opt("contactPerson"), Opt("additionalData"), Stamp("createdAt"), Stamp("updatedAt")]
    case Employees =>
      [Req("id"), Req("name"), Req("position"), Req("email"), Opt("phone"),
       Column("hireDate", DateKind, true, [], NoDefault), Req("department"),
       Column("salary", FloatKind, true, [], NoDefault),
       Column("status", TextKind, false, ["active", "inactive", "suspended"], Constant(Text("active"))),
       Opt("photoUrl"), Opt("address"), Stamp("createdAt"), Stamp("updatedAt")]
    case Memorandums =>
      [Req("id"), Req("employeeId"), Req("title"), Req("description"),
       Column("date", DateKind, true, [], NoDefault), OneOf("severity", ["leve", "grave", "muy_grave"]),
       Req("issuedBy"), Stamp("createdAt")]
    case Recognitions =>
      [Req("id"), Req("employeeId"), Req("title"), Req("description"),
       Column("date", DateKind, true, [], NoDefault), Req("type"), Req("issuedBy"), Stamp("createdAt")]
    case Emprendimientos =>
      [Req("id"), Req("name"), Opt("description"), Opt("products"), Opt("phone"), Opt("ownerId"),
       Opt("image1Url"), Opt("image2Url"), Stamp("createdAt"), Stamp("updatedAt")]
  }

  function Names(cols: seq<Column>): set<string> {
    set c | c in cols :: c.name
  }

  /** A value the column accepts: NULL only where the column is nullable (a CHECK lets NULL through), otherwise of the column's type and among the CHECK's values. */
  predicate Fits(v: Cell, col: Column) {
    match v
    case Null => !col.required
    case Text(s) => col.kind == TextKind && (col.allowed == [] || s in col.allowed)
    case Hashed(_) => col.kind == SecretKind
    case Num(_) => col.kind == FloatKind
    case Bit(_) => col.kind == BitKind
    case Time(_) => col.kind == DateKind
  }

  function DefaultCell(col: Column, now: int): Cell {
    match col.default
    case NoDefault => Null
    case Constant(c) => c
    case CurrentTime => Time(now)
  }

  /** The row an INSERT naming no column would start from. */
  function DefaultRow(cols: seq<Column>, now: int): (row: Row)
    ensures row.Keys == Names(cols)
  {
    if cols == [] then map[]
    else
      var last := cols[|cols| - 1];
      assert cols == cols[..|cols| - 1] + [last];
      DefaultRow(cols[..|cols| - 1], now)[last.name := DefaultCell(last, now)]
  }

  /** A row holding exactly the table's columns, its own key in `id`, and only values its columns accept. */
  predicate RowOk(t: TableName, id: string, row: Row) {
    RowFits(Columns(t), id, row)
  }

  predicate RowFits(cols: seq<Column>, id: string, row: Row) {
    && row.Keys == Names(cols)
    && "id" in row && row["id"] == Text(id)
    && forall c :: c in cols ==> c.name in row && Fits(row[c.name], c)
  }

  predicate TableOk(t: TableName, table: Table) {
    forall id :: id in table ==> RowOk(t, id, table[id])
  }

  /** The value of a column, NULL when the row has no such column. */
  function Field(row: Row, column: string): Cell {
    if column in row then row[column] else Null
  }

  /** The table's rows, none when the map lacks the table. */
  function Get(tables: map<TableName, Table>, t: TableName): Table {
    if t in tables then tables[t] else map[]
  }

  /** No two users share an email (UNIQUE on Users.email). */
  predicate UniqueEmails(users: Table) {
    forall a, b :: a in users && b in users && a != b ==> Field(users[a], "email") != Field(users[b], "email")
  }

  /** A FOREIGN KEY: each non-NULL value of `column` in `child` is a key of `parent`. */
  predicate References(child: Table, column: string, parent: Table) {
    forall id :: id in child ==> Refers(Field(child[id], column), parent)
  }

  predicate Refers(v: Cell, parent: Table) {
    v.Null? || (v.Text? && v.s in parent)
  }

  /** Every constraint of the schema holds. */
  predicate Consistent(tables: map<TableName, Table>) {
    && (forall t {:trigger TableOk(t, Get(tables, t))} :: TableOk(t, Get(tables, t)))
    && UniqueEmails(Get(tables, Users))
    && References(Get(tables, JobPosts), "employerId", Get(tables, Users))
    && References(Get(tables, Emprendimientos), "ownerId", Get(tables, Users))
    && References(Get(tables, Memorandums), "employeeId", Get(tables, Employees))
    && References(Get(tables, Recognitions), "employeeId", Get(tables, Employees))
  }

  /** The state an INSERT of `given` under key `id` asks for: unnamed columns take their defaults. */
  function Inserted(tables: map<TableName, Table>, t: TableName, id: string, given: Row, now: int): map<TableName, Table> {
    tables[t := Get(tables, t)[id := (DefaultRow(Columns(t), now) + given)["id" := Text(id)]]]
  }

  /** The state an `UPDATE ... WHERE id = @id` asks for: the row, if any, with `assigns` written over it. */
  function Updated(tables: map<TableName, Table>, t: TableName, id: string, assigns: Row): map<TableName, Table> {
    var table := Get(tables, t);
    if id in table then tables[t := table[id := table[id] + assigns]] else tables
  }

  /** The rows of `table` whose `column` is not `Text(id)`. */
  function Unlinked(table: Table, column: string, id: string): (r: Table)
    ensures r.Keys <= table.Keys
    ensures forall k :: k in r ==> r[k] == table[k]
    ensures forall k :: k in table ==> (k in r <==> Field(table[k], column) != Text(id))
  {
    map k | k in table && Field(table[k], column) != Text(id) :: table[k]
  }

  /** The state a `DELETE ... WHERE id = @id` asks for; removing an employee cascades to its memorandums and recognitions. */
  function Deleted(tables: map<TableName, Table>, t: TableName, id: string): map<TableName, Table> {
    var without := tables[t := Get(tables, t) - {id}];
    if t == Employees then
      without[Memorandums := Unlinked(Get(tables, Memorandums), "employeeId", id)]
             [Recognitions := Unlinked(Get(tables, Recognitions), "employeeId", id)]
    else without
  }

  /** The database, one map of rows per table. */
  class Store {
    var tables: map<TableName, Table>

    ghost predicate Valid()
      reads this
    {
      Consistent(tables)
    }

    function Rows(t: TableName): Table
      reads this
    {
      Get(tables, t)
    }

    constructor ()
      ensures Valid()
      ensures forall t :: Rows(t) == map[]
    {
      tables := map[];
    }

    /** Applies a statement's result if it satisfies every constraint; otherwise fails and leaves the data as it was. */
    method Commit(next: map<TableName, Table>) returns (ok: bool)
      modifies this
      ensures old(Valid()) ==> Valid()
      ensures ok <==> Consistent(next)
      ensures ok ==> tables == next
      ensures !ok ==> tables == old(tables)
    {
      ok := (forall t :: TableOk(t, Get(next, t)))
        && UniqueEmails(Get(next, Users))
        && References(Get(next, JobPosts), "employerId", Get(next, Users))
        && References(Get(next, Emprendimientos), "ownerId", Get(next, Users))
        && References(Get(next, Memorandums), "employeeId", Get(next, Employees))
        && References(Get(next, Recognitions), "employeeId", Get(next, Employees));
      if ok {
        tables := next;
      }
    }

    /** `INSERT INTO t (...) VALUES (...)`: fails on a taken key or a violated constraint. */
    method Insert(t: TableName, id: string, given: Row, now: int) returns (ok: bool)
      modifies this
      ensures old(Valid()) ==> Valid()
      ensures ok <==> id !in old(Rows(t)) && Consistent(Inserted(old(tables), t, id, given, now))
      ensures ok ==> tables == Inserted(old(tables), t, id, given, now)
      ensures !ok ==> tables == old(tables)
    {
      if id in Rows(t) {
        return false;
      }
      ok := Commit(Inserted(tables, t, id, given, now));
    }

    /** `UPDATE t SET ... WHERE id = @id`: no matching row is no change and no error. */
    method Update(t: TableName, id: string, assigns: Row) returns (ok: bool)
      modifies this
      ensures old(Valid()) ==> Valid()
      ensures ok <==> Consistent(Updated(old(tables), t, id, assigns))
      ensures ok ==> tables == Updated(old(tables), t, id, assigns)
      ensures !ok ==> tables == old(tables)
    {
      ok := Commit(Updated(tables, t, id, assigns));
    }

    /** `DELETE FROM t WHERE id = @id`: fails when another table still refers to the row. */
    method Delete(t: TableName, id: string) returns (ok: bool)
      modifies this
      ensures old(Valid()) ==> Valid()
      ensures ok <==> Consistent(Deleted(old(tables), t, id))
      ensures ok ==> tables == Deleted(old(tables), t, id)
      ensures !ok ==> tables == old(tables)
    {
      ok := Commit(Deleted(tables, t, id));
    }
  }

  /** An update leaves the table's other rows, and every other table, as they were, and writes exactly the assigned columns. */
  lemma UpdateTouchesOneRow(tables: map<TableName, Table>, t: TableName, id: string, assigns: Row)
    requires id in Get(tables, t)
    ensures var after := Updated(tables, t, id, assigns);
      && (forall u :: u != t ==> Get(after, u) == Get(tables, u))
      && Get(after, t).Keys == Get(tables, t).Keys
      && (forall k :: k in Get(tables, t) && k != id ==> Get(after, t)[k] == Get(tables, t)[k])
      && (forall c :: c in assigns ==> Get(after, t)[id][c] == assigns[c])
      && (forall c :: c in Get(tables, t)[id] && c !in assigns ==> Get(after, t)[id][c] == Get(tables, t)[id][c])
  {
  }

  /** A table keeping only some of another's rows, unchanged. */
  predicate Within(smaller: Table, larger: Table) {
    smaller.Keys <= larger.Keys && forall k :: k in smaller ==> smaller[k] == larger[k]
  }

  lemma WithinOk(t: TableName, smaller: Table, larger: Table)
    requires TableOk(t, larger) && Within(smaller, larger)
    ensures TableOk(t, smaller)
  {
  }

  /** A deletion only ever removes rows. */
  lemma DeletedWithin(tables: map<TableName, Table>, t: TableName, id: string)
    ensures forall u :: Within(Get(Deleted(tables, t, id), u), Get(tables, u))
  {
  }

  /** Removing rows never breaks a NOT NULL or CHECK constraint. */
  lemma DeleteKeepsRowsOk(tables: map<TableName, Table>, t: TableName, id: string)
    requires forall u :: TableOk(u, Get(tables, u))
    ensures forall u :: TableOk(u, Get(Deleted(tables, t, id), u))
  {
    DeletedWithin(tables, t, id);
    forall u ensures TableOk(u, Get(Deleted(tables, t, id), u)) {
      WithinOk(u, Get(Deleted(tables, t, id), u), Get(tables, u));
    }
  }

  /**
   * Deleting an employee whose memorandums and recognitions are its only
   * dependants always succeeds: the cascade takes exactly those rows away and
   * every other constraint still holds.
   */
  lemma EmployeeDeleteSucceeds(tables: map<TableName, Table>, id: string)
    requires Consistent(tables)
    ensures Consistent(Deleted(tables, Employees, id))
  {
    var after := Deleted(tables, Employees, id);
    DeleteKeepsRowsOk(tables, Employees, id);
    EmployeeDeleted(tables, id);
    CascadeRefers(Get(tables, Memorandums), Get(tables, Employees), id);
    CascadeRefers(Get(tables, Recognitions), Get(tables, Employees), id);
  }

  /** Rows of a table no foreign key points at can always be deleted. */
  lemma UnreferencedDeleteSucceeds(tables: map<TableName, Table>, t: TableName, id: string)
    requires Consistent(tables)
    requires t != Users && t != Employees
    ensures Consistent(Deleted(tables, t, id))
  {
    var after := Deleted(tables, t, id);
    DeleteKeepsRowsOk(tables, t, id);
    assert Get(after, Users) == Get(tables, Users);
    assert Get(after, Employees) == Get(tables, Employees);
    DeletedWithin(tables, t, id);
    EmailsKept(Get(tables, Users), Get(after, Users));
    ReferencesKept(Get(tables, JobPosts), Get(after, JobPosts), "employerId", Get(tables, Users), Get(after, Users));
    ReferencesKept(Get(tables, Emprendimientos), Get(after, Emprendimientos), "ownerId", Get(tables, Users), Get(after, Users));
    ReferencesKept(Get(tables, Memorandums), Get(after, Memorandums), "employeeId", Get(tables, Employees), Get(after, Employees));
    ReferencesKept(Get(tables, Recognitions), Get(after, Recognitions), "employeeId", Get(tables, Employees), Get(after, Employees));
  }

  /** An INSERT adds one row and changes nothing else. */
  lemma InsertAddsOneRow(tables: map<TableName, Table>, t: TableName, id: string, given: Row, now: int)
    ensures var after := Inserted(tables, t, id, given, now);
      && Get(after, t).Keys == Get(tables, t).Keys + {id}
      && (forall k :: k in Get(tables, t) && k != id ==> Get(after, t)[k] == Get(tables, t)[k])
      && (forall u :: u != t ==> Get(after, u) == Get(tables, u))
  {
    RowPut(tables, t, id, (DefaultRow(Columns(t), now) + given)["id" := Text(id)]);
  }

  /** Putting a row under a key adds that key to one table and changes nothing else. */
  lemma RowPut(tables: map<TableName, Table>, t: TableName, id: string, row: Row)
    ensures var after := tables[t := Get(tables, t)[id := row]];
      && Get(after, t).Keys == Get(tables, t).Keys + {id}
      && (forall k :: k in Get(tables, t) && k != id ==> Get(after, t)[k] == Get(tables, t)[k])
      && (forall u :: u != t ==> Get(after, u) == Get(tables, u))
  {
  }

  /** A row inserted with a key that names no parent row breaks that FOREIGN KEY. */
  lemma DanglingInsert(tables: map<TableName, Table>, t: TableName, id: string, given: Row, now: int,
                       column: string, parent: TableName)
    requires t != parent && column != "id" && column in given
    requires given[column].Text? && given[column].s !in Get(tables, parent)
    ensures var after := Inserted(tables, t, id, given, now);
      !References(Get(after, t), column, Get(after, parent))
  {
    var after := Inserted(tables, t, id, given, now);
    InsertedRow(tables, t, id, given, now);
    InsertAddsOneRow(tables, t, id, given, now);
    assert Get(after, parent) == Get(tables, parent);
    assert !Refers(Field(Get(after, t)[id], column), Get(after, parent));
  }

  /** The inserted row holds the given values over the defaults, and its own key. */
  lemma InsertedRow(tables: map<TableName, Table>, t: TableName, id: string, given: Row, now: int)
    ensures var after := Inserted(tables, t, id, given, now);
      && id in Get(after, t)
      && (forall c :: c in given && c != "id" ==> Field(Get(after, t)[id], c) == given[c])
      && Field(Get(after, t)[id], "id") == Text(id)
  {
  }

  /** The columns of Users that must hold text. */
  lemma UsersRequire()
    ensures Req("id") in Columns(Users) && Req("name") in Columns(Users) && Req("email") in Columns(Users)
  {
    assert Columns(Users)[0] == Req("id");
    assert Columns(Users)[2] == Req("name");
    assert Columns(Users)[3] == Req("email");
  }

  /** Users.password holds digests and Users.updatedAt holds times. */
  lemma UsersTakeDigestAndTime(i: int)
    requires 0 <= i < |Columns(Users)|
    ensures Columns(Users)[i].name == "password" ==> Columns(Users)[i].kind == SecretKind
    ensures Columns(Users)[i].name == "updatedAt" ==> Columns(Users)[i].kind == DateKind
  {
  }

  lemma NamedColumn(cols: seq<Column>, i: int, name: string)
    requires 0 <= i < |cols| && cols[i].name == name
    ensures name in Names(cols)
  {
    assert cols[i] in cols;
  }

  lemma UsersHaveDigestAndTime()
    ensures "password" in Names(Columns(Users)) && "updatedAt" in Names(Columns(Users))
  {
    NamedColumn(Columns(Users), 4, "password");
    NamedColumn(Columns(Users), 23, "updatedAt");
  }

  /** Overwriting existing columns of a row with values those columns accept keeps the row well-formed. */
  lemma AssignsKeepRowFits(cols: seq<Column>, id: string, row: Row, assigns: Row)
    requires RowFits(cols, id, row)
    requires assigns.Keys <= row.Keys && "id" !in assigns
    requires forall i :: 0 <= i < |cols| && cols[i].name in assigns ==> Fits(assigns[cols[i].name], cols[i])
    ensures RowFits(cols, id, row + assigns)
  {
    forall c | c in cols ensures c.name in row + assigns && Fits((row + assigns)[c.name], c) {
      var i :| 0 <= i < |cols| && cols[i] == c;
    }
  }

  /** Columns holding a password digest and an update time. */
  predicate DigestAndTimeColumns(cols: seq<Column>) {
    && "password" in Names(cols) && "updatedAt" in Names(cols)
    && (forall i :: 0 <= i < |cols| && cols[i].name == "password" ==> cols[i].kind == SecretKind)
    && (forall i :: 0 <= i < |cols| && cols[i].name == "updatedAt" ==> cols[i].kind == DateKind)
  }

  lemma UsersDigestAndTime()
    ensures DigestAndTimeColumns(Columns(Users))
  {
    UsersHaveDigestAndTime();
    forall i | 0 <= i < |Columns(Users)| {
      UsersTakeDigestAndTime(i);
    }
  }

  /** The assignments of a password change: a digest and a time. */
  predicate DigestAndTime(assigns: Row) {
    assigns.Keys == {"password", "updatedAt"} && assigns["password"].Hashed? && assigns["updatedAt"].Time?
  }

  /** A row with a new password digest and update time still fits its columns. */
  lemma NewDigestRowFits(cols: seq<Column>, id: string, row: Row, assigns: Row)
    requires DigestAndTimeColumns(cols) && RowFits(cols, id, row) && DigestAndTime(assigns)
    ensures RowFits(cols, id, row + assigns)
  {
    AssignsKeepRowFits(cols, id, row, assigns);
  }

  /** A user row with a new password digest and update time still fits the Users columns. */
  lemma DigestRowOk(id: string, row: Row, assigns: Row)
    requires RowOk(Users, id, row) && DigestAndTime(assigns)
    ensures RowOk(Users, id, row + assigns)
  {
    UsersDigestAndTime();
    NewDigestRowFits(Columns(Users), id, row, assigns);
  }

  /**
   * An update of one row that keeps it well-formed and leaves its key, its
   * email and its references alone keeps every constraint.
   */
  lemma UpdateConsistent(tables: map<TableName, Table>, t: TableName, id: string, assigns: Row)
    requires Consistent(tables) && id in Get(tables, t)
    requires "email" !in assigns && "employerId" !in assigns && "ownerId" !in assigns && "employeeId" !in assigns
    requires RowOk(t, id, Get(tables, t)[id] + assigns)
    ensures Consistent(Updated(tables, t, id, assigns))
  {
    var after := Updated(tables, t, id, assigns);
    UpdateKeepsTablesOk(tables, t, id, assigns);
    SameColumn(tables, t, id, assigns, "email");
    EmailsKept(Get(tables, Users), Get(after, Users));
    SameColumn(tables, t, id, assigns, "employerId");
    ReferencesKept(Get(tables, JobPosts), Get(after, JobPosts), "employerId", Get(tables, Users), Get(after, Users));
    SameColumn(tables, t, id, assigns, "ownerId");
    ReferencesKept(Get(tables, Emprendimientos), Get(after, Emprendimientos), "ownerId", Get(tables, Users), Get(after, Users));
    SameColumn(tables, t, id, assigns, "employeeId");
    ReferencesKept(Get(tables, Memorandums), Get(after, Memorandums), "employeeId", Get(tables, Employees), Get(after, Employees));
    ReferencesKept(Get(tables, Recognitions), Get(after, Recognitions), "employeeId", Get(tables, Employees), Get(after, Employees));
  }

  /** Rows whose emails are those of distinct old rows keep the emails distinct. */
  lemma EmailsKept(users: Table, users': Table)
    requires UniqueEmails(users)
    requires forall k :: k in users' ==> k in users && Field(users'[k], "email") == Field(users[k], "email")
    ensures UniqueEmails(users')
  {
  }

  /** A FOREIGN KEY holds on as long as no referencing value changes and no parent key goes. */
  lemma ReferencesKept(child: Table, child': Table, column: string, parent: Table, parent': Table)
    requires References(child, column, parent) && parent.Keys <= parent'.Keys
    requires forall k :: k in child' ==> k in child && Field(child'[k], column) == Field(child[k], column)
    ensures References(child', column, parent')
  {
  }

  /** Replacing one row of a well-formed table by a well-formed row keeps the table well-formed. */
  lemma RowReplacedOk(t: TableName, table: Table, id: string, row: Row)
    requires TableOk(t, table) && RowOk(t, id, row)
    ensures TableOk(t, table[id := row])
  {
  }

  /** An update that keeps its row well-formed keeps every table well-formed. */
  lemma UpdateKeepsTablesOk(tables: map<TableName, Table>, t: TableName, id: string, assigns: Row)
    requires forall u :: TableOk(u, Get(tables, u))
    requires id in Get(tables, t) && RowOk(t, id, Get(tables, t)[id] + assigns)
    ensures forall u :: TableOk(u, Get(Updated(tables, t, id, assigns), u))
  {
    var table := Get(tables, t)[id := Get(tables, t)[id] + assigns];
    RowReplacedOk(t, Get(tables, t), id, Get(tables, t)[id] + assigns);
    UpdatedTables(tables, t, id, assigns);
    OneTableReplaced(tables, Updated(tables, t, id, assigns), t, table);
  }

  /** An update replaces one table by that table with one row changed. */
  lemma UpdatedTables(tables: map<TableName, Table>, t: TableName, id: string, assigns: Row)
    requires id in Get(tables, t)
    ensures forall u :: (Get(Updated(tables, t, id, assigns), u)
      == if u == t then Get(tables, t)[id := Get(tables, t)[id] + assigns] else Get(tables, u))
  {
  }

  /** Replacing one table by a well-formed one keeps every table well-formed. */
  lemma OneTableReplaced(tables: map<TableName, Table>, after: map<TableName, Table>, t: TableName, table: Table)
    requires forall u :: TableOk(u, Get(tables, u))
    requires TableOk(t, table)
    requires forall u :: Get(after, u) == if u == t then table else Get(tables, u)
    ensures forall u :: TableOk(u, Get(after, u))
  {
    forall u ensures TableOk(u, Get(after, u)) {
      if u == t {
        assert Get(after, u) == table;
      } else {
        assert Get(after, u) == Get(tables, u);
      }
    }
  }

  /** An update leaves every column it does not assign as it was, in every table. */
  lemma SameColumn(tables: map<TableName, Table>, t: TableName, id: string, assigns: Row, column: string)
    requires id in Get(tables, t) && column !in assigns
    ensures var after := Updated(tables, t, id, assigns);
      && (forall u :: Get(after, u).Keys == Get(tables, u).Keys)
      && (forall u, k :: k in Get(after, u) ==> k in Get(tables, u) && Field(Get(after, u)[k], column) == Field(Get(tables, u)[k], column))
  {
  }

  /** A password change assigns no key, email or reference. */
  lemma DigestAndTimeOnly(assigns: Row)
    requires DigestAndTime(assigns)
    ensures "id" !in assigns && "email" !in assigns && "employerId" !in assigns && "ownerId" !in assigns && "employeeId" !in assigns
  {
  }

  /** Storing a new password digest and update time in an existing user keeps every constraint. */
  lemma DigestUpdateConsistent(tables: map<TableName, Table>, id: string, assigns: Row)
    requires Consistent(tables) && id in Get(tables, Users) && DigestAndTime(assigns)
    ensures Consistent(Updated(tables, Users, id, assigns))
  {
    assert TableOk(Users, Get(tables, Users));
    DigestRowOk(id, Get(tables, Users)[id], assigns);
    DigestAndTimeOnly(assigns);
    UpdateConsistent(tables, Users, id, assigns);
  }

  /** In a consistent state, a NOT NULL text column of every row holds a value. */
  lemma RequiredSet(tables: map<TableName, Table>, t: TableName, id: string, c: string)
    requires Consistent(tables) && id in Get(tables, t) && Req(c) in Columns(t)
    ensures Field(Get(tables, t)[id], c) != Null
  {
    assert TableOk(t, Get(tables, t));
    assert RowOk(t, id, Get(tables, t)[id]);
  }

  /** Deleting a row twice is deleting it once. */
  lemma DeletedIdempotent(tables: map<TableName, Table>, t: TableName, id: string)
    ensures Deleted(Deleted(tables, t, id), t, id) == Deleted(tables, t, id)
  {
    var after := Deleted(tables, t, id);
    assert t in after && after[t] == Get(after, t);
    assert Get(after, t) - {id} == Get(after, t);
    if t == Employees {
      EmployeeDeleted(tables, id);
      assert Memorandums in after && Recognitions in after;
      assert Unlinked(Get(after, Memorandums), "employeeId", id) == after[Memorandums];
      assert Unlinked(Get(after, Recognitions), "employeeId", id) == after[Recognitions];
      assert after[t := after[t]][Memorandums := after[Memorandums]][Recognitions := after[Recognitions]] == after;
    } else {
      assert after[t := after[t]] == after;
    }
  }

  /** Which tables an employee deletion touches, and how. */
  lemma EmployeeDeleted(tables: map<TableName, Table>, id: string)
    ensures var after := Deleted(tables, Employees, id);
      && Get(after, Employees) == Get(tables, Employees) - {id}
      && Get(after, Memorandums) == Unlinked(Get(tables, Memorandums), "employeeId", id)
      && Get(after, Recognitions) == Unlinked(Get(tables, Recognitions), "employeeId", id)
      && Get(after, Users) == Get(tables, Users)
      && Get(after, JobPosts) == Get(tables, JobPosts)
      && Get(after, Emprendimientos) == Get(tables, Emprendimientos)
  {
  }

  /** After the cascade, the remaining children still refer to remaining parents. */
  lemma CascadeRefers(children: Table, parents: Table, id: string)
    requires References(children, "employeeId", parents)
    ensures References(Unlinked(children, "employeeId", id), "employeeId", parents - {id})
  {
    var rest := Unlinked(children, "employeeId", id);
    forall k | k in rest
      ensures Refers(Field(rest[k], "employeeId"), parents - {id})
    {
      assert Refers(Field(children[k], "employeeId"), parents);
    }
  }
}

=== FILE: strings.dfy ===
/** Text helpers shared by the error classifier and the row filters: ASCII lower-casing, substring search, ordering. */
module Strings {

  /** `String.prototype.toLowerCase`, on the ASCII letters. */
  function LowerChar(c: char): (l: char)
    ensures !('A' <= l <= 'Z')
  {
    if 'A' <= c <= 'Z' then (c as int + 32) as char else c
  }

  function Lower(s: string): (l: string)
    ensures |l| == |s|
    ensures forall i :: 0 <= i < |s| ==> l[i] == LowerChar(s[i])
  {
    if s == [] then [] else [LowerChar(s[0])] + Lower(s[1..])
  }

  /** `text.includes(needle)`, searched from the front. */
  function Contains(text: string, needle: string): bool
    decreases |text|
  {
    if needle <= text then true
    else if text == [] then false
    else Contains(text[1..], needle)
  }

  /** `needle` occurs in `text` at some position. */
  ghost predicate OccursIn(needle: string, text: string) {
    exists i :: OccursAt(needle, text, i)
  }

  ghost predicate OccursAt(needle: string, text: string, i: int) {
    0 <= i <= |text| - |needle| && text[i..i + |needle|] == needle
  }

  /** The search finds the needle exactly when it occurs somewhere. */
  lemma {:induction false} ContainsOccurs(text: string, needle: string)
    ensures Contains(text, needle) <==> OccursIn(needle, text)
    decreases |text|
  {
    if needle <= text {
      assert OccursAt(needle, text, 0);
    } else if text != [] {
      ContainsOccurs(text[1..], needle);
      if OccursIn(needle, text[1..]) {
        var i :| OccursAt(needle, text[1..], i);
        OccursShifted(needle, text, i + 1);
      }
      if OccursIn(needle, text) {
        NotAtStart(needle, text);
        var i :| OccursAt(needle, text, i);
        OccursShifted(needle, text, i);
      }
    }
  }

  /** A needle longer than the text is never found. */
  lemma {:induction false} LongerNeedle(text: string, needle: string)
    requires |needle| > |text|
    ensures !Contains(text, needle)
    decreases |text|
  {
    if text != [] {
      LongerNeedle(text[1..], needle);
    }
  }

  /** Past the first character, an occurrence in `text` is one in `text[1..]`, one place earlier. */
  lemma OccursShifted(needle: string, text: string, i: int)
    requires 0 < i && text != []
    ensures OccursAt(needle, text, i) <==> OccursAt(needle, text[1..], i - 1)
  {
    if 0 <= i - 1 <= |text[1..]| - |needle| {
      assert text[1..][i - 1..i - 1 + |needle|] == text[i..i + |needle|];
    }
  }

  /** A needle that is not a prefix does not occur at position 0. */
  lemma NotAtStart(needle: string, text: string)
    requires !(needle <= text)
    ensures !OccursAt(needle, text, 0)
  {
    if |needle| <= |text| {
      assert text[0..|needle|] == text[..|needle|];
    }
  }

  lemma {:induction false} LowerIdempotent(s: string)
    ensures Lower(Lower(s)) == Lower(s)
  {
    var l := Lower(s);
    assert forall i :: 0 <= i < |s| ==> Lower(l)[i] == l[i];
  }

  /** `a` sorts no later than `b`, comparing characters by code point. */
  predicate LexLe(a: string, b: string) {
    if a == [] then true
    else if b == [] then false
    else if a[0] != b[0] then a[0] < b[0]
    else LexLe(a[1..], b[1..])
  }

  /** Any two strings are ordered one way or the other. */
  lemma {:induction false} LexTotal(a: string, b: string)
    ensures LexLe(a, b) || LexLe(b, a)
  {
    if a != [] && b != [] && a[0] == b[0] {
      LexTotal(a[1..], b[1..]);
    }
  }

  lemma {:induction false} LexTrans(a: string, b: string, c: string)
    requires LexLe(a, b) && LexLe(b, c)
    ensures LexLe(a, c)
  {
    if a != [] && b != [] && c != [] && a[0] == b[0] && b[0] == c[0] {
      LexTrans(a[1..], b[1..], c[1..]);
    }
  }

  /** Strings that sort no later than each other are equal. */
  lemma {:induction false} LexAntisymmetric(a: string, b: string)
    requires LexLe(a, b) && LexLe(b, a)
    ensures a == b
  {
    if a != [] && b != [] {
      LexAntisymmetric(a[1..], b[1..]);
      assert a == [a[0]] + a[1..];
      assert b == [b[0]] + b[1..];
    }
  }
}

=== FILE: users.dfy ===
/**
 * `/api/users`: profiles, which only their owner may edit or delete, and the
 * reviews any signed-in user may add to a profile, which keep the profile's
 * average rating.
 */
module UserRoutes {
  import opened Wrappers
  import opened Json
  import opened JsValues
  import opened Db
  import opened Binding
  import opened FieldCodec
  import opened DynamicUpdate
  import opened Http
  import opened Listing
  import opened Handlers

  // ================================================================ reading profiles

  /** The columns holding JSON text, each sent decoded (or `null`). */
  const JsonColumns := ["languages", "certificates", "skills", "experiences", "serviceCategories", "previousWorks", "reviews"]

  /** A user as sent: every column but the password, the JSON columns decoded. */
  function UserView(row: Row): (v: View)
    ensures "password" !in v
    ensures forall k :: k in row && k != "password" && k !in JsonColumns ==> k in v && v[k] == Stored(row[k])
    ensures forall k :: k in JsonColumns ==> k in v && v[k] == Value(DecodedOrNull(Field(row, k)))
    ensures forall k :: k in v ==> k in row || k in JsonColumns
  {
    WithoutPassword(RowView(row)) + map k | k in JsonColumns :: Value(DecodedOrNull(Field(row, k)))
  }

  /** role and city when given, isProfilePublic whenever the parameter is present, and the text search. */
  function UserFilters(query: Query): seq<Filter> {
    EqualsIfGiven(query, "role", "role") + EqualsIfGiven(query, "city", "city")
      + (if "isProfilePublic" in query then [Equals("isProfilePublic", Bit(query["isProfilePublic"] == "true"))] else [])
      + SearchIfGiven(query, ["name", "email", "career", "specialty"])
  }

  /** `?isProfilePublic=` anything but `true` lists the private profiles only. */
  lemma PublicFilter(query: Query, row: Row)
    requires "isProfilePublic" in query && query["isProfilePublic"] != "true"
    requires MatchesAll(UserFilters(query), row)
    ensures Field(row, "isProfilePublic") == Bit(false)
  {
    var i := |EqualsIfGiven(query, "role", "role") + EqualsIfGiven(query, "city", "city")|;
    assert UserFilters(query)[i] == Equals("isProfilePublic", Bit(false));
  }

  /** GET /api/users: the matching users, in no particular order, without passwords. */
  method ListUsers(db: Store, query: Query) returns (res: Response)
    ensures Listed(db.Rows(Users), UserFilters(query), Unordered, UserView, res)
  {
    res := List(db.Rows(Users), UserFilters(query), Unordered, UserView);
  }

  /** GET /api/users/:id */
  method GetUser(db: Store, id: string) returns (res: Response)
    ensures id !in db.Rows(Users) ==> res == Response(404, Error("Usuario no encontrado"))
    ensures id in db.Rows(Users) ==> res == Response(200, Record(UserView(db.Rows(Users)[id])))
  {
    var users := db.Rows(Users);
    if id !in users {
      return Response(404, Error("Usuario no encontrado"));
    }
    res := Response(200, Record(UserView(users[id])));
  }

  // ================================================================ editing a profile

  /** The fields a profile edit may change; neither the credentials nor the reviews are among them. */
  const ProfileFields := Whitelist(
    ["name", "phoneIntl", "city", "career", "specialty", "summary", "languages", "certificates", "skills",
     "experiences", "serviceCategories", "isProfilePublic", "previousWorks", "companyName", "taxId"],
    c => if c in ["languages", "certificates", "skills", "experiences", "serviceCategories", "previousWorks"] then JsonField
         else if c == "isProfilePublic" then BitField
         else TextField)

  lemma ProfileFieldsWellFormed()
    ensures WellFormed(ProfileFields)
    ensures forall c :: c in ["email", "password", "role", "reviews", "rating"] ==> c !in ColumnsOf(ProfileFields)
  {
    assert DistinctNames(["name", "phoneIntl", "city", "career", "specialty", "summary", "languages", "certificates",
      "skills", "experiences", "serviceCategories", "isProfilePublic", "previousWorks", "companyName", "taxId"]);
  }

  const ProfileTexts := Texts("", "No tienes permiso para editar este perfil",
    "Perfil actualizado exitosamente", "Error al actualizar perfil")

  /** PUT /api/users/:id: 403 unless the caller is that user, then the update; a missing user is not an error. */
  function EditProfileStep(before: map<TableName, Table>, user: Claims, id: string, body: Body, rt: Runtime, now: int): (r: Step)
    ensures r.res.status == 403 <==> user.userId != id
    ensures r.res.status == 200 ==> user.userId == id
    ensures r.res.status != 200 ==> r.tables == before
    ensures Consistent(before) ==> Consistent(r.tables)
  {
    if user.userId != id then Refuse(before, 403, ProfileTexts.forbidden)
    else UpdateStep(before, Users, id, ProfileFields, body, rt, now, ProfileTexts)
  }

  method EditProfile(db: Store, user: Claims, id: string, body: Body, rt: Runtime, now: int) returns (res: Response)
    modifies db
    ensures Step(res, db.tables) == EditProfileStep(old(db.tables), user, id, body, rt, now)
  {
    if user.userId != id {
      return Response(403, Error(ProfileTexts.forbidden));
    }
    res := PutRow(db, Users, id, ProfileFields, body, rt, now, ProfileTexts);
  }

  /**
   * A profile edit changes only the caller's own row, and never its email,
   * password, role, reviews or rating.
   */
  lemma ProfileEditKeepsCredentials(before: map<TableName, Table>, user: Claims, id: string, body: Body, rt: Runtime, now: int)
    requires EditProfileStep(before, user, id, body, rt, now).res.status == 200
    ensures var after := EditProfileStep(before, user, id, body, rt, now).tables;
      && Get(after, Users).Keys == Get(before, Users).Keys
      && (forall k :: k in Get(before, Users) && k != user.userId ==> Get(after, Users)[k] == Get(before, Users)[k])
      && (forall u :: u != Users ==> Get(after, u) == Get(before, u))
      && (forall c :: c in ["email", "password", "role", "reviews", "rating"] && id in Get(before, Users) ==>
            Field(Get(after, Users)[id], c) == Field(Get(before, Users)[id], c))
  {
    ProfileFieldsWellFormed();
    UpdateStepKeeps(before, Users, id, ProfileFields, body, rt, now, ProfileTexts);
    assert forall c :: c in ["email", "password", "role", "reviews", "rating"] ==> c != "updatedAt";
  }

  // ================================================================ deleting a profile

  const DeleteUserTexts := Texts("", "No tienes permiso para eliminar este perfil",
    "Usuario eliminado exitosamente", "Error al eliminar usuario")

  /** DELETE /api/users/:id: 403 unless the caller is that user, then the delete. */
  function DeleteUserStep(before: map<TableName, Table>, user: Claims, id: string): (r: Step)
    ensures r.res.status == 403 <==> user.userId != id
    ensures r.res.status != 200 ==> r.tables == before
    ensures r.res.status == 200 ==> user.userId == id && r.tables == Deleted(before, Users, id)
    ensures Consistent(before) ==> Consistent(r.tables)
  {
    if user.userId != id then Refuse(before, 403, DeleteUserTexts.forbidden)
    else DeleteStep(before, Users, id, DeleteUserTexts)
  }

  method DeleteUser(db: Store, user: Claims, id: string) returns (res: Response)
    modifies db
    ensures Step(res, db.tables) == DeleteUserStep(old(db.tables), user, id)
  {
    if user.userId != id {
      return Response(403, Error(DeleteUserTexts.forbidden));
    }
    res := Remove(db, Users, id, DeleteUserTexts);
  }

  /** A user who still owns a job post cannot delete the profile: the foreign key refuses it and nothing changes. */
  lemma EmployerWithPostsStays(before: map<TableName, Table>, user: Claims, post: string)
    requires post in Get(before, JobPosts) && Field(Get(before, JobPosts)[post], "employerId") == Text(user.userId)
    requires user.userId in Get(before, Users)
    ensures DeleteUserStep(before, user, user.userId) == Refuse(before, 500, "Error al eliminar usuario")
  {
    var after := Deleted(before, Users, user.userId);
    assert Get(after, JobPosts) == Get(before, JobPosts);
    assert !Refers(Field(Get(after, JobPosts)[post], "employerId"), Get(after, Users));
  }

  // ================================================================ reviews

  const ReviewChecks := [
    Check("comment", NotEmpty, "El comentario es requerido"),
    Check("rating", IsFloat(Some(0.0), Some(5.0)), "La calificación debe estar entre 0 y 5")
  ]

  /** A review passes validation exactly when the comment is non-empty and the rating is a number from 0 to 5. */
  lemma ReviewValidation(rt: Runtime, body: Body)
    ensures Validate(rt, ReviewChecks, body) == [] <==>
      (&& Every(Lookup(body, "comment"), t => t != "")
       && Every(Lookup(body, "rating"), t => IsFloatText(t, Some(0.0), Some(5.0))))
    ensures Validate(rt, ReviewChecks, body) == [] ==>
      "comment" in body && "rating" in body && body["rating"] != JNull
  {
    ValidateEach(rt, ReviewChecks, body);
    PassesText(rt, Lookup(body, "comment"));
    if Validate(rt, ReviewChecks, body) == [] {
      FloatCheck(rt, Lookup(body, "rating"), 0.0, 5.0);
    }
  }

  /** `authorResult.recordset[0]?.name || 'Anónimo'` */
  function AuthorName(users: Table, userId: string): (name: string)
    ensures name != ""
    ensures userId in users && Field(users[userId], "name").Text? && Field(users[userId], "name").s != "" ==>
      name == Field(users[userId], "name").s
  {
    if userId in users && Field(users[userId], "name").Text? && Field(users[userId], "name").s != ""
    then Field(users[userId], "name").s
    else "Anónimo"
  }

  /** The entry pushed: the author, the comment as sent, the rating as text and the date. */
  function ReviewEntry(author: string, comment: Json, rating: Json, date: string): Json {
    JObj([Member("author", JStr(author)), Member("comment", comment), Member("rating", JStr(JsString(rating))),
      Member("date", JStr(date))])
  }

  /** The value of an object's property; with a repeated key the last one counts, as `JSON.parse` keeps it. */
  function Property(members: seq<Member>, key: string): (v: Option<Json>)
    ensures v.Some? ==> Member(key, v.value) in members
    ensures v.None? ==> forall m :: m in members ==> m.key != key
  {
    if members == [] then None
    else if members[|members| - 1].key == key then Some(members[|members| - 1].value)
    else Property(members[..|members| - 1], key)
  }

  /**
   * `parseFloat(r.rating)` for one stored review. `None` stands for a NaN, which
   * makes the sum NaN and the driver reject the average, and for a review
   * that is `null`, on which reading `rating` throws: both end in the 500.
   */
  function EntryRating(entry: Json): (x: Option<real>)
    ensures x.Some? ==> entry.JObj? && Property(entry.members, "rating").Some?
  {
    match entry
    case JObj(members) =>
      (match Property(members, "rating")
       case Some(v) => ParseFloat(JsString(v))
       case None => None)
    case _ => None
  }

  /** One step of the reduce: the sum so far plus one rating, NaN once either is. */
  function Plus(sum: Option<real>, x: Option<real>): (r: Option<real>)
    ensures r.Some? <==> sum.Some? && x.Some?
    ensures r.Some? ==> r.value == sum.value + x.value
  {
    if sum.Some? && x.Some? then Some(sum.value + x.value) else None
  }

  /** `reviews.reduce((sum, r) => sum + parseFloat(r.rating), 0)` */
  function Total(entries: seq<Json>): Option<real> {
    if entries == [] then Some(0.0)
    else Plus(Total(entries[..|entries| - 1]), EntryRating(entries[|entries| - 1]))
  }

  /** The reduce, as the loop it runs. */
  method TotalRating(entries: seq<Json>) returns (total: Option<real>)
    ensures total == Total(entries)
  {
    total := Some(0.0);
    var i := 0;
    while i < |entries|
      invariant 0 <= i <= |entries|
      invariant total == Total(entries[..i])
    {
      var prefix := entries[..i + 1];
      assert prefix[..|prefix| - 1] == entries[..i] && prefix[|prefix| - 1] == entries[i];
      total := Plus(total, EntryRating(entries[i]));
      i := i + 1;
    }
    assert entries[..|entries|] == entries;
  }

  /** Every review carries a rating from 0 to 5. */
  predicate RatedWithinScale(entries: seq<Json>) {
    forall i :: 0 <= i < |entries| ==> EntryRating(entries[i]).Some? && 0.0 <= EntryRating(entries[i]).value <= 5.0
  }

  /** The sum of ratings from 0 to 5 exists and lies between 0 and five times their number. */
  lemma {:induction false} TotalWithinScale(entries: seq<Json>)
    requires RatedWithinScale(entries)
    ensures Total(entries).Some?
    ensures 0.0 <= Total(entries).value <= 5.0 * |entries| as real
  {
    if entries != [] {
      var init := entries[..|entries| - 1];
      assert RatedWithinScale(init) by {
        forall i | 0 <= i < |init| ensures EntryRating(init[i]).Some? && 0.0 <= EntryRating(init[i]).value <= 5.0 {
          assert init[i] == entries[i];
        }
      }
      TotalWithinScale(init);
    }
  }

  /** The review list stored for a user: `parseJsonField(reviews) || []`. */
  function StoredReviews(row: Row): Json {
    Decoded(Field(row, "reviews"), JArr([]))
  }

  /** The list after the push, and the average the route computes over it. */
  datatype Tally = Tally(entries: seq<Json>, avg: real)

  /**
   * Appends the entry to the stored list and averages the ratings: `None` when
   * the stored value is not an array (`push` throws) or a rating is not a number.
   */
  function Tallied(stored: Json, entry: Json): (t: Option<Tally>)
    ensures t.Some? <==> stored.JArr? && Total(stored.items + [entry]).Some?
    ensures t.Some? ==>
      t.value.entries == stored.items + [entry] && t.value.avg == Total(t.value.entries).value / |t.value.entries| as real
  {
    match stored
    case JArr(items) =>
      var entries := items + [entry];
      (match Total(entries)
       case Some(total) => Some(Tally(entries, total / |entries| as real))
       case None => None)
    case _ => None
  }

  /** The columns the review UPDATE writes. */
  function ReviewAssigns(entries: seq<Json>, avg: real, now: int): Row {
    map["reviews" := Text(Stringify(JArr(entries))), "rating" := Num(avg), "updatedAt" := Time(now)]
  }

  const ReviewAdded := "Reseña agregada exitosamente"
  const ReviewFailed := "Error al agregar reseña"

  /**
   * POST /api/users/:id/reviews: 400 on validation, 404 for an unknown user;
   * then the entry is appended to the stored list, the average of all ratings
   * computed, and both written back. A stored list that is not an array, or a
   * rating that is not a number, is the route's 500.
   */
  function ReviewStep(before: map<TableName, Table>, user: Claims, id: string, body: Body, rt: Runtime,
                      date: string, now: int): Step
  {
    var errors := Validate(rt, ReviewChecks, body);
    if errors != [] then Step(Rejection(errors), before)
    else
      ReviewValidation(rt, body);
      var users := Get(before, Users);
      if id !in users then Refuse(before, 404, "Usuario no encontrado")
      else
        var entry := ReviewEntry(AuthorName(users, user.userId), body["comment"], body["rating"], date);
        match Tallied(StoredReviews(users[id]), entry)
        case Some(t) =>
          Run(before, Updated(before, Users, id, ReviewAssigns(t.entries, t.avg, now)), Response(200, Rated(ReviewAdded, t.avg)), ReviewFailed)
        case None => Refuse(before, 500, ReviewFailed)
  }

  method AddReview(db: Store, user: Claims, id: string, body: Body, rt: Runtime, date: string, now: int) returns (res: Response)
    modifies db
    ensures Step(res, db.tables) == ReviewStep(old(db.tables), user, id, body, rt, date, now)
  {
    var errors := Validate(rt, ReviewChecks, body);
    if errors != [] {
      return Rejection(errors);
    }
    ReviewValidation(rt, body);
    var users := db.Rows(Users);
    if id !in users {
      return Response(404, Error("Usuario no encontrado"));
    }
    var entry := ReviewEntry(AuthorName(users, user.userId), body["comment"], body["rating"], date);
    var stored := StoredReviews(users[id]);
    if !stored.JArr? {
      return Response(500, Error(ReviewFailed));
    }
    var entries := stored.items + [entry];
    var total := TotalRating(entries);
    if total.None? {
      return Response(500, Error(ReviewFailed));
    }
    var avg := total.value / |entries| as real;
    ghost var before := db.tables;
    var ok := db.Update(Users, id, ReviewAssigns(entries, avg, now));
    res := if ok then Response(200, Rated(ReviewAdded, avg)) else Response(500, Error(ReviewFailed));
    assert Tallied(stored, entry) == Some(Tally(entries, avg));
    assert Step(res, db.tables) == Run(before, Updated(before, Users, id, ReviewAssigns(entries, avg, now)), Response(200, Rated(ReviewAdded, avg)), ReviewFailed);
  }

  /** The rating the new entry carries reads back as the number sent. */
  lemma NewEntryRating(author: string, comment: Json, rating: Json, date: string)
    ensures EntryRating(ReviewEntry(author, comment, rating, date)) == ParseFloat(JsString(rating))
  {
    var ms := ReviewEntry(author, comment, rating, date).members;
    var init := ms[..|ms| - 1];
    assert ms[|ms| - 1].key == "date";
    assert init[|init| - 1] == Member("rating", JStr(JsString(rating)));
    assert Property(ms, "rating") == Property(init, "rating");
  }

  /** The new entry of a review that passes validation. */
  function SentEntry(users: Table, user: Claims, body: Body, rt: Runtime, date: string): Json
    requires Validate(rt, ReviewChecks, body) == []
  {
    ReviewValidation(rt, body);
    ReviewEntry(AuthorName(users, user.userId), body["comment"], body["rating"], date)
  }

  /** A successful review runs the UPDATE with the tallied list and average, and answers with that average. */
  lemma ReviewApplied(before: map<TableName, Table>, user: Claims, id: string, body: Body, rt: Runtime, date: string, now: int)
    requires ReviewStep(before, user, id, body, rt, date, now).res.status == 200
    ensures Validate(rt, ReviewChecks, body) == [] && id in Get(before, Users)
    ensures var t := Tallied(StoredReviews(Get(before, Users)[id]), SentEntry(Get(before, Users), user, body, rt, date));
      var r := ReviewStep(before, user, id, body, rt, date, now);
      && t.Some?
      && r.res == Response(200, Rated(ReviewAdded, t.value.avg))
      && r.tables == Updated(before, Users, id, ReviewAssigns(t.value.entries, t.value.avg, now))
  {
  }

  /** The review UPDATE stores the list so that it reads back as written, and the average as the rating. */
  lemma ReviewStored(before: map<TableName, Table>, id: string, entries: seq<Json>, avg: real, now: int)
    requires id in Get(before, Users)
    ensures var after := Get(Updated(before, Users, id, ReviewAssigns(entries, avg, now)), Users);
      && after.Keys == Get(before, Users).Keys
      && StoredReviews(after[id]) == JArr(entries)
      && Field(after[id], "rating") == Num(avg)
      && Field(after[id], "updatedAt") == Time(now)
      && (forall k :: k in after && k != id ==> after[k] == Get(before, Users)[k])
  {
    UpdateTouchesOneRow(before, Users, id, ReviewAssigns(entries, avg, now));
    StoredRoundTrip(JArr(entries), JArr([]));
  }

  /** Appending a review rated from 0 to 5 keeps every review so rated. */
  lemma RatedAppend(stored: seq<Json>, entry: Json)
    requires RatedWithinScale(stored)
    requires EntryRating(entry).Some? && 0.0 <= EntryRating(entry).value <= 5.0
    ensures RatedWithinScale(stored + [entry])
  {
    var entries := stored + [entry];
    forall i | 0 <= i < |entries| ensures EntryRating(entries[i]).Some? && 0.0 <= EntryRating(entries[i]).value <= 5.0 {
      if i < |stored| {
        assert entries[i] == stored[i];
      }
    }
  }

  /** An average of values from 0 to 5 lies from 0 to 5. */
  lemma MeanWithin(total: real, n: nat)
    requires n > 0 && 0.0 <= total <= 5.0 * n as real
    ensures 0.0 <= total / n as real <= 5.0
  {
  }

  /** Ratings from 0 to 5 and one more from 0 to 5 give a tally whose average and every rating lie from 0 to 5. */
  lemma TallyWithinScale(stored: seq<Json>, entry: Json)
    requires RatedWithinScale(stored)
    requires EntryRating(entry).Some? && 0.0 <= EntryRating(entry).value <= 5.0
    ensures var t := Tallied(JArr(stored), entry);
      && t.Some?
      && 0.0 <= t.value.avg <= 5.0
      && RatedWithinScale(t.value.entries)
  {
    RatedAppend(stored, entry);
    TotalWithinScale(stored + [entry]);
    MeanWithin(Total(stored + [entry]).value, |stored + [entry]|);
  }

  /**
   * A review that passes validation carries a rating from 0 to 5, except a
   * rating sent as the empty array: it passes with no element to check, and
   * its text "" reads as NaN.
   */
  lemma SentEntryWithinScale(users: Table, user: Claims, body: Body, rt: Runtime, date: string)
    requires Validate(rt, ReviewChecks, body) == []
    ensures var x := EntryRating(SentEntry(users, user, body, rt, date));
      if Lookup(body, "rating") == Js(JArr([])) then x.None? else x.Some? && 0.0 <= x.value <= 5.0
  {
    ReviewValidation(rt, body);
    assert Passes(rt, ReviewChecks[1].rule, Lookup(body, "rating"));
    FloatCheck(rt, Lookup(body, "rating"), 0.0, 5.0);
    NewEntryRating(AuthorName(users, user.userId), body["comment"], body["rating"], date);
  }

  /**
   * When every review a user has carries a rating from 0 to 5, adding one
   * keeps that so, and the average the route stores lies from 0 to 5.
   */
  lemma ReviewKeepsScale(before: map<TableName, Table>, user: Claims, id: string, body: Body, rt: Runtime, date: string, now: int)
    requires ReviewStep(before, user, id, body, rt, date, now).res.status == 200
    requires id in Get(before, Users) && StoredReviews(Get(before, Users)[id]).JArr?
    requires RatedWithinScale(StoredReviews(Get(before, Users)[id]).items)
    ensures Validate(rt, ReviewChecks, body) == []
    ensures var t := Tallied(StoredReviews(Get(before, Users)[id]), SentEntry(Get(before, Users), user, body, rt, date));
      t.Some? && 0.0 <= t.value.avg <= 5.0 && RatedWithinScale(t.value.entries)
  {
    ReviewApplied(before, user, id, body, rt, date, now);
    var users := Get(before, Users);
    var stored, entry := StoredReviews(users[id]).items, SentEntry(users, user, body, rt, date);
    assert (stored + [entry])[..|stored|] == stored && (stored + [entry])[|stored|] == entry;
    assert EntryRating(entry).Some?;
    SentEntryWithinScale(users, user, body, rt, date);
    TallyWithinScale(stored, entry);
  }
}

=== FILE: wrappers.dfy ===
/** Optional values, used wherever the source has `undefined`, `null` or a failed lookup. */
module Wrappers {

  datatype Option<+T> = None | Some(value: T) {

    /** The wrapped value, or `default` when there is none. */
    function GetOr(default: T): T {
      match this
      case Some(v) => v
      case None => default
    }
  }
}
